=== FILE: README.md ===
# OFAC SDN mapper: a Dafny model

Two Python converters turn the U.S. Treasury's OFAC Specially Designated
Nationals list (an XML document of `sdnEntry` elements) into JSON records for
Senzing entity resolution. `ofac_mapper.py` classifies identifiers through a
persisted code-conversion table. The table counts every code it meets and is
saved back as a CSV report. `ofac2json.py` classifies identifiers with a
fixed, ordered chain of rules. It can also emit vessels and aircraft, and it
adds ISO country codes.

This project models the normalisation core of both converters as pure Dafny
functions over immutable data:

- the code-conversion table: load, update and save (`code_table.dfy`, `code_file.dfy`);
- the mapping log kept by `updateStat` (`stat_pack.dfy`);
- the namespace-stripping loop (`namespaces.dfy`);
- `formatDate`, with abstract parsers (`dates.dfy`);
- `getValue` and the parts both converters share: names, programs, attribute
  dicts, addresses and vessel details (`sdn_entry.dfy`);
- the per-entry assembly of each converter (`mapper_record.dfy`, `ofac2json_record.dfy`);
- `remove_empty_tags`, over a small JSON datatype (`json.dfy`).

Support modules:

- `text.dfy`: ASCII strings, with Python's `strip`, `upper`, `find`,
  `replace`, `join` and `sorted` ordering.
- `json.dfy`: a JSON value whose objects keep insertion order, as Python's
  `dict` does.
- `wrappers.dfy`: `Option`.

Each input `sdnEntry` is an `Entry` whose fields hold the strings
`getValue` would return. Missing elements are `""`.

## Model

| member | source | states |
|---|---|---|
| SdnEntry.GetValue | ofac2json.py:21-28 | a missing element or one without text reads as ""; otherwise the result is the element's text with leading and trailing whitespace removed and no whitespace at either end |
| Dates.FirstParse | ofac2json.py:47-52 | the chosen pattern is the first in list order that parses the input, and none is chosen exactly when no pattern parses |
| Dates.FormatDate | ofac2json.py:31-54 | an input no pattern reads comes back unchanged; otherwise the date read by the first pattern that parses it is printed in the requested format |
| Dates.DateAndYearAgree | ofac2json.py:190-193 | the full date and the year of one input come from the same parse, or both fall back to the input |
| Dates.EarlierPatternWins | ofac_mapper.py:29-44 | an input both `%m/%d/%Y` and `%m/%d/%y` accept is read with the four-digit year |
| StatPack.OfferExample | ofac_mapper.py:57-65 | the offered example ends up held; a held one changes nothing; a non-full list gets it appended; a full list changes only the chosen slot |
| StatPack.UpdateStat | ofac_mapper.py:49-66 | a new statistic starts at count 2, a known one gains 1; an empty example leaves the examples alone; no other statistic changes |
| StatPack.OfferKeepsDistinct | ofac_mapper.py:60-65 | offering keeps an example list at most five long and free of duplicates |
| StatPack.UpdateStatWellFormed | ofac_mapper.py:49-66 | every example list in the log stays at most five distinct values after any update |
| StatPack.FirstTwoStay | ofac_mapper.py:64-65 | the replacement slot is 2..4, so the first two examples kept never change |
| StatPack.CountAfterCalls | ofac_mapper.py:50-56 | after any run of calls from an empty log, a statistic touched n > 0 times reports n + 1, and an untouched one is absent |
| StatPack.CallsWellFormed | ofac_mapper.py:49-66 | after any run of calls from an empty log, every example list is short and duplicate-free |
| Namespaces.StripStep | ofac_mapper.py:196 | one pass cuts the declaration up to, not including, the first '>' after it, or keeps only the last character when there is none; the text before it is kept and the text shrinks |
| Namespaces.StripAll | ofac_mapper.py:194-197 | repeating the cut at the first occurrence past index 0 ends with a text in which " xmlns:" does not occur, or first occurs at index 0; a settled text is left as it is; the text never grows |
| Namespaces.StripNamespaces | ofac_mapper.py:194-197 | the loop ends with exactly the text the repeated cut produces, so on exit " xmlns:" does not occur, or first occurs at index 0; a document the loop does not enter is unchanged; the text never grows |
| Namespaces.UnclosedDeclaration | ofac_mapper.py:194-197 | with no '>' after a declaration only the last character survives the cut, and that character can complete an earlier " xmlns:": "a xmlns xmlns:b:" first loses its declaration at index 7 and ends as "a:" |
| Namespaces.StripsOnlyDeclaration | ofac_mapper.py:194-197 | a document whose one declaration past its first character is closed by a '>' comes back with just that declaration removed, the '>' and everything around it kept |
| Namespaces.FindMeansSettled | ofac2json.py:77-78 | the loop condition `find(...) > 0` fails exactly when the text is settled |
| Namespaces.StripsDeclaration | ofac2json.py:77-80 | a declaration without '>' in it is cut up to its closing '>', which stays; the text before and after it is kept as it is |
| CodeTable.Bump | ofac_mapper.py:145-146 | a seen example's count goes up by one and every other count stays |
| CodeTable.AddExample | ofac_mapper.py:144-148 | a seen example gains one; an unseen one is added with count 1 only below 1,000,000 values and is dropped otherwise; a new value goes after every value seen before it; the dict never exceeds the cap and stays duplicate-free with positive counts |
| CodeTable.UpdateCodeStats | ofac_mapper.py:130-148 | a missing entry is created unreviewed with the given mapping and count 1; an existing entry keeps REVIEWED, RAW_MODIFIER, SENZING_ATTR and SENZING_DEFAULT and its COUNT grows by one; no other entry changes |
| CodeTable.UpdatePreservesWellFormed | ofac_mapper.py:143-148 | updates keep every entry filed under its own keys with at most 1,000,000 distinct positive examples |
| CodeTable.UsesKeepMapping | ofac_mapper.py:130-141 | over any run of updates a loaded entry keeps its mapping decision, and its COUNT grows by exactly the number of times it was looked up |
| CodeTable.ReviewedFlags | ofac_mapper.py:82 | a row counts as reviewed exactly when its REVIEWED is "Y" or "y" |
| CodeTable.LoadCodes | ofac_mapper.py:69-84 | a pair is loaded exactly when some row carries it; the last row with the pair decides its entry, with COUNT 0 and no examples; the unmapped count is the number of rows, duplicates included, not reviewed |
| CodeTable.LoadRowFrame | ofac_mapper.py:77-81 | loading a row sets only its own pair |
| CodeTable.LoadStepLast | ofac_mapper.py:81 | after each row, every pair holds the entry of the last row so far that carries it |
| CodeFile.InsertByCount | ofac_mapper.py:100 | inserting into a count-ordered list keeps it count-ordered and a permutation of the input plus the new example |
| CodeFile.SortByCount | ofac_mapper.py:100 | the sorted examples are a permutation of the input in non-increasing count order |
| CodeFile.SortIsStable | ofac_mapper.py:100 | examples with equal counts keep their first-seen order, as Python's stable sort does |
| CodeFile.SumSorted | ofac_mapper.py:100-102 | sorting changes no total over the examples |
| CodeFile.NonNull | ofac_mapper.py:101 | the reported examples are exactly those other than 'null' |
| CodeFile.NonNullAppend | ofac_mapper.py:100-101 | dropping 'null' works example by example: the result for two runs of examples is the two results one after the other, so order is kept |
| CodeFile.TallyLoop | ofac_mapper.py:100-104 | the loop totals the non-null counts and fills the TOP columns with the first ten non-null examples rendered as "value (count)" |
| CodeFile.Pad | ofac_mapper.py:105-106 | there are always exactly ten TOP columns: the filled ones first, then empty cells |
| CodeFile.TopExamplesAreTop | ofac_mapper.py:100-104 | the examples shown are at most ten non-null examples, and none left out has a higher count than one shown |
| CodeFile.ReportEntry | ofac_mapper.py:96-126 | a row copies REVIEWED, RAW_* and SENZING_* verbatim; RECORD_COUNT is the non-null total; UNIQUE_COUNT counts every example including 'null'; UNIQUE_PERCENT takes the integer-0 branch exactly when RECORD_COUNT is 0, and otherwise carries UNIQUE_COUNT and RECORD_COUNT, from which the rounded percentage is computed |
| CodeFile.ReportEntryTop | ofac_mapper.py:100-106 | the ten TOP columns show the top examples as "value (count)", most frequent first, followed by empty cells |
| CodeFile.SaveCodesRows | ofac_mapper.py:94-95 | the report has one row for every entry and nothing else, strictly ascending by RAW_TYPE then RAW_CODE |
| CodeFile.SaveThenLoad | ofac_mapper.py:69-127 | loading a saved table gives back the same table with its statistics reset |
| JsonValue.Set | ofac_mapper.py:372-375 | assigning a key overwrites it in place or appends it at the end; no other key's value changes |
| JsonValue.RemoveEmptyTagsCleans | ofac_mapper.py:163-173 | after the cleanup no object anywhere holds a null or blank value |
| JsonValue.RemoveEmptyTagsFixes | ofac_mapper.py:163-173 | a value that is already clean is returned unchanged |
| JsonValue.RemoveEmptyTagsIdempotent | ofac_mapper.py:163-173 | cleaning twice is the same as cleaning once |
| SdnEntry.SetPresentGet | ofac2json.py:138-141 | a present value is written under its key, an empty one leaves that key as it was, and no other key changes |
| SdnEntry.SetPresentKeys | ofac2json.py:138-141 | keys new to the record are appended in the order the fields are written |
| SdnEntry.ProgramStringIsJoin | ofac2json.py:145-153 | SDN_PROGRAM is the present programs joined by ", ", in order |
| SdnEntry.NameDict | ofac2json.py:158-168 | NAME_TYPE is set; anything but an individual gets NAME_ORG, even when empty; an individual gets only the parts of the name that are present |
| SdnEntry.AkaNames | ofac2json.py:170-181 | one name dict for every AKA with a last or first name, and no other |
| SdnEntry.AkaNamesAppend | ofac2json.py:170-181 | the AKA loop works AKA by AKA: two runs of AKAs give their two name lists one after the other, and one AKA gives its name dict exactly when it has a name |
| SdnEntry.NameList | ofac2json.py:156-183 | the PRIMARY name comes first when the entry has one; after it come all the AKA names, in AKA order, and nothing else |
| SdnEntry.AkaTypeExample | ofac2json.py:172 | the AKA type "a.k.a." becomes NAME_TYPE "AKA" |
| SdnEntry.AkaTypeClean | ofac2json.py:172 | NAME_TYPE never holds a '.' or a lower-case letter |
| SdnEntry.EmptyOrgName | ofac_mapper.py:263-267 | an entity with only a first name gets a PRIMARY name whose NAME_ORG is empty |
| SdnEntry.Tagged | ofac_mapper.py:303-309 | one single-key dict per present value, and every present value gets one |
| SdnEntry.TaggedAppend | ofac_mapper.py:303-309 | the loop works value by value: two runs of values give their two lists one after the other, and an empty value gives nothing |
| SdnEntry.AddressDictContents | ofac2json.py:225-239 | an address dict holds exactly the present components under their keys, in address order |
| SdnEntry.UnknownLineDropped | ofac_mapper.py:318-319 | ofac_mapper.py never writes "Address Unknown" as ADDR_LINE1, while ofac2json.py does |
| SdnEntry.AddressList | ofac2json.py:222-243 | every listed dict is the non-empty dict of one of the addresses, and every non-empty address dict is listed |
| SdnEntry.AddressListAppend | ofac2json.py:222-243 | the loop works address by address: two runs of addresses give their two lists one after the other, and one address gives its dict exactly when that is not empty |
| SdnEntry.BlankAddressDropped | ofac2json.py:240-241 | an address with no present component adds nothing |
| SdnEntry.VesselFieldsContents | ofac2json.py:303-315 | each present vessel detail is written under its key, and nothing else in the record changes |
| MapperRecord.RecordType | ofac_mapper.py:221-226 | an entity becomes an ORGANIZATION and an individual a PERSON, each exactly then; nothing else is converted |
| MapperRecord.NeverVessel | ofac_mapper.py:383 | no entry becomes a VESSEL record, so the vessel block is never reached |
| MapperRecord.MappedId | ofac_mapper.py:360-367 | the ID dict leads with the table's attribute; *_TYPE appears only for OTHER_ID_NUMBER and NATIONAL_ID_NUMBER; *_COUNTRY appears only when the country entry has a SENZING_DEFAULT; the number is kept as read |
| MapperRecord.AddUnmapped | ofac_mapper.py:372-375 | the first unmapped value of a type sets the field; a repeat appends " \| " and the new text; no other field changes |
| MapperRecord.CountId | ofac_mapper.py:352-356 | the idType is counted once; the idCountry is counted only when present; mapping decisions and all other codes are untouched |
| MapperRecord.ClassifyId | ofac_mapper.py:345-375 | an identifier without a number changes nothing; a mapped type adds one ID dict and leaves the record alone; an unmapped type writes to the record under the type's name |
| MapperRecord.ClassifyIdsCounts | ofac_mapper.py:344-356 | over an entry, mapping decisions survive and each type's count grows by the number of its identifiers that have a number |
| MapperRecord.UnmappedRepeatJoins | ofac_mapper.py:370-375 | two unmapped identifiers of one type end up in one field joined by " \| " in document order |
| MapperRecord.ImoNumberKept | ofac_mapper.py:360-363 | every IMO_NUMBER is written exactly as read, "IMO " prefix included, whatever the country entry |
| MapperRecord.UnparsedDateKept | ofac_mapper.py:293-296 | a date of birth no pattern reads is listed as written |
| MapperRecord.MapEntry | ofac_mapper.py:221-380 | no record and an untouched table for anything but an entity or individual; otherwise the header fields lead in order and the table keeps every mapping decision |
| MapperRecord.WithBodyGet | ofac_mapper.py:244-339 | on a header without body keys, SDN_TITLE, SDN_REMARKS and SDN_PROGRAM hold the entry's texts when present, NAME_LIST, ATTR_LIST and ADDR_LIST hold their lists when not empty, and nothing is under ID_LIST yet |
| MapperRecord.WithBodyFrame | ofac_mapper.py:244-339 | the body leaves every key outside it as the header had it |
| MapperRecord.HeaderFieldKept | ofac_mapper.py:239-243 | a header field that no identifier type is named after keeps its header value in the finished record |
| MapperRecord.HeaderValues | ofac_mapper.py:239-243 | the header holds DATA_SOURCE "OFAC", the record type, the uid as RECORD_ID and as OFAC_ID, and the publish date |
| MapperRecord.MapEntryHeader | ofac_mapper.py:239-243 | an entity's or individual's finished record carries DATA_SOURCE "OFAC", its record type, its uid as RECORD_ID and OFAC_ID, and the publish date |
| MapperRecord.MapEntryBody | ofac_mapper.py:244-380 | the finished record holds the entry's present texts, its non-empty name, attribute and address lists, and, when not empty, the ID_LIST the identifier loop builds from the table |
| Ofac2Json.EntityType | ofac2json.py:117-127 | an entity becomes an ORGANIZATION and an individual a PERSON, always; a vessel a VESSEL and an aircraft an AIRCRAFT, only with includeAll; each type exactly then, and nothing else produces a record |
| Ofac2Json.SameTypesAsMapper | ofac2json.py:118 | without includeAll both converters select the same entries with the same types |
| Ofac2Json.IncludeAllOnlyAdds | ofac2json.py:118-127 | includeAll adds only VESSEL and AIRCRAFT records and changes no other type |
| Ofac2Json.DobsAsMapper | ofac2json.py:190-195 | the DATE_OF_BIRTH entries are exactly ofac_mapper.py's, in the same order |
| Ofac2Json.DobPairs | ofac2json.py:190-195 | every second entry starting at 0 is the DATE_OF_BIRTH of a present date of birth, and the next entry is the YEAR_OF_BIRTH of that same date |
| Ofac2Json.CountriesAsMapper | ofac2json.py:197-216 | with the ISO codes taken out, the place-of-birth, nationality and citizenship entries are exactly ofac_mapper.py's |
| Ofac2Json.IsoCodeFollowsValue | ofac2json.py:199-201 | every ISO code sits right after the value whose upper-cased form the ISO table maps to it |
| Ofac2Json.CountryAttrsAppend | ofac2json.py:197-216 | the country entries of a list are those of its parts in order; one value contributes exactly its own entry and, when present, its code |
| Ofac2Json.ValueThenIsoCode | ofac2json.py:197-216 | each present value's entry sits after the entries of the values before it, and is followed by the ISO code of its upper-cased form exactly when the table holds that form |
| Ofac2Json.FirstRuleDecides | ofac2json.py:253-292 | the first rule whose condition holds decides the ID dict, and none holding means passthrough |
| Ofac2Json.ChainIsRules | ofac2json.py:253-292 | the written if/elif chain equals the rule table tried in order: SSN, DRIVER, PASSPORT, national id, vessel types, aircraft types |
| Ofac2Json.WithCountry | ofac2json.py:256-270 | the number leads; the companion country field appears only when the rule has one and idCountry is present |
| Ofac2Json.SsnBeforePassport | ofac2json.py:253-264 | an identifier whose type mentions both SSN and PASSPORT is an SSN |
| Ofac2Json.ImoPrefixRemoved | ofac2json.py:273-274 | "IMO " followed by any number is written as that number alone |
| Ofac2Json.AddOther | ofac2json.py:289-292 | a passthrough number is appended to its type's group, which is created if new; other groups are unchanged and types stay distinct |
| Ofac2Json.AddOtherOrder | ofac2json.py:289-292 | a new type's group is opened at the end, after every earlier group; a known type leaves every group in its place |
| Ofac2Json.PassthroughGroups | ofac2json.py:246-292 | each passthrough group holds exactly the numbers of its type that no rule took, in document order |
| Ofac2Json.IdListIsTaken | ofac2json.py:246-297 | ID_LIST holds one dict per identifier some rule took, in order |
| Ofac2Json.WriteGroupsGet | ofac2json.py:298-300 | each group is written as its numbers joined by " \| " |
| Ofac2Json.WriteGroupsKeys | ofac2json.py:298-300 | a group whose type the record already holds is written in place; the other types are appended as new keys in the order their groups were opened |
| Ofac2Json.ConvertEntry | ofac2json.py:117-315 | a record exists exactly when the type is selected, and its header fields lead in order |
| Ofac2Json.ConvertEntryVessel | ofac2json.py:303-315 | a VESSEL record holds each present vessel detail under its key; no other record, and no absent detail, has a value under a vessel detail key |
| Ofac2Json.ConvertEntryBody | ofac2json.py:138-300 | the finished record holds the entry's present texts, its non-empty name, attribute and address lists, and, when not empty, the ID_LIST the identifier rules build |
| Ofac2Json.PassthroughField | ofac2json.py:289-300 | in the finished record a passthrough type holds its numbers joined by " \| " |
| Ofac2Json.EntityTypeIsRecordType | ofac2json.py:133-134 | ENTITY_TYPE and RECORD_TYPE both hold the selected type |

## Left out

- File and process plumbing is not modelled: argument parsing, opening,
  reading and writing files, the CSV reader and writer, `json.dumps`, the
  output file name, and the console messages.
- XML parsing is not modelled. `etree.fromstring`, `find` and `findall` are
  library calls, so the model starts from `Entry` values that hold what
  `getValue` returns for each element.
- `datetime.strptime` and `strftime` are function parameters (`Parser`,
  `Printer`). Calendar validity, month names and the `%y` century pivot
  belong to them.
- UNIQUE_PERCENT is a float division rounded to two places. The report row
  carries the two counts it is computed from. Only the zero-record case is stated.
- `random.randint(2, 4)` in `updateStat` is a parameter `slot` with 2 <= slot <= 4.
- The per-entry write step (ofac_mapper.py:399-404, ofac2json.py:317-323)
  is left out. It sits outside the record-type test, so an entry that is not
  converted writes the previous record again, or fails when there is none.
  That is output plumbing.
- ofac_mapper.py:227-232 are unreachable: line 222 admits only entities and
  individuals. They are not modelled.
- `capture_mapped_stats` (ofac_mapper.py:151-159) and the calls that record
  record-type and address statistics (lines 235, 335, 337) only feed the
  optional log. `updateStat` itself is modelled in `StatPack`.
- `yobList` and `countryList` in ofac2json.py are filled but never read, so
  they are not modelled.
- Strings are ASCII. Python's `strip` and `upper` also act on Unicode
  whitespace and letters.
- Python's integers and strings are unbounded, as Dafny's are, so nothing
  wraps.
- Both files' `formatDate` have the same pattern list and fallback, so one
  `Dates.FormatDate` serves both.
- CodeFile.SaveCodes: the report is a sequence of `ReportRow` values rather
  than lists of CSV cells, because the CSV writer is not modelled.
- Ofac2Json.EntityTypeIsRecordType: requires that no identifier type is named
  ENTITY_TYPE or RECORD_TYPE. Such an identifier would be a passthrough field
  that overwrites the header value.
- Ofac2Json.PassthroughField: requires that the passthrough type is not a
  vessel detail key, since a VESSEL record writes those afterwards.
- MapperRecord.HeaderFieldKept: requires that no identifier type is named
  after the header field, and MapperRecord.MapEntryHeader that none is named
  after any header field. An unmapped identifier of such a type overwrites it.
- MapperRecord.MapEntryBody: requires that no identifier type is named after
  a body key. An unmapped identifier of such a type writes to that key.
- Ofac2Json.ConvertEntryBody: requires that no identifier type is named
  after a body key. A passthrough identifier of such a type overwrites that key.
- Ofac2Json.ConvertEntryVessel: requires that no identifier type is named
  after a vessel detail key. A passthrough identifier of such a type writes that key.
- Ofac2Json.ImoPrefixRemoved: requires that the number after the prefix holds
  no further "IMO ". Every occurrence is removed, so such a number loses that too.
- Namespaces.StripNamespaces: the loop stops when " xmlns:" is found at
  index 0, even if later declarations remain. The contract states exactly
  that, not "no declaration remains".

Notes on the code as written:

- An organisation named only by a first name gets an empty NAME_ORG.
- The table's EXAMPLES dict drops new values beyond 1,000,000 rather than
  sampling them.
- ofac_mapper.py does not strip "IMO " from IMO numbers: line 362 discards
  the stripped value.

=== FILE: code_file.dfy ===
/**
 Writing the code-conversion table back (`save_codes_file`): one row per entry,
 ordered by raw type and then raw code, with the entry's mapping decision
 copied verbatim and its statistics summarised as the number of records the
 examples stand for, the number of distinct examples and the ten most frequent
 examples, rendered `value (count)`.
 */
module CodeFile {
  import opened Wrappers
  import opened Text
  import opened CodeTable

  /** The example value that stands for a missing value and is never reported. */
  const NullExample: string := "null"

  /** The number of TOP1..TOP10 columns. */
  const TopColumns: nat := 10

  /** UNIQUE_PERCENT: 0 when no records are counted, otherwise the float
      `round(unique / records * 100, 2)`, kept here as its two operands. */
  datatype Percent = NoRecords | Ratio(unique: nat, records: nat)

  /** One output row: REVIEWED .. SENZING_DEFAULT, RECORD_COUNT, UNIQUE_COUNT,
      UNIQUE_PERCENT and TOP1..TOP10. */
  datatype ReportRow = ReportRow(
    reviewed: string,
    rawType: string,
    rawCode: string,
    rawModifier: string,
    senzingAttr: string,
    senzingDefault: string,
    recordCount: nat,
    uniqueCount: nat,
    uniquePercent: Percent,
    top: seq<string>)

  predicate NonIncreasing(ex: Examples) {
    forall i, j :: 0 <= i < j < |ex| ==> ex[i].count >= ex[j].count
  }

  /** Places `e`, which came after every example of `r`, behind all of them
      that were seen at least as often. */
  function InsertByCount(e: Example, r: Examples): (s: Examples)
    ensures |s| == |r| + 1
    ensures multiset(s) == multiset(r) + multiset{e}
    ensures NonIncreasing(r) ==> NonIncreasing(s)
  {
    if r == [] then [e]
    else if r[0].count >= e.count then
      var rest := InsertByCount(e, r[1..]);
      assert r == [r[0]] + r[1..];
      InsertBelowHead(e, r, rest);
      [r[0]] + rest
    else
      [e] + r
  }

  lemma InsertBelowHead(e: Example, r: Examples, rest: Examples)
    requires r != [] && r[0].count >= e.count
    requires multiset(rest) == multiset(r[1..]) + multiset{e}
    requires NonIncreasing(r) ==> NonIncreasing(rest)
    ensures NonIncreasing(r) ==> NonIncreasing([r[0]] + rest)
  {
    if NonIncreasing(r) {
      var s := [r[0]] + rest;
      forall j | 0 < j < |s|
        ensures s[0].count >= s[j].count
      {
        var x := s[j];
        assert x in multiset(rest);
        if x != e {
          assert x in multiset(r[1..]);
          var k :| 0 <= k < |r[1..]| && r[1..][k] == x;
          assert r[k + 1] == x;
        }
      }
      forall i, j | 0 <= i < j < |s|
        ensures s[i].count >= s[j].count
      {
        if i > 0 {
          assert s[i] == rest[i - 1] && s[j] == rest[j - 1];
        }
      }
    }
  }

  /** The examples by descending count. Python's sort is
      stable, so examples seen equally often keep the order they were first
      seen in. */
  function SortByCount(ex: Examples): (s: Examples)
    ensures |s| == |ex|
    ensures multiset(s) == multiset(ex)
    ensures NonIncreasing(s)
  {
    if ex == [] then []
    else
      var n := |ex| - 1;
      assert ex == ex[..n] + [ex[n]];
      InsertByCount(ex[n], SortByCount(ex[..n]))
  }

  /** The examples seen exactly `k` times, in order. */
  function WithCount(ex: Examples, k: nat): Examples {
    if ex == [] then []
    else (if ex[0].count == k then [ex[0]] else []) + WithCount(ex[1..], k)
  }

  lemma {:induction false} WithCountAppend(a: Examples, b: Examples, k: nat)
    ensures WithCount(a + b, k) == WithCount(a, k) + WithCount(b, k)
  {
    if a == [] {
      assert a + b == b;
    } else {
      assert (a + b)[0] == a[0];
      assert (a + b)[1..] == a[1..] + b;
      WithCountAppend(a[1..], b, k);
    }
  }

  lemma {:induction false} WithCountNone(r: Examples, k: nat)
    requires forall i :: 0 <= i < |r| ==> r[i].count < k
    ensures WithCount(r, k) == []
  {
    if r != [] {
      WithCountNone(r[1..], k);
    }
  }

  lemma WithCountCons(x: Example, rest: Examples, k: nat)
    ensures WithCount([x] + rest, k) == (if x.count == k then [x] else []) + WithCount(rest, k)
  {
    assert ([x] + rest)[1..] == rest;
  }

  /** Putting the head of `r` in front of `rest` keeps their relation. */
  lemma ConsStable(r: Examples, rest: Examples, tail: Examples, k: nat)
    requires r != []
    requires WithCount(rest, k) == WithCount(r[1..], k) + tail
    ensures WithCount([r[0]] + rest, k) == WithCount(r, k) + tail
  {
    WithCountCons(r[0], rest, k);
    WithCountCons(r[0], r[1..], k);
    assert [r[0]] + r[1..] == r;
  }

  lemma WithCountSingle(e: Example, k: nat)
    ensures WithCount([e], k) == if e.count == k then [e] else []
  {
    assert [e] + [] == [e];
    WithCountCons(e, [], k);
  }

  /** An example seen more often than all of `r` may go in front of it. */
  lemma FrontStable(e: Example, r: Examples, k: nat)
    requires NonIncreasing(r) && r != [] && r[0].count < e.count
    ensures WithCount([e] + r, k) == WithCount(r, k) + (if e.count == k then [e] else [])
  {
    WithCountCons(e, r, k);
    if e.count == k {
      WithCountNone(r, k);
    }
  }

  lemma {:induction false} InsertIsStable(e: Example, r: Examples, k: nat)
    requires NonIncreasing(r)
    ensures WithCount(InsertByCount(e, r), k) == WithCount(r, k) + (if e.count == k then [e] else [])
    decreases |r|
  {
    if r == [] {
      WithCountSingle(e, k);
    } else if r[0].count >= e.count {
      InsertIsStable(e, r[1..], k);
      ConsStable(r, InsertByCount(e, r[1..]), if e.count == k then [e] else [], k);
    } else {
      FrontStable(e, r, k);
    }
  }

  /** Sorting a list is inserting its last example into the sorted rest. */
  lemma SortSnoc(ex: Examples)
    requires ex != []
    ensures SortByCount(ex) == InsertByCount(ex[|ex| - 1], SortByCount(ex[..|ex| - 1]))
  {
  }

  /** If `s` keeps the same-count order of all but the last example of `ex`,
      and `s2` is `s` with that last example placed after its equals, then
      `s2` keeps the same-count order of `ex`. */
  lemma StableStep(ex: Examples, s: Examples, s2: Examples, k: nat)
    requires ex != []
    requires WithCount(s, k) == WithCount(ex[..|ex| - 1], k)
    requires var last := ex[|ex| - 1];
             WithCount(s2, k) == WithCount(s, k) + (if last.count == k then [last] else [])
    ensures WithCount(s2, k) == WithCount(ex, k)
  {
    WithCountLast(ex, k);
  }

  /** The last example joins its count's list at the end. */
  lemma WithCountLast(ex: Examples, k: nat)
    requires ex != []
    ensures var last := ex[|ex| - 1];
            WithCount(ex, k) == WithCount(ex[..|ex| - 1], k) + (if last.count == k then [last] else [])
  {
    var init, last := ex[..|ex| - 1], ex[|ex| - 1];
    assert ex == init + [last];
    WithCountAppend(init, [last], k);
    assert [last] + [] == [last];
    WithCountCons(last, [], k);
  }

  /** The sort is stable: for every count, the examples with that count come
      out in exactly the order they went in. */
  lemma {:induction false} SortIsStable(ex: Examples, k: nat)
    ensures WithCount(SortByCount(ex), k) == WithCount(ex, k)
  {
    if ex != [] {
      var init := ex[..|ex| - 1];
      SortSnoc(ex);
      SortIsStable(init, k);
      InsertIsStable(ex[|ex| - 1], SortByCount(init), k);
      StableStep(ex, SortByCount(init), SortByCount(ex), k);
    }
  }

  /** How much an example adds to RECORD_COUNT: its count, unless it is the
      null example. */
  function Weight(e: Example): nat {
    if e.value == NullExample then 0 else e.count
  }

  function NonNullMark(e: Example): nat {
    if e.value == NullExample then 0 else 1
  }

  function Sum(ex: Examples, w: Example -> nat): nat {
    if ex == [] then 0 else w(ex[0]) + Sum(ex[1..], w)
  }

  /** RECORD_COUNT as the total of the example counts, the null example left out. */
  function RecordCount(ex: Examples): nat {
    Sum(ex, Weight)
  }

  lemma {:induction false} SumSnoc(a: Examples, e: Example, w: Example -> nat)
    ensures Sum(a + [e], w) == Sum(a, w) + w(e)
  {
    if a != [] {
      assert (a + [e])[1..] == a[1..] + [e];
      SumSnoc(a[1..], e, w);
    }
  }

  lemma SumCons(x: Example, rest: Examples, w: Example -> nat)
    ensures Sum([x] + rest, w) == w(x) + Sum(rest, w)
  {
    assert ([x] + rest)[1..] == rest;
  }

  /** The last example's weight is added last. */
  lemma SumLast(ex: Examples, w: Example -> nat)
    requires ex != []
    ensures Sum(ex, w) == Sum(ex[..|ex| - 1], w) + w(ex[|ex| - 1])
  {
    var n := |ex| - 1;
    assert ex == ex[..n] + [ex[n]];
    SumSnoc(ex[..n], ex[n], w);
  }

  lemma {:induction false} SumInsert(e: Example, r: Examples, w: Example -> nat)
    ensures Sum(InsertByCount(e, r), w) == w(e) + Sum(r, w)
  {
    if r != [] && r[0].count >= e.count {
      SumInsert(e, r[1..], w);
      SumCons(r[0], InsertByCount(e, r[1..]), w);
    } else if r != [] {
      SumCons(e, r, w);
    }
  }

  /** Sorting does not change any total over the examples. */
  lemma {:induction false} SumSorted(ex: Examples, w: Example -> nat)
    ensures Sum(SortByCount(ex), w) == Sum(ex, w)
  {
    if ex != [] {
      var n := |ex| - 1;
      SortSnoc(ex);
      SumSorted(ex[..n], w);
      SumInsert(ex[n], SortByCount(ex[..n]), w);
      SumLast(ex, w);
    }
  }

  /** The examples other than the null example, in order. */
  function NonNull(ex: Examples): (r: Examples)
    ensures forall x :: x in r <==> x in ex && x.value != NullExample
    ensures |r| == Sum(ex, NonNullMark)
    ensures NonIncreasing(ex) ==> NonIncreasing(r)
  {
    if ex == [] then []
    else
      var rest := NonNull(ex[1..]);
      assert forall x :: x in ex <==> x == ex[0] || x in ex[1..];
      if ex[0].value == NullExample then rest
      else
        assert NonIncreasing(ex) ==> forall x :: x in rest ==> x.count <= ex[0].count;
        [ex[0]] + rest
  }

  /** An example as the TOP columns show it: the value, then its count in
      parentheses. */
  function Render(e: Example): string {
    e.value + " (" + NatToString(e.count) + ")"
  }

  function RenderAll(ex: Examples): (r: seq<string>)
    ensures |r| == |ex|
    ensures forall i :: 0 <= i < |ex| ==> r[i] == Render(ex[i])
  {
    seq(|ex|, i requires 0 <= i < |ex| => Render(ex[i]))
  }

  function Take(ex: Examples, n: int): Examples {
    if n <= 0 then [] else if n >= |ex| then ex else ex[..n]
  }

  /** The loop of lines 100-104 over the sorted examples: it totals the counts
      of all non-null examples and renders the first ten of them. */
  function TallyLoop(sorted: Examples, recordCount: nat, top: seq<string>): (r: (nat, seq<string>))
    requires |top| <= TopColumns
    ensures r.0 == recordCount + RecordCount(sorted)
    ensures r.1 == top + RenderAll(Take(NonNull(sorted), TopColumns - |top|))
    decreases |sorted|
  {
    if sorted == [] then (recordCount, top)
    else
      var e := sorted[0];
      var rest := sorted[1..];
      TallyUnfold(sorted);
      if e.value == NullExample then
        TallyLoop(rest, recordCount, top)
      else
        var top' := if |top| < TopColumns then top + [Render(e)] else top;
        TallyStep(top, e, NonNull(rest));
        TallyLoop(rest, recordCount + e.count, top')
  }

  /** The first example's share of the totals and of the non-null list. */
  lemma TallyUnfold(ex: Examples)
    requires ex != []
    ensures RecordCount(ex) == Weight(ex[0]) + RecordCount(ex[1..])
    ensures NonNull(ex) == NonNullHead(ex[0]) + NonNull(ex[1..])
  {
    if ex[1..] == [] {
      assert NonNull(ex[1..]) == [];
    }
  }

  /** What one example adds to the non-null list. */
  function NonNullHead(e: Example): Examples {
    if e.value == NullExample then [] else [e]
  }

  /** Dropping the null example is a filter that keeps order: two runs of
      examples give the non-null ones of the first run followed by those of
      the second, and a single example stays exactly when it is not the null
      example. Together these fix the list, so examples of equal count keep
      their sorted order into the TOP columns. */
  lemma {:induction false} NonNullAppend(xs: Examples, ys: Examples)
    ensures NonNull(xs + ys) == NonNull(xs) + NonNull(ys)
    ensures forall e :: NonNull([e]) == NonNullHead(e)
  {
    forall e ensures NonNull([e]) == NonNullHead(e) {
      TallyUnfold([e]);
    }
    if xs == [] {
      assert xs + ys == ys;
    } else {
      ConsOfAppend(xs, ys);
      TallyUnfold(xs);
      TallyUnfold(xs + ys);
      NonNullAppend(xs[1..], ys);
      AppendAssoc(NonNullHead(xs[0]), NonNull(xs[1..]), NonNull(ys));
    }
  }

  lemma TakeCons(e: Example, later: Examples, n: int)
    requires n >= 1
    ensures Take([e] + later, n) == [e] + Take(later, n - 1)
  {
    if n - 1 < |later| {
      assert ([e] + later)[..n] == [e] + later[..n - 1];
    }
  }

  lemma RenderAllCons(e: Example, later: Examples)
    ensures RenderAll([e] + later) == [Render(e)] + RenderAll(later)
  {
  }

  /** One non-null example rendered into the next free TOP column, if any. */
  lemma TallyStep(top: seq<string>, e: Example, later: Examples)
    requires |top| <= TopColumns
    ensures var top' := if |top| < TopColumns then top + [Render(e)] else top;
            top' + RenderAll(Take(later, TopColumns - |top'|))
              == top + RenderAll(Take([e] + later, TopColumns - |top|))
  {
    if |top| < TopColumns {
      var n := TopColumns - |top|;
      var rest := Take(later, n - 1);
      TakeCons(e, later, n);
      RenderAllCons(e, rest);
      AppendAssoc(top, [Render(e)], RenderAll(rest));
    }
  }

  /** The loop of lines 105-106: empty cells up to ten columns. */
  function Pad(top: seq<string>): (r: seq<string>)
    requires |top| <= TopColumns
    ensures |r| == TopColumns
    ensures r[..|top|] == top
    ensures forall i :: |top| <= i < TopColumns ==> r[i] == ""
  {
    top + seq(TopColumns - |top|, _ => "")
  }

  /** The examples an entry's TOP columns show. */
  function TopExamples(ex: Examples): Examples {
    Take(NonNull(SortByCount(ex)), TopColumns)
  }

  /** What it means for `shown` to be the top examples of `ex`: up to ten
      non-null examples of `ex`, most frequent first, and no example left out
      was seen more often than any example shown. */
  ghost predicate IsTopOf(shown: Examples, ex: Examples) {
    && |shown| == (if Sum(ex, NonNullMark) < TopColumns then Sum(ex, NonNullMark) else TopColumns)
    && (forall i :: 0 <= i < |shown| ==> shown[i] in ex && shown[i].value != NullExample)
    && NonIncreasing(shown)
    && (forall x, i :: x in ex && x.value != NullExample && x !in shown && 0 <= i < |shown| ==>
          x.count <= shown[i].count)
  }

  /** Sorting keeps exactly the examples it was given. */
  lemma SortedSameMembers(ex: Examples)
    ensures forall x :: x in SortByCount(ex) <==> x in ex
  {
    var sorted := SortByCount(ex);
    forall x
      ensures x in sorted <==> x in ex
    {
      assert x in sorted <==> x in multiset(sorted);
      assert x in ex <==> x in multiset(ex);
    }
  }

  /** In a count-ordered list, an example outside the first `m` was seen no
      more often than any of them. */
  lemma PrefixDominates(nn: Examples, m: nat, x: Example)
    requires NonIncreasing(nn) && m <= |nn|
    requires x in nn && x !in nn[..m]
    ensures forall i :: 0 <= i < m ==> x.count <= nn[i].count
  {
    var j :| 0 <= j < |nn| && nn[j] == x;
  }

  lemma TopExamplesAreTop(ex: Examples)
    ensures IsTopOf(TopExamples(ex), ex)
  {
    var sorted := SortByCount(ex);
    var nn := NonNull(sorted);
    var shown := TopExamples(ex);
    SumSorted(ex, NonNullMark);
    SortedSameMembers(ex);
    var m := |shown|;
    assert shown == nn[..m];
    forall x | x in ex && x.value != NullExample && x !in shown
      ensures forall i :: 0 <= i < m ==> x.count <= shown[i].count
    {
      PrefixDominates(nn, m, x);
    }
  }

  /** The row `save_codes_file` writes for one entry (lines 96-126). */
  function ReportEntry(e: CodeEntry): (r: ReportRow)
    // the mapping decision is copied verbatim
    ensures && r.reviewed == e.reviewed && r.rawType == e.rawType && r.rawCode == e.rawCode
            && r.rawModifier == e.rawModifier && r.senzingAttr == e.senzingAttr
            && r.senzingDefault == e.senzingDefault
    // RECORD_COUNT totals the counts of every example but 'null'
    ensures r.recordCount == RecordCount(e.examples)
    // UNIQUE_COUNT counts every distinct example, 'null' included
    ensures r.uniqueCount == |e.examples|
    ensures r.uniquePercent == NoRecords <==> r.recordCount == 0
    ensures r.uniquePercent.Ratio? ==> r.uniquePercent == Ratio(|e.examples|, r.recordCount)
    ensures |r.top| == TopColumns
  {
    var tally := TallyLoop(SortByCount(e.examples), 0, []);
    SumSorted(e.examples, Weight);
    var recordCount := tally.0;
    ReportRow(e.reviewed, e.rawType, e.rawCode, e.rawModifier, e.senzingAttr, e.senzingDefault,
              recordCount, |e.examples|,
              if recordCount != 0 then Ratio(|e.examples|, recordCount) else NoRecords,
              Pad(tally.1))
  }

  /** The ten TOP columns of a row: the top examples rendered as
      "value (count)", then empty cells. */
  lemma ReportEntryTop(e: CodeEntry)
    ensures var r := ReportEntry(e);
            var shown := TopExamples(e.examples);
            && (forall i :: 0 <= i < |shown| ==> r.top[i] == Render(shown[i]))
            && (forall i :: |shown| <= i < TopColumns ==> r.top[i] == "")
  {
    var tally := TallyLoop(SortByCount(e.examples), 0, []);
    assert ReportEntry(e).top == Pad(tally.1);
  }


  /** The rows written for the raw codes `codes` of raw type `ty`. */
  function CodeRows(t: Table, ty: string, codes: seq<string>): (rows: seq<ReportRow>)
    requires ty in t
    requires forall c :: c in codes ==> c in t[ty]
    ensures |rows| == |codes|
    ensures forall i :: 0 <= i < |codes| ==> rows[i] == ReportEntry(t[ty][codes[i]])
  {
    seq(|codes|, i requires 0 <= i < |codes| => ReportEntry(t[ty][codes[i]]))
  }

  /** The rows written for the raw types `types`, each with its codes in order. */
  function TypeRows(t: Table, types: seq<string>): seq<ReportRow>
    requires forall ty :: ty in types ==> ty in t
  {
    if types == [] then []
    else CodeRows(t, types[0], SortedKeys(t[types[0]].Keys)) + TypeRows(t, types[1..])
  }

  lemma TypeRowsCons(t: Table, types: seq<string>)
    requires types != [] && forall ty :: ty in types ==> ty in t
    ensures TypeRows(t, types) == CodeRows(t, types[0], SortedKeys(t[types[0]].Keys)) + TypeRows(t, types[1..])
  {
  }

  /** `save_codes_file` (lines 87-127) without the CSV writer. */
  function SaveCodes(t: Table): seq<ReportRow> {
    TypeRows(t, SortedKeys(t.Keys))
  }

  /** Rows are ordered by RAW_TYPE, then RAW_CODE, with no pair twice. */
  predicate RowBefore(a: ReportRow, b: ReportRow) {
    LexLt(a.rawType, b.rawType) || (a.rawType == b.rawType && LexLt(a.rawCode, b.rawCode))
  }

  predicate StrictlyOrdered(rows: seq<ReportRow>) {
    forall i, j :: 0 <= i < j < |rows| ==> RowBefore(rows[i], rows[j])
  }

  /** `row` is the row of the entry its RAW_TYPE and RAW_CODE name. */
  predicate IsEntryRow(t: Table, row: ReportRow) {
    row.rawType in t && row.rawCode in t[row.rawType] && row == ReportEntry(t[row.rawType][row.rawCode])
  }

  predicate StrictlyAscending(ks: seq<string>) {
    forall i, j :: 0 <= i < j < |ks| ==> LexLt(ks[i], ks[j])
  }

  /** An entry's row names the keys the entry is filed under. */
  lemma EntryRowNamesEntry(t: Table, ty: string, c: string)
    requires WellFormed(t) && ty in t && c in t[ty]
    ensures IsEntryRow(t, ReportEntry(t[ty][c])) && ReportEntry(t[ty][c]).rawType == ty
  {
  }

  /** Every row of one type's block is the row of an entry of that type. */
  lemma BlockSound(t: Table, ty: string)
    requires WellFormed(t) && ty in t
    ensures var block := CodeRows(t, ty, SortedKeys(t[ty].Keys));
            forall i :: 0 <= i < |block| ==> IsEntryRow(t, block[i]) && block[i].rawType == ty
  {
    var codes := SortedKeys(t[ty].Keys);
    var block := CodeRows(t, ty, codes);
    forall i | 0 <= i < |block|
      ensures IsEntryRow(t, block[i]) && block[i].rawType == ty
    {
      assert codes[i] in t[ty];
      EntryRowNamesEntry(t, ty, codes[i]);
    }
  }

  /** Sound rows of the first type followed by sound rows of later types. */
  lemma ConcatSound(t: Table, types: seq<string>, block: seq<ReportRow>, rest: seq<ReportRow>, rows: seq<ReportRow>)
    requires types != [] && rows == block + rest
    requires forall i :: 0 <= i < |block| ==> IsEntryRow(t, block[i]) && block[i].rawType == types[0]
    requires forall i :: 0 <= i < |rest| ==> IsEntryRow(t, rest[i]) && rest[i].rawType in types[1..]
    ensures forall i :: 0 <= i < |rows| ==> IsEntryRow(t, rows[i]) && rows[i].rawType in types
  {
    forall i | 0 <= i < |rows|
      ensures IsEntryRow(t, rows[i]) && rows[i].rawType in types
    {
      if i < |block| {
        assert rows[i] == block[i];
      } else {
        assert rows[i] == rest[i - |block|];
      }
    }
  }

  /** Every row written is the row of an entry of one of the listed types. */
  lemma {:induction false} TypeRowsSound(t: Table, types: seq<string>)
    requires WellFormed(t)
    requires forall ty :: ty in types ==> ty in t
    ensures forall i :: 0 <= i < |TypeRows(t, types)| ==>
              IsEntryRow(t, TypeRows(t, types)[i]) && TypeRows(t, types)[i].rawType in types
  {
    if types != [] {
      var ty := types[0];
      TypeRowsSound(t, types[1..]);
      BlockSound(t, ty);
      TypeRowsCons(t, types);
      ConcatSound(t, types, CodeRows(t, ty, SortedKeys(t[ty].Keys)), TypeRows(t, types[1..]), TypeRows(t, types));
    }
  }

  /** Every entry of the listed types has its row. */
  lemma {:induction false} TypeRowsComplete(t: Table, types: seq<string>)
    requires forall ty :: ty in types ==> ty in t
    ensures forall ty, c :: ty in types && c in t[ty] ==> ReportEntry(t[ty][c]) in TypeRows(t, types)
  {
    if types != [] {
      var ty := types[0];
      var codes := SortedKeys(t[ty].Keys);
      var block := CodeRows(t, ty, codes);
      var rest := TypeRows(t, types[1..]);
      TypeRowsComplete(t, types[1..]);
      assert TypeRows(t, types) == block + rest;
      forall ty', c | ty' in types && c in t[ty']
        ensures ReportEntry(t[ty'][c]) in block + rest
      {
        if ty' == ty {
          assert c in codes;
          var i :| 0 <= i < |codes| && codes[i] == c;
          assert block[i] == ReportEntry(t[ty'][c]);
        } else {
          assert ty' in types[1..];
        }
      }
    }
  }

  /** One type's block: every row has that type, ordered by raw code. */
  lemma BlockOrdered(t: Table, ty: string)
    requires WellFormed(t) && ty in t
    ensures var block := CodeRows(t, ty, SortedKeys(t[ty].Keys));
            && StrictlyOrdered(block)
            && forall i :: 0 <= i < |block| ==> block[i].rawType == ty
  {
    var codes := SortedKeys(t[ty].Keys);
    var block := CodeRows(t, ty, codes);
    forall i | 0 <= i < |block|
      ensures block[i].rawType == ty && block[i].rawCode == codes[i]
    {
      assert codes[i] in t[ty];
    }
  }

  /** A block of the first type followed by rows of later types stays ordered. */
  lemma ConcatOrdered(types: seq<string>, block: seq<ReportRow>, rest: seq<ReportRow>)
    requires types != [] && StrictlyAscending(types)
    requires StrictlyOrdered(block) && StrictlyOrdered(rest)
    requires forall i :: 0 <= i < |block| ==> block[i].rawType == types[0]
    requires forall i :: 0 <= i < |rest| ==> rest[i].rawType in types[1..]
    ensures StrictlyOrdered(block + rest)
  {
    var rows := block + rest;
    forall i, j | 0 <= i < j < |rows|
      ensures RowBefore(rows[i], rows[j])
    {
      if j < |block| {
        assert rows[i] == block[i] && rows[j] == block[j];
      } else if i < |block| {
        assert rows[i] == block[i] && rows[j] == rest[j - |block|];
        BlockBeforeRest(types, rows[i], rows[j]);
      } else {
        assert rows[i] == rest[i - |block|] && rows[j] == rest[j - |block|];
      }
    }
  }

  lemma BlockBeforeRest(types: seq<string>, a: ReportRow, b: ReportRow)
    requires types != [] && StrictlyAscending(types)
    requires a.rawType == types[0] && b.rawType in types[1..]
    ensures RowBefore(a, b)
  {
    var k :| 0 <= k < |types[1..]| && types[1..][k] == b.rawType;
    assert types[k + 1] == b.rawType;
  }

  lemma AscendingTail(ks: seq<string>)
    requires ks != [] && StrictlyAscending(ks)
    ensures StrictlyAscending(ks[1..])
  {
    forall i, j | 0 <= i < j < |ks[1..]|
      ensures LexLt(ks[1..][i], ks[1..][j])
    {
      assert ks[1..][i] == ks[i + 1] && ks[1..][j] == ks[j + 1];
    }
  }

  lemma {:induction false} TypeRowsOrdered(t: Table, types: seq<string>)
    requires WellFormed(t)
    requires forall ty :: ty in types ==> ty in t
    requires StrictlyAscending(types)
    ensures StrictlyOrdered(TypeRows(t, types))
  {
    if types != [] {
      var ty := types[0];
      AscendingTail(types);
      TypeRowsOrdered(t, types[1..]);
      TypeRowsSound(t, types[1..]);
      BlockOrdered(t, ty);
      TypeRowsCons(t, types);
      ConcatOrdered(types, CodeRows(t, ty, SortedKeys(t[ty].Keys)), TypeRows(t, types[1..]));
    }
  }


  /** The saved table has one row for every entry and nothing else, in
      ascending (RAW_TYPE, RAW_CODE) order. */
  lemma SaveCodesRows(t: Table)
    requires WellFormed(t)
    ensures forall ty, c :: ty in t && c in t[ty] ==> ReportEntry(t[ty][c]) in SaveCodes(t)
    ensures forall i :: 0 <= i < |SaveCodes(t)| ==> IsEntryRow(t, SaveCodes(t)[i])
    ensures StrictlyOrdered(SaveCodes(t))
  {
    var types := SortedKeys(t.Keys);
    TypeRowsSound(t, types);
    TypeRowsComplete(t, types);
    TypeRowsOrdered(t, types);
  }

  /** Reading a saved row back as the loader does. */
  function ReadBack(r: ReportRow): CodeRow {
    CodeRow(r.reviewed, r.rawType, r.rawCode, r.rawModifier, r.senzingAttr, r.senzingDefault)
  }

  function ReadBackAll(rows: seq<ReportRow>): (r: seq<CodeRow>)
    ensures |r| == |rows|
    ensures forall i :: 0 <= i < |rows| ==> r[i] == ReadBack(rows[i])
  {
    seq(|rows|, i requires 0 <= i < |rows| => ReadBack(rows[i]))
  }

  /** The table with its run statistics cleared and its mapping decisions kept. */
  function ResetStats(t: Table): Table {
    map ty | ty in t :: map c | c in t[ty] :: t[ty][c].(count := 0, examples := [])
  }

  lemma TablesEqual(a: Table, b: Table)
    requires forall ty :: ty in a ==> a[ty] != map[]
    requires forall ty :: ty in b ==> b[ty] != map[]
    requires forall ty, c :: Lookup(a, ty, c) == Lookup(b, ty, c)
    ensures a == b
  {
    forall ty | ty in a
      ensures ty in b && a[ty] == b[ty]
    {
      var c :| c in a[ty];
      assert Lookup(a, ty, c).Some?;
      forall c' | c' in a[ty] ensures c' in b[ty] && a[ty][c'] == b[ty][c'] {
        assert Lookup(a, ty, c').Some?;
      }
      forall c' | c' in b[ty] ensures c' in a[ty] {
        assert Lookup(b, ty, c').Some?;
      }
    }
    forall ty | ty in b
      ensures ty in a
    {
      var c :| c in b[ty];
      assert Lookup(b, ty, c).Some?;
    }
  }

  /** In strictly ordered rows no pair repeats, so each row is the last with its pair. */
  lemma OrderedRowsAreLast(saved: seq<ReportRow>)
    requires StrictlyOrdered(saved)
    ensures var rows := ReadBackAll(saved);
            forall i :: 0 <= i < |rows| ==> IsLastFor(rows, i)
  {
    var rows := ReadBackAll(saved);
    forall i | 0 <= i < |rows|
      ensures IsLastFor(rows, i)
    {
      forall j | i < j < |rows|
        ensures rows[j].rawType != rows[i].rawType || rows[j].rawCode != rows[i].rawCode
      {
        assert RowBefore(saved[i], saved[j]);
        if rows[j].rawType == rows[i].rawType {
          assert LexLt(saved[i].rawCode, saved[j].rawCode);
        }
      }
    }
  }

  /** An entry whose row was saved loads back with its statistics reset. */
  lemma EntryReloads(t: Table, saved: seq<ReportRow>, loaded: Table, ty: string, c: string)
    requires WellFormed(t) && ty in t && c in t[ty]
    requires ReportEntry(t[ty][c]) in saved
    requires forall i :: 0 <= i < |ReadBackAll(saved)| ==> IsLastFor(ReadBackAll(saved), i)
    requires LastWins(loaded, ReadBackAll(saved))
    ensures Lookup(loaded, ty, c) == Some(t[ty][c].(count := 0, examples := []))
  {
    var rows := ReadBackAll(saved);
    var i :| 0 <= i < |saved| && saved[i] == ReportEntry(t[ty][c]);
    assert rows[i] == ReadBack(saved[i]);
    assert IsLastFor(rows, i);
  }

  /** A pair the table lacks has no saved row, so it does not load. */
  lemma NothingElseReloads(t: Table, saved: seq<ReportRow>, loaded: Table, ty: string, c: string)
    requires !(ty in t && c in t[ty])
    requires forall i :: 0 <= i < |saved| ==> IsEntryRow(t, saved[i])
    requires KeysFrom(loaded, ReadBackAll(saved))
    ensures Lookup(loaded, ty, c) == None
  {
  }

  lemma ResetLookup(t: Table, ty: string, c: string)
    ensures Lookup(ResetStats(t), ty, c)
              == if ty in t && c in t[ty] then Some(t[ty][c].(count := 0, examples := [])) else None
  {
  }

  lemma ResetNonEmpty(t: Table)
    requires WellFormed(t)
    ensures forall ty :: ty in ResetStats(t) ==> ResetStats(t)[ty] != map[]
  {
    forall ty | ty in ResetStats(t)
      ensures ResetStats(t)[ty] != map[]
    {
      var c :| c in t[ty];
      assert c in ResetStats(t)[ty];
    }
  }

  /** Saving a table and loading the file again gives back every entry with
      its mapping decision unchanged and its statistics reset: mapping
      decisions persist from run to run, counts and examples do not. */
  lemma SaveThenLoad(t: Table)
    requires WellFormed(t)
    ensures LoadCodes(ReadBackAll(SaveCodes(t))).0 == ResetStats(t)
  {
    var saved := SaveCodes(t);
    var loaded := LoadCodes(ReadBackAll(saved)).0;
    var reset := ResetStats(t);
    SaveCodesRows(t);
    OrderedRowsAreLast(saved);
    forall ty, c
      ensures Lookup(loaded, ty, c) == Lookup(reset, ty, c)
    {
      ResetLookup(t, ty, c);
      if ty in t && c in t[ty] {
        EntryReloads(t, saved, loaded, ty, c);
      } else {
        NothingElseReloads(t, saved, loaded, ty, c);
      }
    }
    ResetNonEmpty(t);
    TablesEqual(loaded, reset);
  }
}

=== FILE: code_table.dfy ===
/**
 The code-conversion table of the table-driven converter: for each raw type
 (`idType`, `idCountry`) a map from raw code to the entry a curator reviews.
 Mapping decisions (REVIEWED, RAW_MODIFIER, SENZING_ATTR, SENZING_DEFAULT)
 come from the persisted file and are never changed by a run. Usage
 statistics (COUNT, EXAMPLES) start empty at load and grow as codes are seen.
 */
module CodeTable {
  import opened Wrappers
  import opened Text

  /** One example value with the number of times it was seen. */
  datatype Example = Example(value: string, count: nat)

  /** The EXAMPLES dict: example values in the order first seen, with counts. */
  type Examples = seq<Example>

  datatype CodeEntry = CodeEntry(
    reviewed: string,
    rawType: string,
    rawCode: string,
    rawModifier: string,
    senzingAttr: string,
    senzingDefault: string,
    count: nat,
    examples: Examples)

  type Table = map<string, map<string, CodeEntry>>

  /** The most distinct example values one entry keeps. */
  const MaxExamples: nat := 1000000

  /** The columns of one row of the persisted table that loading reads. */
  datatype CodeRow = CodeRow(
    reviewed: string,
    rawType: string,
    rawCode: string,
    rawModifier: string,
    senzingAttr: string,
    senzingDefault: string)

  function Lookup(t: Table, rawType: string, rawCode: string): Option<CodeEntry> {
    if rawType in t && rawCode in t[rawType] then Some(t[rawType][rawCode]) else None
  }

  /** How often `v` was seen: its count in the first (only) entry for it, or 0. */
  function ExampleCount(ex: Examples, v: string): nat {
    if ex == [] then 0
    else if ex[0].value == v then ex[0].count
    else ExampleCount(ex[1..], v)
  }

  predicate HasExample(ex: Examples, v: string) {
    exists i :: 0 <= i < |ex| && ex[i].value == v
  }

  predicate DistinctValues(ex: Examples) {
    forall i, j :: 0 <= i < j < |ex| ==> ex[i].value != ex[j].value
  }

  /** Every stored example has been seen at least once. */
  predicate PositiveCounts(ex: Examples) {
    forall i :: 0 <= i < |ex| ==> ex[i].count >= 1
  }

  lemma {:induction false} ExampleCountPositive(ex: Examples, v: string)
    requires PositiveCounts(ex)
    ensures HasExample(ex, v) <==> ExampleCount(ex, v) > 0
  {
    if ex != [] {
      ExampleCountPositive(ex[1..], v);
      if HasExample(ex[1..], v) {
        var i :| 0 <= i < |ex[1..]| && ex[1..][i].value == v;
        assert ex[i + 1].value == v;
      }
      if HasExample(ex, v) && ex[0].value != v {
        var i :| 0 <= i < |ex| && ex[i].value == v;
        assert ex[1..][i - 1].value == v;
      }
    }
  }

  /** A value other than the first is held exactly when the rest holds it. */
  lemma HasExampleTail(ex: Examples, v: string)
    requires ex != [] && ex[0].value != v
    ensures HasExample(ex, v) <==> HasExample(ex[1..], v)
  {
    if HasExample(ex, v) {
      var i :| 0 <= i < |ex| && ex[i].value == v;
      assert ex[1..][i - 1].value == v;
    }
    if HasExample(ex[1..], v) {
      var i :| 0 <= i < |ex[1..]| && ex[1..][i].value == v;
      assert ex[i + 1].value == v;
    }
  }

  lemma ExampleCountCons(x: Example, rest: Examples, v: string)
    ensures ExampleCount([x] + rest, v) == if x.value == v then x.count else ExampleCount(rest, v)
  {
    assert ([x] + rest)[1..] == rest;
  }

  /** One more sighting of a value that is already among the examples. */
  function Bump(ex: Examples, v: string): (r: Examples)
    ensures |r| == |ex|
    ensures forall i :: 0 <= i < |ex| ==> r[i].value == ex[i].value && r[i].count >= ex[i].count
    ensures ExampleCount(r, v) == ExampleCount(ex, v) + (if HasExample(ex, v) then 1 else 0)
    ensures forall w :: w != v ==> ExampleCount(r, w) == ExampleCount(ex, w)
  {
    if ex == [] then []
    else if ex[0].value == v then
      var r := [Example(v, ex[0].count + 1)] + ex[1..];
      forall w
        ensures ExampleCount(r, w) == if w == v then ex[0].count + 1 else ExampleCount(ex[1..], w)
      {
        ExampleCountCons(Example(v, ex[0].count + 1), ex[1..], w);
      }
      assert HasExample(ex, v) by {
        assert ex[0].value == v;
      }
      r
    else
      var rest := Bump(ex[1..], v);
      HasExampleTail(ex, v);
      var r := [ex[0]] + rest;
      forall w
        ensures ExampleCount(r, w) == if ex[0].value == w then ex[0].count else ExampleCount(rest, w)
      {
        ExampleCountCons(ex[0], rest, w);
      }
      r
  }

  /** Records one more sighting of a non-empty example value (lines 145-148):
      a known value counts up; a new value is added with count 1 while fewer
      than `MaxExamples` values are stored, and is dropped otherwise. */
  function AddExample(ex: Examples, v: string): (r: Examples)
    ensures HasExample(ex, v) || |ex| < MaxExamples ==> ExampleCount(r, v) == ExampleCount(ex, v) + 1
    ensures !HasExample(ex, v) && |ex| >= MaxExamples ==> r == ex
    ensures ex == [] ==> r == [Example(v, 1)]
    // a new value goes to the end, after every value seen before it
    ensures !HasExample(ex, v) && |ex| < MaxExamples ==> r == ex + [Example(v, 1)]
    ensures forall w :: w != v ==> ExampleCount(r, w) == ExampleCount(ex, w)
    ensures |r| == |ex| + (if !HasExample(ex, v) && |ex| < MaxExamples then 1 else 0)
    ensures |ex| <= MaxExamples ==> |r| <= MaxExamples
    ensures DistinctValues(ex) ==> DistinctValues(r)
    ensures PositiveCounts(ex) ==> PositiveCounts(r)
  {
    if HasExample(ex, v) then Bump(ex, v)
    else if |ex| < MaxExamples then
      var r := ex + [Example(v, 1)];
      ExampleCountSnoc(ex, v);
      forall w | w != v
        ensures ExampleCount(r, w) == ExampleCount(ex, w)
      {
        ExampleCountAppend(ex, Example(v, 1), w);
      }
      r
    else ex
  }

  lemma {:induction false} ExampleCountAppend(ex: Examples, e: Example, w: string)
    requires e.value != w
    ensures ExampleCount(ex + [e], w) == ExampleCount(ex, w)
  {
    if ex == [] {
    } else {
      assert (ex + [e])[1..] == ex[1..] + [e];
      ExampleCountAppend(ex[1..], e, w);
    }
  }

  lemma {:induction false} ExampleCountSnoc(ex: Examples, v: string)
    requires !HasExample(ex, v)
    ensures ExampleCount(ex + [Example(v, 1)], v) == 1
    ensures ExampleCount(ex, v) == 0
  {
    if ex == [] {
    } else {
      assert (ex + [Example(v, 1)])[1..] == ex[1..] + [Example(v, 1)];
      assert forall i :: 0 <= i < |ex[1..]| ==> ex[1..][i] == ex[i + 1];
      assert !HasExample(ex[1..], v);
      assert ex[0].value != v;
      ExampleCountSnoc(ex[1..], v);
    }
  }

  /** `update_code_stats(raw_type, raw_code, example, senzing_attr=..., senzing_default=...)`
      (lines 130-148). An empty `example` stands for a missing or falsy one;
      `attrIfNew` and `defaultIfNew` are the keyword arguments, `""` when not
      given. */
  function UpdateCodeStats(t: Table, rawType: string, rawCode: string, example: string,
                           attrIfNew: string, defaultIfNew: string): (r: Table)
    // a missing entry is created unreviewed, with the given mapping, and counted once
    ensures Lookup(t, rawType, rawCode).None? ==>
      Lookup(r, rawType, rawCode) == Some(CodeEntry("N", rawType, rawCode, "", attrIfNew, defaultIfNew, 1,
                                                   if example == "" then [] else [Example(example, 1)]))
    // an existing entry keeps its mapping decision and counts one more use
    ensures Lookup(t, rawType, rawCode).Some? ==>
      && Lookup(r, rawType, rawCode).Some?
      && var e := Lookup(t, rawType, rawCode).value;
      var e' := Lookup(r, rawType, rawCode).value;
      && e'.reviewed == e.reviewed && e'.rawType == e.rawType && e'.rawCode == e.rawCode
      && e'.rawModifier == e.rawModifier && e'.senzingAttr == e.senzingAttr
      && e'.senzingDefault == e.senzingDefault
      && e'.count == e.count + 1
      && e'.examples == if example == "" then e.examples else AddExample(e.examples, example)
    // nothing else changes
    ensures forall ty, c :: (ty != rawType || c != rawCode) ==> Lookup(r, ty, c) == Lookup(t, ty, c)
  {
    var inner := if rawType in t then t[rawType] else map[];
    var e := if rawCode in inner then inner[rawCode]
             else CodeEntry("N", rawType, rawCode, "", attrIfNew, defaultIfNew, 0, []);
    var ex := if example == "" then e.examples else AddExample(e.examples, example);
    t[rawType := inner[rawCode := e.(count := e.count + 1, examples := ex)]]
  }

  predicate WellFormedEntry(e: CodeEntry) {
    DistinctValues(e.examples) && PositiveCounts(e.examples) && |e.examples| <= MaxExamples
  }

  /** What every table the program builds satisfies: each entry records the
      keys it is filed under, no raw type has an empty partition, and the
      example statistics are a proper bounded dict of positive counts. */
  predicate WellFormed(t: Table) {
    && (forall ty :: ty in t ==> t[ty] != map[])
    && (forall ty, c :: ty in t && c in t[ty] ==>
          t[ty][c].rawType == ty && t[ty][c].rawCode == c && WellFormedEntry(t[ty][c]))
  }

  /** Updating keeps a table well formed, so `|EXAMPLES| <= 1,000,000` always. */
  lemma UpdatePreservesWellFormed(t: Table, rawType: string, rawCode: string, example: string,
                                  attrIfNew: string, defaultIfNew: string)
    requires WellFormed(t)
    ensures WellFormed(UpdateCodeStats(t, rawType, rawCode, example, attrIfNew, defaultIfNew))
  {
    var r: Table := UpdateCodeStats(t, rawType, rawCode, example, attrIfNew, defaultIfNew);
    forall ty: string, c: string | ty in r && c in r[ty]
      ensures r[ty][c].rawType == ty && r[ty][c].rawCode == c && WellFormedEntry(r[ty][c])
    {
      assert Lookup(r, ty, c).Some?;
      if ty != rawType || c != rawCode {
        assert Lookup(t, ty, c) == Lookup(r, ty, c);
      }
    }
  }

  /** One call of `update_code_stats`. */
  datatype CodeUse = CodeUse(rawType: string, rawCode: string, example: string)

  function ApplyUses(t: Table, uses: seq<CodeUse>): Table
    decreases |uses|
  {
    if uses == [] then t
    else ApplyUses(UpdateCodeStats(t, uses[0].rawType, uses[0].rawCode, uses[0].example, "", ""), uses[1..])
  }

  function UsesOf(uses: seq<CodeUse>, rawType: string, rawCode: string): nat {
    if uses == [] then 0
    else (if uses[0].rawType == rawType && uses[0].rawCode == rawCode then 1 else 0)
         + UsesOf(uses[1..], rawType, rawCode)
  }

  /** However many codes a run looks up, an entry that was loaded keeps its
      mapping decision, so every lookup of it returns the same SENZING_ATTR and
      SENZING_DEFAULT, and its COUNT grows by exactly the number of lookups. */
  lemma {:induction false} UsesKeepMapping(t: Table, uses: seq<CodeUse>, rawType: string, rawCode: string)
    requires Lookup(t, rawType, rawCode).Some?
    ensures Lookup(ApplyUses(t, uses), rawType, rawCode).Some?
    ensures var e := Lookup(t, rawType, rawCode).value;
            var e' := Lookup(ApplyUses(t, uses), rawType, rawCode).value;
            && e'.reviewed == e.reviewed && e'.rawModifier == e.rawModifier
            && e'.senzingAttr == e.senzingAttr && e'.senzingDefault == e.senzingDefault
            && e'.count == e.count + UsesOf(uses, rawType, rawCode)
    decreases |uses|
  {
    if uses != [] {
      var u := uses[0];
      var t1 := UpdateCodeStats(t, u.rawType, u.rawCode, u.example, "", "");
      UsesKeepMapping(t1, uses[1..], rawType, rawCode);
    }
  }

  /** The entry one row of the file loads as: statistics start empty. */
  function EntryOf(row: CodeRow): CodeEntry {
    CodeEntry(row.reviewed, row.rawType, row.rawCode, row.rawModifier,
              row.senzingAttr, row.senzingDefault, 0, [])
  }

  /** A row counts as reviewed when its REVIEWED flag upper-cases to "Y". */
  predicate IsReviewed(flag: string) {
    Upper(flag) == "Y"
  }

  lemma ReviewedFlags(flag: string)
    ensures IsReviewed(flag) <==> flag == "Y" || flag == "y"
  {
    if IsReviewed(flag) {
      assert |flag| == 1 && UpperChar(flag[0]) == 'Y';
      assert flag == [flag[0]];
    }
  }

  /** Row `i` is the last row of the file with its (RAW_TYPE, RAW_CODE) pair. */
  predicate IsLastFor(rows: seq<CodeRow>, i: int)
    requires 0 <= i < |rows|
  {
    forall j :: i < j < |rows| ==> rows[j].rawType != rows[i].rawType || rows[j].rawCode != rows[i].rawCode
  }

  predicate RowFor(rows: seq<CodeRow>, i: int, rawType: string, rawCode: string) {
    0 <= i < |rows| && rows[i].rawType == rawType && rows[i].rawCode == rawCode
  }

  function Unreviewed(rows: seq<CodeRow>): set<int> {
    set i | 0 <= i < |rows| && !IsReviewed(rows[i].reviewed)
  }

  /** `load_codes_file` (lines 69-84) over the rows the CSV reader yields:
      returns the table and the number of rows not marked reviewed. */
  function LoadCodes(rows: seq<CodeRow>): (r: (Table, nat))
    // a pair is in the table exactly when some row carries it, and the last
    // row with that pair decides its entry
    ensures LoadedFrom(r.0, rows)
    // duplicates included, every row not marked Y counts as unmapped
    ensures r.1 == |Unreviewed(rows)|
    ensures WellFormed(r.0)
    decreases |rows|
  {
    if rows == [] then (map[], 0)
    else
      var prefix := rows[..|rows| - 1];
      var row := rows[|rows| - 1];
      var loaded := LoadCodes(prefix);
      var t' := LoadRow(loaded.0, row);
      var n' := loaded.1 + if IsReviewed(row.reviewed) then 0 else 1;
      LoadStepKeys(rows, loaded.0);
      LoadStepLast(rows, loaded.0);
      LoadRowWellFormed(loaded.0, row);
      UnreviewedStep(rows);
      (t', n')
  }

  /** The table after loading `rows`, as characterised by `LoadCodes`. */
  ghost predicate LoadedFrom(t: Table, rows: seq<CodeRow>) {
    KeysFrom(t, rows) && LastWins(t, rows)
  }

  /** A pair is in the table exactly when some row carries it. */
  ghost predicate KeysFrom(t: Table, rows: seq<CodeRow>) {
    forall ty, c :: Lookup(t, ty, c).Some? <==> exists i :: RowFor(rows, i, ty, c)
  }

  /** The last row with a pair decides that pair's entry. */
  ghost predicate LastWins(t: Table, rows: seq<CodeRow>) {
    forall i :: 0 <= i < |rows| && IsLastFor(rows, i) ==>
      Lookup(t, rows[i].rawType, rows[i].rawCode) == Some(EntryOf(rows[i]))
  }

  function LoadRow(t: Table, row: CodeRow): Table {
    var inner := if row.rawType in t then t[row.rawType] else map[];
    t[row.rawType := inner[row.rawCode := EntryOf(row)]]
  }

  lemma LoadRowFrame(t: Table, row: CodeRow, ty: string, c: string)
    ensures ty == row.rawType && c == row.rawCode ==> Lookup(LoadRow(t, row), ty, c) == Some(EntryOf(row))
    ensures ty != row.rawType || c != row.rawCode ==> Lookup(LoadRow(t, row), ty, c) == Lookup(t, ty, c)
  {
  }

  lemma LoadStepKeys(rows: seq<CodeRow>, t: Table)
    requires rows != []
    requires LoadedFrom(t, rows[..|rows| - 1])
    ensures KeysFrom(LoadRow(t, rows[|rows| - 1]), rows)
  {
    var prefix := rows[..|rows| - 1];
    var n := |rows| - 1;
    var row := rows[n];
    var t': Table := LoadRow(t, row);
    assert row.rawCode in t'[row.rawType];
    forall ty, c
      ensures Lookup(t', ty, c).Some? <==> exists i :: RowFor(rows, i, ty, c)
    {
      LoadRowFrame(t, row, ty, c);
      if ty == row.rawType && c == row.rawCode {
        assert RowFor(rows, n, ty, c);
      } else {
        if exists i :: RowFor(rows, i, ty, c) {
          var i :| RowFor(rows, i, ty, c);
          assert i < n;
          assert RowFor(prefix, i, ty, c);
        }
        if exists i :: RowFor(prefix, i, ty, c) {
          var i :| RowFor(prefix, i, ty, c);
          assert RowFor(rows, i, ty, c);
        }
      }
    }
  }

  lemma LoadStepLast(rows: seq<CodeRow>, t: Table)
    requires rows != []
    requires LoadedFrom(t, rows[..|rows| - 1])
    ensures LastWins(LoadRow(t, rows[|rows| - 1]), rows)
  {
    var prefix := rows[..|rows| - 1];
    var n := |rows| - 1;
    var row := rows[n];
    forall i | 0 <= i < |rows| && IsLastFor(rows, i)
      ensures Lookup(LoadRow(t, row), rows[i].rawType, rows[i].rawCode) == Some(EntryOf(rows[i]))
    {
      LoadRowFrame(t, row, rows[i].rawType, rows[i].rawCode);
      if i < n {
        assert rows[i] == prefix[i];
        assert IsLastFor(prefix, i) by {
          forall j | i < j < |prefix|
            ensures prefix[j].rawType != prefix[i].rawType || prefix[j].rawCode != prefix[i].rawCode
          {
            assert prefix[j] == rows[j];
          }
        }
        assert rows[n].rawType != rows[i].rawType || rows[n].rawCode != rows[i].rawCode;
      }
    }
  }

  lemma LoadRowWellFormed(t: Table, row: CodeRow)
    requires WellFormed(t)
    ensures WellFormed(LoadRow(t, row))
  {
    var t': Table := LoadRow(t, row);
    assert row.rawCode in t'[row.rawType];
    forall ty: string, c: string | ty in t' && c in t'[ty]
      ensures t'[ty][c].rawType == ty && t'[ty][c].rawCode == c && WellFormedEntry(t'[ty][c])
    {
      LoadRowFrame(t, row, ty, c);
    }
  }

  lemma UnreviewedStep(rows: seq<CodeRow>)
    requires rows != []
    ensures |Unreviewed(rows)| == |Unreviewed(rows[..|rows| - 1])|
                                 + if IsReviewed(rows[|rows| - 1].reviewed) then 0 else 1
  {
    var n := |rows| - 1;
    var prefix := rows[..n];
    assert forall i :: 0 <= i < n ==> prefix[i] == rows[i];
    if IsReviewed(rows[n].reviewed) {
      assert Unreviewed(rows) == Unreviewed(prefix);
    } else {
      assert Unreviewed(rows) == Unreviewed(prefix) + {n};
    }
  }
}

=== FILE: dates.dfy ===
/**
 `formatDate` (ofac_mapper.py lines 23-46, ofac2json.py lines 31-54): try five
 date patterns in a fixed order and reformat with the first that parses;
 when none parses, return the input unchanged. Parsing and printing
 (`strptime` / `strftime`) are parameters: the model fixes the order and the
 fallback, not the calendar.
 */
module Dates {
  import opened Wrappers

  /** The input patterns, named after their `strptime` format strings. */
  datatype Pattern =
    | IsoDash        // %Y-%m-%d
    | MonthDayYear   // %m/%d/%Y
    | MonthDayYear2  // %m/%d/%y
    | DayMonName     // %d %b %Y
    | DayMonthYear   // %d %m %Y

  /** The order in which the patterns are tried. */
  const Patterns: seq<Pattern> := [IsoDash, MonthDayYear, MonthDayYear2, DayMonName, DayMonthYear]

  function FormatString(p: Pattern): string {
    match p
    case IsoDash => "%Y-%m-%d"
    case MonthDayYear => "%m/%d/%Y"
    case MonthDayYear2 => "%m/%d/%y"
    case DayMonName => "%d %b %Y"
    case DayMonthYear => "%d %m %Y"
  }

  /** The output formats the converters ask for: `%Y-%m-%d` (the default)
      and `%Y`. */
  datatype OutputFormat = IsoDate | YearOnly

  datatype Date = Date(year: int, month: int, day: int)

  /** `datetime.strptime(s, FormatString(p))`: a date, or None where it raises. */
  type Parser = (Pattern, string) -> Option<Date>

  /** `datetime.strftime(d, format)` */
  type Printer = (Date, OutputFormat) -> string

  /** The first of `ps` that parses `s`, as an index into `ps`. */
  function FirstParse(ps: seq<Pattern>, s: string, parse: Parser): (r: Option<nat>)
    ensures r.None? <==> forall i :: 0 <= i < |ps| ==> parse(ps[i], s).None?
    ensures r.Some? ==> r.value < |ps| && parse(ps[r.value], s).Some?
    ensures r.Some? ==> forall j :: 0 <= j < r.value ==> parse(ps[j], s).None?
  {
    if ps == [] then None
    else if parse(ps[0], s).Some? then Some(0)
    else
      var rest := FirstParse(ps[1..], s, parse);
      assert forall i :: 1 <= i < |ps| ==> ps[i] == ps[1..][i - 1];
      if rest.None? then None else Some(rest.value + 1)
  }

  /** `formatDate(s, out)` */
  function FormatDate(s: string, out: OutputFormat, parse: Parser, render: Printer): (r: string)
    // no pattern parses: the input comes back unchanged
    ensures (forall i :: 0 <= i < |Patterns| ==> parse(Patterns[i], s).None?) ==> r == s
    // otherwise the first pattern that parses decides the date
    ensures forall i :: 0 <= i < |Patterns| && parse(Patterns[i], s).Some?
                        && (forall j :: 0 <= j < i ==> parse(Patterns[j], s).None?) ==>
              r == render(parse(Patterns[i], s).value, out)
  {
    var first := FirstParse(Patterns, s, parse);
    if first.None? then s
    else render(parse(Patterns[first.value], s).value, out)
  }

  /** A date's full form and its year come from the same parse: both
      reformat the date the first matching pattern read, or both fall back
      to the input. */
  lemma DateAndYearAgree(s: string, parse: Parser, render: Printer)
    ensures || (FormatDate(s, IsoDate, parse, render) == s && FormatDate(s, YearOnly, parse, render) == s)
            || exists d :: (&& FormatDate(s, IsoDate, parse, render) == render(d, IsoDate)
                            && FormatDate(s, YearOnly, parse, render) == render(d, YearOnly))
  {
    var first := FirstParse(Patterns, s, parse);
    if first.Some? {
      var d := parse(Patterns[first.value], s).value;
      assert FormatDate(s, IsoDate, parse, render) == render(d, IsoDate);
    }
  }

  /** A pattern earlier in the list always beats a later one: an input both
      `%m/%d/%Y` and `%m/%d/%y` accept is read with the four-digit year. */
  lemma EarlierPatternWins(s: string, parse: Parser, render: Printer, out: OutputFormat)
    requires parse(IsoDash, s).None?
    requires parse(MonthDayYear, s).Some?
    ensures FormatDate(s, out, parse, render) == render(parse(MonthDayYear, s).value, out)
  {
    assert Patterns[1] == MonthDayYear;
  }
}

=== FILE: json.dfy ===
/**
 The JSON-like values the converters build. A Python `dict` remembers the order
 its keys were first inserted and `json.dumps` writes them in that order, so an
 object is a sequence of fields, and assigning `d[k] = v` overwrites the value
 in place when `k` is already a key and appends a field otherwise.
 */
module JsonValue {
  import opened Wrappers
  import opened Text

  datatype Json = JNull | JStr(s: string) | JList(items: seq<Json>) | JObj(fields: seq<Field>)
  datatype Field = Field(key: string, value: Json)
  type Dict = seq<Field>

  /** `d.get(k)`: the value of the first field named `k`. */
  function Get(d: Dict, k: string): Option<Json> {
    if d == [] then None
    else if d[0].key == k then Some(d[0].value)
    else Get(d[1..], k)
  }

  /** `k in d` */
  predicate HasKey(d: Dict, k: string) {
    Get(d, k).Some?
  }

  /** The keys of `d` in insertion order. */
  function KeysOf(d: Dict): (ks: seq<string>)
    ensures |ks| == |d|
  {
    if d == [] then [] else [d[0].key] + KeysOf(d[1..])
  }

  lemma {:induction false} KeysOfGet(d: Dict, k: string)
    ensures HasKey(d, k) <==> k in KeysOf(d)
  {
    if d != [] {
      KeysOfGet(d[1..], k);
    }
  }

  /** The i-th key is the i-th field's name. */
  lemma {:induction false} KeysOfIndex(d: Dict)
    ensures forall i :: 0 <= i < |d| ==> KeysOf(d)[i] == d[i].key
  {
    if d != [] {
      KeysOfIndex(d[1..]);
    }
  }

  /** `d[k] = v` */
  function Set(d: Dict, k: string, v: Json): (r: Dict)
    ensures Get(r, k) == Some(v)
    ensures forall k' :: k' != k ==> Get(r, k') == Get(d, k')
    ensures HasKey(d, k) ==> KeysOf(r) == KeysOf(d)
    ensures !HasKey(d, k) ==> KeysOf(r) == KeysOf(d) + [k]
  {
    if d == [] then [Field(k, v)]
    else if d[0].key == k then [Field(k, v)] + d[1..]
    else
      var r := [d[0]] + Set(d[1..], k, v);
      assert r[1..] == Set(d[1..], k, v);
      r
  }

  /** Appending `text` to a field the record already holds: a string grows by
      `text`; a list is extended by the characters of `text`, one string per
      character, as Python's `list += str` does. A record never holds a null or
      an object at the top level, so those stay as they are. */
  function Extend(v: Json, text: string): Json {
    match v
    case JStr(s) => JStr(s + text)
    case JList(items) => JList(items + seq(|text|, i requires 0 <= i < |text| => JStr([text[i]])))
    case _ => v
  }

  /** A single-field object such as `{'NATIONALITY': 'Iran'}`. */
  function Single(k: string, v: string): (d: Dict)
    ensures forall k' :: Get(d, k') == if k' == k then Some(JStr(v)) else None
    ensures KeysOf(d) == [k]
  {
    var d := [Field(k, JStr(v))];
    assert d[1..] == [];
    d
  }

  /** A value `remove_empty_tags` deletes: `None`, or a string that is empty
      once stripped. Lists and objects print as `[...]` / `{...}`, never blank. */
  predicate Blank(v: Json) {
    v.JNull? || (v.JStr? && AllSpace(v.s))
  }

  /** The fields whose value is not blank, in order. */
  function KeepNonBlank(fs: seq<Field>): (r: seq<Field>)
    ensures forall i :: 0 <= i < |r| ==> r[i] in fs && !Blank(r[i].value)
    ensures forall i :: 0 <= i < |fs| && !Blank(fs[i].value) ==> fs[i] in r
    ensures (forall i :: 0 <= i < |fs| ==> !Blank(fs[i].value)) ==> r == fs
  {
    if fs == [] then []
    else
      var rest := KeepNonBlank(fs[1..]);
      assert forall i :: 1 <= i < |fs| ==> fs[i] == fs[1..][i - 1];
      if Blank(fs[0].value) then rest else [fs[0]] + rest
  }

  /** `remove_empty_tags(d)`: deletes every blank field of every object, at
      every depth, and descends into the remaining values and list items. */
  function RemoveEmptyTags(j: Json): Json
    decreases j
  {
    match j
    case JObj(fs) =>
      var kept := KeepNonBlank(fs);
      JObj(seq(|kept|, i requires 0 <= i < |kept| =>
        assert kept[i] in fs;
        Field(kept[i].key, RemoveEmptyTags(kept[i].value))))
    case JList(items) =>
      JList(seq(|items|, i requires 0 <= i < |items| => RemoveEmptyTags(items[i])))
    case _ => j
  }

  /** No object anywhere inside `j` holds a blank field. */
  predicate NoEmptyTags(j: Json)
    decreases j
  {
    match j
    case JObj(fs) => forall i :: 0 <= i < |fs| ==> !Blank(fs[i].value) && NoEmptyTags(fs[i].value)
    case JList(items) => forall i :: 0 <= i < |items| ==> NoEmptyTags(items[i])
    case _ => true
  }

  /** After `remove_empty_tags` no blank field is left at any depth. */
  lemma {:induction false} RemoveEmptyTagsCleans(j: Json)
    ensures NoEmptyTags(RemoveEmptyTags(j))
    decreases j
  {
    match j
    case JObj(fs) =>
      var kept := KeepNonBlank(fs);
      var r := RemoveEmptyTags(j);
      forall i | 0 <= i < |kept|
        ensures !Blank(r.fields[i].value) && NoEmptyTags(r.fields[i].value)
      {
        assert kept[i] in fs;
        RemoveEmptyTagsCleans(kept[i].value);
        RemovePreservesShape(kept[i].value);
      }
    case JList(items) =>
      forall i | 0 <= i < |items|
        ensures NoEmptyTags(RemoveEmptyTags(items[i]))
      {
        RemoveEmptyTagsCleans(items[i]);
      }
    case _ =>
  }

  /** Cleaning never turns a value that is not blank into a blank one. */
  lemma RemovePreservesShape(j: Json)
    requires !Blank(j)
    ensures !Blank(RemoveEmptyTags(j))
  {
  }

  /** A value with no blank field is left exactly as it is. */
  lemma {:induction false} RemoveEmptyTagsFixes(j: Json)
    requires NoEmptyTags(j)
    ensures RemoveEmptyTags(j) == j
    decreases j
  {
    match j
    case JObj(fs) =>
      var kept := KeepNonBlank(fs);
      assert kept == fs;
      forall i | 0 <= i < |fs|
        ensures RemoveEmptyTags(fs[i].value) == fs[i].value
      {
        RemoveEmptyTagsFixes(fs[i].value);
      }
      assert RemoveEmptyTags(j).fields == fs;
    case JList(items) =>
      forall i | 0 <= i < |items|
        ensures RemoveEmptyTags(items[i]) == items[i]
      {
        RemoveEmptyTagsFixes(items[i]);
      }
      assert RemoveEmptyTags(j).items == items;
    case _ =>
  }

  /** Cleaning twice is the same as cleaning once. */
  lemma RemoveEmptyTagsIdempotent(j: Json)
    ensures RemoveEmptyTags(RemoveEmptyTags(j)) == RemoveEmptyTags(j)
  {
    RemoveEmptyTagsCleans(j);
    RemoveEmptyTagsFixes(RemoveEmptyTags(j));
  }
}

=== FILE: mapper_record.dfy ===
/**
 ofac_mapper.py's per-entry assembly (lines 222-395): only entities and
 individuals become records, and each identifier is classified through the
 code-conversion table. An identifier type whose entry names a Senzing
 attribute becomes an ID_LIST dict; any other is written to the record
 under the identifier type itself, repeated values joined by " | ". Every
 identifier seen is counted in the table.
 */
module MapperRecord {
  import opened Wrappers
  import opened Text
  import opened JsonValue
  import opened CodeTable
  import opened Dates
  import opened SdnEntry

  // ----- record type -----

  /** RECORD_TYPE: only entities and individuals are converted. */
  function RecordType(sdnType: string): (r: Option<string>)
    ensures r.Some? <==> sdnType == "Entity" || sdnType == Individual
    ensures r.Some? ==> r.value == "ORGANIZATION" || r.value == "PERSON"
    // an entity is an organisation, an individual a person
    ensures r == Some("ORGANIZATION") <==> sdnType == "Entity"
    ensures r == Some("PERSON") <==> sdnType == Individual
  {
    if sdnType == "Entity" then Some("ORGANIZATION")
    else if sdnType == Individual then Some("PERSON")
    else None
  }

  /** The VESSEL branch of lines 383-395 is never taken: no entry becomes a
      vessel record here. */
  lemma NeverVessel(sdnType: string)
    ensures RecordType(sdnType) != Some("VESSEL")
  {
  }

  // ----- identifiers -----

  /** The raw types under which identifiers are counted. */
  const IdTypeCodes: string := "idType"
  const IdCountryCodes: string := "idCountry"

  /** The attributes that also carry the identifier's type. */
  const TypedAttrs: seq<string> := ["OTHER_ID_NUMBER", "NATIONAL_ID_NUMBER"]

  function TypeKey(attr: string): string {
    ReplaceAll(attr, "_NUMBER", "_TYPE")
  }

  function CountryKey(attr: string): string {
    ReplaceAll(attr, "_NUMBER", "_COUNTRY")
  }

  /** The ID_LIST dict for an identifier whose type maps to `attr`, with
      `country` the country entry's SENZING_DEFAULT (lines 360-367). The
      number is written as read: nothing is stripped, not even for IMO_NUMBER. */
  function MappedId(attr: string, id: IdItem, country: string): (d: Dict)
    ensures KeysOf(d) != [] && KeysOf(d)[0] == attr
    // a country is written only when the country entry supplies one
    ensures country != "" ==> Get(d, CountryKey(attr)) == Some(JStr(country))
    // only OTHER_ID_NUMBER and NATIONAL_ID_NUMBER carry the type
    ensures attr !in TypedAttrs ==>
              forall k :: HasKey(d, k) ==> k == attr || (country != "" && k == CountryKey(attr))
    ensures attr in TypedAttrs ==>
              forall k :: HasKey(d, k) ==> k == attr || k == TypeKey(attr) || (country != "" && k == CountryKey(attr))
    ensures (country == "" || CountryKey(attr) != attr) && (attr !in TypedAttrs || TypeKey(attr) != attr) ==>
              Get(d, attr) == Some(JStr(id.idNumber))
    ensures attr in TypedAttrs && (country == "" || CountryKey(attr) != TypeKey(attr)) ==>
              Get(d, TypeKey(attr)) == Some(JStr(id.idType))
  {
    var d0 := Single(attr, id.idNumber);
    var d1 := if attr in TypedAttrs then Set(d0, TypeKey(attr), JStr(id.idType)) else d0;
    var d2 := if country != "" then Set(d1, CountryKey(attr), JStr(country)) else d1;
    KeysOfGet(d0, attr);
    d2
  }

  /** The text an unmapped identifier contributes (line 373). */
  function IdText(id: IdItem): string {
    id.idNumber + (if id.idCountry != "" then " (" + id.idCountry + ")" else "")
  }

  /** An unmapped identifier's text: written under its type the first time,
      appended after " | " every later time. */
  function AddUnmapped(record: Dict, key: string, text: string): (r: Dict)
    ensures !HasKey(record, key) ==> Get(r, key) == Some(JStr(text))
    ensures HasKey(record, key) && Get(record, key).value.JStr? ==>
              Get(r, key) == Some(JStr(Get(record, key).value.s + " | " + text))
    ensures forall k :: k != key ==> Get(r, k) == Get(record, k)
    ensures KeysOf(r) == if HasKey(record, key) then KeysOf(record) else KeysOf(record) + [key]
  {
    if !HasKey(record, key) then Set(record, key, JStr(text))
    else
      var prior := Get(record, key).value;
      assert prior.JStr? ==> Extend(prior, " | " + text) == JStr(prior.s + " | " + text);
      Set(record, key, Extend(prior, " | " + text))
  }

  /** What the identifier loop has built so far. */
  datatype IdState = IdState(record: Dict, idList: seq<Json>, table: Table)

  /** How often the table has counted a code. */
  function CountOf(t: Table, rawType: string, rawCode: string): nat {
    if Lookup(t, rawType, rawCode).Some? then Lookup(t, rawType, rawCode).value.count else 0
  }

  /** The table keeps every mapping decision it held. */
  ghost predicate SameMappings(t: Table, t': Table) {
    forall ty, c :: Lookup(t, ty, c).Some? ==>
      && Lookup(t', ty, c).Some?
      && Lookup(t', ty, c).value.reviewed == Lookup(t, ty, c).value.reviewed
      && Lookup(t', ty, c).value.senzingAttr == Lookup(t, ty, c).value.senzingAttr
      && Lookup(t', ty, c).value.senzingDefault == Lookup(t, ty, c).value.senzingDefault
  }

  /** The Senzing attribute the table gives an identifier type, "" when it
      has none; a type seen for the first time gets none. */
  function AttrOf(t: Table, idType: string): string {
    if Lookup(t, IdTypeCodes, idType).Some? then Lookup(t, IdTypeCodes, idType).value.senzingAttr else ""
  }

  /** The country default the table gives an identifier country, "" when it
      has none or the country is empty. */
  function CountryOf(t: Table, idCountry: string): string {
    if idCountry != "" && Lookup(t, IdCountryCodes, idCountry).Some? then Lookup(t, IdCountryCodes, idCountry).value.senzingDefault else ""
  }

  /** One `update_code_stats` call with no mapping for new codes: it keeps
      every mapping decision, counts its own code once and leaves the other
      codes alone; a code it creates maps to nothing. */
  lemma UpdateStep(t: Table, rawType: string, rawCode: string, example: string)
    ensures var r := UpdateCodeStats(t, rawType, rawCode, example, "", "");
            && SameMappings(t, r)
            && CountOf(r, rawType, rawCode) == CountOf(t, rawType, rawCode) + 1
            && (forall ty, c :: (ty != rawType || c != rawCode) ==> Lookup(r, ty, c) == Lookup(t, ty, c))
            && Lookup(r, rawType, rawCode).Some?
            && Lookup(r, rawType, rawCode).value.senzingAttr ==
                 (if Lookup(t, rawType, rawCode).Some? then Lookup(t, rawType, rawCode).value.senzingAttr else "")
            && Lookup(r, rawType, rawCode).value.senzingDefault ==
                 (if Lookup(t, rawType, rawCode).Some? then Lookup(t, rawType, rawCode).value.senzingDefault else "")
  {
    var r := UpdateCodeStats(t, rawType, rawCode, example, "", "");
    forall ty, c | Lookup(t, ty, c).Some?
      ensures && Lookup(r, ty, c).Some?
              && Lookup(r, ty, c).value.reviewed == Lookup(t, ty, c).value.reviewed
              && Lookup(r, ty, c).value.senzingAttr == Lookup(t, ty, c).value.senzingAttr
              && Lookup(r, ty, c).value.senzingDefault == Lookup(t, ty, c).value.senzingDefault
    {
    }
  }

  lemma SameMappingsTrans(a: Table, b: Table, c: Table)
    requires SameMappings(a, b) && SameMappings(b, c)
    ensures SameMappings(a, c)
  {
  }

  /** The table after counting one identifier (lines 352-356). */
  function CountId(t: Table, id: IdItem): (r: Table)
    ensures SameMappings(t, r)
    ensures CountOf(r, IdTypeCodes, id.idType) == CountOf(t, IdTypeCodes, id.idType) + 1
    ensures forall c :: CountOf(r, IdCountryCodes, c) ==
              CountOf(t, IdCountryCodes, c) + (if id.idCountry != "" && c == id.idCountry then 1 else 0)
    ensures forall ty, c :: ty != IdTypeCodes && ty != IdCountryCodes ==> Lookup(r, ty, c) == Lookup(t, ty, c)
    ensures forall c :: c != id.idType ==> Lookup(r, IdTypeCodes, c) == Lookup(t, IdTypeCodes, c)
    // a type or country seen for the first time maps to nothing
    ensures AttrOf(r, id.idType) == AttrOf(t, id.idType)
    ensures CountryOf(r, id.idCountry) == CountryOf(t, id.idCountry)
  {
    assert IdTypeCodes != IdCountryCodes;
    var t1 := UpdateCodeStats(t, IdTypeCodes, id.idType, id.idNumber, "", "");
    UpdateStep(t, IdTypeCodes, id.idType, id.idNumber);
    if id.idCountry != "" then
      var t2 := UpdateCodeStats(t1, IdCountryCodes, id.idCountry, id.idType, "", "");
      UpdateStep(t1, IdCountryCodes, id.idCountry, id.idType);
      SameMappingsTrans(t, t1, t2);
      t2
    else t1
  }

  /** One pass of the identifier loop (lines 345-375). */
  function ClassifyId(st: IdState, id: IdItem): (r: IdState)
    // an identifier without a number is skipped entirely
    ensures id.idNumber == "" ==> r == st
    ensures id.idNumber != "" ==> r.table == CountId(st.table, id)
    // a mapped type adds exactly one ID_LIST dict and leaves the record alone
    ensures id.idNumber != "" && AttrOf(st.table, id.idType) != "" ==>
              && r.record == st.record
              && r.idList == st.idList + [JObj(MappedId(AttrOf(st.table, id.idType), id, CountryOf(st.table, id.idCountry)))]
    // an unmapped type writes to the record under its own name instead
    ensures id.idNumber != "" && AttrOf(st.table, id.idType) == "" ==>
              && r.idList == st.idList
              && r.record == AddUnmapped(st.record, id.idType, IdText(id))
  {
    if id.idNumber == "" then st
    else
      var t' := CountId(st.table, id);
      var attr := AttrOf(t', id.idType);
      if attr != "" then
        IdState(st.record, st.idList + [JObj(MappedId(attr, id, CountryOf(t', id.idCountry)))], t')
      else
        IdState(AddUnmapped(st.record, id.idType, IdText(id)), st.idList, t')
  }

  function ClassifyIds(st: IdState, ids: seq<IdItem>): IdState {
    if ids == [] then st
    else ClassifyId(ClassifyIds(st, ids[..|ids| - 1]), ids[|ids| - 1])
  }

  /** How many of `ids` with a number have type `idType`. */
  function NumberedOfType(ids: seq<IdItem>, idType: string): nat {
    if ids == [] then 0
    else
      var id := ids[|ids| - 1];
      NumberedOfType(ids[..|ids| - 1], idType) + if id.idNumber != "" && id.idType == idType then 1 else 0
  }

  /** Over a whole entry the table keeps every mapping decision and counts
      each numbered identifier's type exactly once. */
  lemma {:induction false} ClassifyIdsCounts(st: IdState, ids: seq<IdItem>, idType: string)
    ensures SameMappings(st.table, ClassifyIds(st, ids).table)
    ensures CountOf(ClassifyIds(st, ids).table, IdTypeCodes, idType) == CountOf(st.table, IdTypeCodes, idType) + NumberedOfType(ids, idType)
  {
    if ids != [] {
      var prev := ClassifyIds(st, ids[..|ids| - 1]);
      ClassifyIdsCounts(st, ids[..|ids| - 1], idType);
      var id := ids[|ids| - 1];
      if id.idNumber != "" {
        var t' := CountId(prev.table, id);
        if id.idType != idType {
          assert Lookup(t', IdTypeCodes, idType) == Lookup(prev.table, IdTypeCodes, idType);
        }
      }
    }
  }

  /** Classifying two identifiers is classifying one, then the other. */
  lemma ClassifyTwo(st: IdState, a: IdItem, b: IdItem)
    ensures ClassifyIds(st, [a, b]) == ClassifyId(ClassifyId(st, a), b)
  {
    assert [a][..0] == [];
    var s1 := ClassifyIds(st, [a]);
    assert s1 == ClassifyId(ClassifyIds(st, []), a);
    assert [a, b][..1] == [a];
    assert ClassifyIds(st, [a, b]) == ClassifyId(s1, b);
  }

  /** Two unmapped identifiers of one type on an entry end up in one field,
      joined by " | " in document order. */
  lemma UnmappedRepeatJoins(record: Dict, t: Table, a: IdItem, b: IdItem)
    requires a.idType == b.idType && a.idNumber != "" && b.idNumber != ""
    requires AttrOf(t, a.idType) == "" && !HasKey(record, a.idType)
    ensures Get(ClassifyIds(IdState(record, [], t), [a, b]).record, a.idType) == Some(JStr(IdText(a) + " | " + IdText(b)))
    ensures ClassifyIds(IdState(record, [], t), [a, b]).idList == []
  {
    var st0 := IdState(record, [], t);
    ClassifyTwo(st0, a, b);
    var st1 := ClassifyId(st0, a);
    assert st1.idList == [];
    var r1 := st1.record;
    assert r1 == AddUnmapped(record, a.idType, IdText(a));
    assert Get(r1, a.idType) == Some(JStr(IdText(a)));
    assert st1.table == CountId(t, a);
    assert AttrOf(st1.table, b.idType) == "";
    var st2 := ClassifyId(st1, b);
    assert st2.record == AddUnmapped(r1, b.idType, IdText(b));
  }

  /** An IMO number is written with its "IMO " prefix, or whatever else
      the number holds: the mapper strips nothing. */
  lemma ImoNumberKept(id: IdItem, country: string)
    ensures Get(MappedId("IMO_NUMBER", id, country), "IMO_NUMBER") == Some(JStr(id.idNumber))
  {
    assert "IMO_NUMBER" !in TypedAttrs;
    var attr := "IMO_NUMBER";
    assert OccursAt(attr, "_NUMBER", 3) by {
      assert attr[3..3 + |"_NUMBER"|] == "_NUMBER";
    }
    ReplaceLength(attr, "_NUMBER", "_COUNTRY");
    assert CountryKey(attr) != attr;
  }

  // ----- attributes -----

  /** Each date of birth as `formatDate` writes it; an empty one stays empty. */
  function FormattedDates(dobs: seq<string>, parse: Parser, render: Printer): (r: seq<string>)
    ensures |r| == |dobs|
  {
    seq(|dobs|, i requires 0 <= i < |dobs| => if dobs[i] == "" then "" else FormatDate(dobs[i], IsoDate, parse, render))
  }

  /** The first date of birth is formatted on its own, the rest as a list. */
  lemma FormattedDatesCons(dobs: seq<string>, parse: Parser, render: Printer)
    requires dobs != []
    ensures var f := FormattedDates(dobs, parse, render);
            && f[0] == (if dobs[0] == "" then "" else FormatDate(dobs[0], IsoDate, parse, render))
            && f[1..] == FormattedDates(dobs[1..], parse, render)
  {
    var f, g := FormattedDates(dobs, parse, render), FormattedDates(dobs[1..], parse, render);
    assert |f[1..]| == |g|;
    forall i | 0 <= i < |g|
      ensures f[1..][i] == g[i]
    {
      assert f[1..][i] == f[i + 1] && dobs[1..][i] == dobs[i + 1];
    }
  }

  /** ATTR_LIST (lines 292-312): dates of birth, places of birth,
      nationalities and citizenships, one single-field dict each. */
  function AttrList(e: Entry, parse: Parser, render: Printer): seq<Json> {
    Tagged("DATE_OF_BIRTH", FormattedDates(e.datesOfBirth, parse, render))
      + Tagged("PLACE_OF_BIRTH", e.placesOfBirth)
      + Tagged("NATIONALITY", e.nationalities)
      + Tagged("CITIZENSHIP", e.citizenships)
  }

  /** A date of birth no pattern reads is kept as written. */
  lemma UnparsedDateKept(e: Entry, dob: string, parse: Parser, render: Printer)
    requires dob in e.datesOfBirth && dob != ""
    requires forall i :: 0 <= i < |Patterns| ==> parse(Patterns[i], dob).None?
    ensures JObj(Single("DATE_OF_BIRTH", dob)) in AttrList(e, parse, render)
  {
    var k :| 0 <= k < |e.datesOfBirth| && e.datesOfBirth[k] == dob;
    assert FormattedDates(e.datesOfBirth, parse, render)[k] == dob;
  }

  // ----- the record -----

  /** The fields every record starts with, in order. */
  const HeaderKeys: seq<string> := ["DATA_SOURCE", "RECORD_TYPE", "RECORD_ID", "OFAC_ID", "PUBLISH_DATE"]

  function Header(recordType: string, uid: string, publishDate: string): (d: Dict)
    ensures KeysOf(d) == HeaderKeys
  {
    var d := [Field("DATA_SOURCE", JStr("OFAC")), Field("RECORD_TYPE", JStr(recordType)),
              Field("RECORD_ID", JStr(uid)), Field("OFAC_ID", JStr(uid)), Field("PUBLISH_DATE", JStr(publishDate))];
    KeysOfIndex(d);
    d
  }

  /** A list is written under its key only when it is not empty. */
  function SetList(d: Dict, key: string, xs: seq<Json>): (r: Dict)
    ensures xs == [] ==> r == d
    ensures xs != [] ==> Get(r, key) == Some(JList(xs))
    ensures forall k :: k != key ==> Get(r, k) == Get(d, k)
    ensures KeysOf(d) <= KeysOf(r)
  {
    if xs == [] then d else Set(d, key, JList(xs))
  }

  /** The keys a record's body may hold, written after the header from the
      entry itself. */
  const BodyKeys: seq<string> := ["SDN_TITLE", "SDN_REMARKS", "SDN_PROGRAM", "NAME_LIST", "ATTR_LIST", "ADDR_LIST", "ID_LIST"]

  /** What a text field written only when present leaves under a fresh key. */
  function Present(s: string): Option<Json> {
    if s == "" then None else Some(JStr(s))
  }

  /** What a list written only when not empty leaves under a fresh key. */
  function ListValue(xs: seq<Json>): Option<Json> {
    if xs == [] then None else Some(JList(xs))
  }

  /** The body both converters write after the header: SDN_TITLE,
      SDN_REMARKS and SDN_PROGRAM when present, then NAME_LIST, the given
      ATTR_LIST and ADDR_LIST when not empty. */
  function WithBody(h: Dict, e: Entry, attrs: seq<Json>, skipUnknown: bool): (d: Dict)
    ensures KeysOf(h) <= KeysOf(d)
  {
    var fields := [("SDN_TITLE", e.title), ("SDN_REMARKS", e.remarks), ("SDN_PROGRAM", ProgramString(e.programs))];
    SetPresentExtends(h, fields);
    var d := SetPresent(h, fields);
    var d := SetList(d, "NAME_LIST", NameList(e));
    var d := SetList(d, "ATTR_LIST", attrs);
    SetList(d, "ADDR_LIST", AddressList(e.addresses, skipUnknown))
  }

  /** On a header without body keys, the body holds exactly the entry's
      present texts and non-empty lists, and nothing under ID_LIST yet. */
  lemma WithBodyGet(h: Dict, e: Entry, attrs: seq<Json>, skipUnknown: bool)
    requires !HasKey(h, "SDN_TITLE") && !HasKey(h, "SDN_REMARKS") && !HasKey(h, "SDN_PROGRAM")
    requires !HasKey(h, "NAME_LIST") && !HasKey(h, "ATTR_LIST") && !HasKey(h, "ADDR_LIST") && !HasKey(h, "ID_LIST")
    ensures var d := WithBody(h, e, attrs, skipUnknown);
            && Get(d, "SDN_TITLE") == Present(e.title)
            && Get(d, "SDN_REMARKS") == Present(e.remarks)
            && Get(d, "SDN_PROGRAM") == Present(ProgramString(e.programs))
            && Get(d, "NAME_LIST") == ListValue(NameList(e))
            && Get(d, "ATTR_LIST") == ListValue(attrs)
            && Get(d, "ADDR_LIST") == ListValue(AddressList(e.addresses, skipUnknown))
            && Get(d, "ID_LIST").None?
  {
    var title, remarks, program := e.title, e.remarks, ProgramString(e.programs);
    var names, addrs := NameList(e), AddressList(e.addresses, skipUnknown);
    var d0 := SetPresent(h, [("SDN_TITLE", title), ("SDN_REMARKS", remarks), ("SDN_PROGRAM", program)]);
    BodyKeysDiffer();
    LeadingFieldsGet(h, title, remarks, program);
    LeadingFrame(h, title, remarks, program, "NAME_LIST");
    LeadingFrame(h, title, remarks, program, "ATTR_LIST");
    LeadingFrame(h, title, remarks, program, "ADDR_LIST");
    LeadingFrame(h, title, remarks, program, "ID_LIST");
    ListsGet(d0, names, attrs, addrs);
    ListsFrame(d0, names, attrs, addrs, "SDN_TITLE");
    ListsFrame(d0, names, attrs, addrs, "SDN_REMARKS");
    ListsFrame(d0, names, attrs, addrs, "SDN_PROGRAM");
    ListsFrame(d0, names, attrs, addrs, "ID_LIST");
  }

  /** Any key outside the body keeps its header value. */
  lemma WithBodyFrame(h: Dict, e: Entry, attrs: seq<Json>, skipUnknown: bool, k: string)
    requires k !in BodyKeys
    ensures Get(WithBody(h, e, attrs, skipUnknown), k) == Get(h, k)
  {
    var title, remarks, program := e.title, e.remarks, ProgramString(e.programs);
    assert k != BodyKeys[0] && k != BodyKeys[1] && k != BodyKeys[2] && k != BodyKeys[3] && k != BodyKeys[4] && k != BodyKeys[5];
    LeadingFrame(h, title, remarks, program, k);
    ListsFrame(SetPresent(h, [("SDN_TITLE", title), ("SDN_REMARKS", remarks), ("SDN_PROGRAM", program)]),
               NameList(e), attrs, AddressList(e.addresses, skipUnknown), k);
  }

  /** The leading text keys differ from the list keys, and those from ID_LIST. */
  lemma BodyKeysDiffer()
    ensures "SDN_TITLE" != "NAME_LIST" && "SDN_TITLE" != "ATTR_LIST" && "SDN_TITLE" != "ADDR_LIST" && "SDN_TITLE" != "ID_LIST"
    ensures "SDN_REMARKS" != "NAME_LIST" && "SDN_REMARKS" != "ATTR_LIST" && "SDN_REMARKS" != "ADDR_LIST" && "SDN_REMARKS" != "ID_LIST"
    ensures "SDN_PROGRAM" != "NAME_LIST" && "SDN_PROGRAM" != "ATTR_LIST" && "SDN_PROGRAM" != "ADDR_LIST" && "SDN_PROGRAM" != "ID_LIST"
    ensures "NAME_LIST" != "ID_LIST" && "ATTR_LIST" != "ID_LIST" && "ADDR_LIST" != "ID_LIST"
  {
    assert "SDN_TITLE"[0] == 'S' && "SDN_REMARKS"[0] == 'S' && "SDN_PROGRAM"[0] == 'S';
    assert "NAME_LIST"[0] == 'N' && "ATTR_LIST"[0] == 'A' && "ADDR_LIST"[0] == 'A' && "ID_LIST"[0] == 'I';
  }

  /** The three leading texts, each written only when present. */
  lemma LeadingFieldsGet(h: Dict, title: string, remarks: string, program: string)
    requires !HasKey(h, "SDN_TITLE") && !HasKey(h, "SDN_REMARKS") && !HasKey(h, "SDN_PROGRAM")
    ensures var d := SetPresent(h, [("SDN_TITLE", title), ("SDN_REMARKS", remarks), ("SDN_PROGRAM", program)]);
            && Get(d, "SDN_TITLE") == Present(title)
            && Get(d, "SDN_REMARKS") == Present(remarks)
            && Get(d, "SDN_PROGRAM") == Present(program)
  {
    var fields := [("SDN_TITLE", title), ("SDN_REMARKS", remarks), ("SDN_PROGRAM", program)];
    assert fields[0].0 == "SDN_TITLE" && fields[1].0 == "SDN_REMARKS" && fields[2].0 == "SDN_PROGRAM";
    assert KeysIn(fields) == ["SDN_TITLE", "SDN_REMARKS", "SDN_PROGRAM"];
    SetPresentGet(h, fields);
  }

  /** The leading texts leave every other key alone. */
  lemma LeadingFrame(h: Dict, title: string, remarks: string, program: string, k: string)
    requires k != "SDN_TITLE" && k != "SDN_REMARKS" && k != "SDN_PROGRAM"
    ensures Get(SetPresent(h, [("SDN_TITLE", title), ("SDN_REMARKS", remarks), ("SDN_PROGRAM", program)]), k) == Get(h, k)
  {
    var fields := [("SDN_TITLE", title), ("SDN_REMARKS", remarks), ("SDN_PROGRAM", program)];
    assert fields[0].0 == "SDN_TITLE" && fields[1].0 == "SDN_REMARKS" && fields[2].0 == "SDN_PROGRAM";
    assert KeysIn(fields) == ["SDN_TITLE", "SDN_REMARKS", "SDN_PROGRAM"];
    SetPresentGet(h, fields);
  }

  /** The three lists, each written only when not empty. */
  lemma ListsGet(d0: Dict, names: seq<Json>, attrs: seq<Json>, addrs: seq<Json>)
    requires !HasKey(d0, "NAME_LIST") && !HasKey(d0, "ATTR_LIST") && !HasKey(d0, "ADDR_LIST")
    ensures var d := SetList(SetList(SetList(d0, "NAME_LIST", names), "ATTR_LIST", attrs), "ADDR_LIST", addrs);
            && Get(d, "NAME_LIST") == ListValue(names)
            && Get(d, "ATTR_LIST") == ListValue(attrs)
            && Get(d, "ADDR_LIST") == ListValue(addrs)
  {
    ListKeysDiffer();
    var d1 := SetList(d0, "NAME_LIST", names);
    assert Get(d1, "NAME_LIST") == ListValue(names);
    var d2 := SetList(d1, "ATTR_LIST", attrs);
    assert Get(d2, "ATTR_LIST") == ListValue(attrs);
    assert Get(d2, "NAME_LIST") == Get(d1, "NAME_LIST");
  }

  /** The lists leave every other key alone. */
  lemma ListsFrame(d0: Dict, names: seq<Json>, attrs: seq<Json>, addrs: seq<Json>, k: string)
    requires k != "NAME_LIST" && k != "ATTR_LIST" && k != "ADDR_LIST"
    ensures Get(SetList(SetList(SetList(d0, "NAME_LIST", names), "ATTR_LIST", attrs), "ADDR_LIST", addrs), k) == Get(d0, k)
  {
  }

  lemma ListKeysDiffer()
    ensures "NAME_LIST" != "ATTR_LIST" && "NAME_LIST" != "ADDR_LIST" && "ATTR_LIST" != "ADDR_LIST"
  {
    assert "NAME_LIST"[0] != "ATTR_LIST"[0] && "NAME_LIST"[0] != "ADDR_LIST"[0] && "ATTR_LIST"[1] != "ADDR_LIST"[1];
  }

  /** Everything before the identifier loop. */
  function RecordBeforeIds(e: Entry, recordType: string, publishDate: string, parse: Parser, render: Printer): (d: Dict)
    ensures HeaderKeys <= KeysOf(d)
  {
    WithBody(Header(recordType, e.uid, publishDate), e, AttrList(e, parse, render), true)
  }

  /** The header holds none of the body keys. */
  lemma HeaderHasNoBody(recordType: string, uid: string, publishDate: string)
    ensures var h := Header(recordType, uid, publishDate);
            && !HasKey(h, "SDN_TITLE") && !HasKey(h, "SDN_REMARKS") && !HasKey(h, "SDN_PROGRAM")
            && !HasKey(h, "NAME_LIST") && !HasKey(h, "ATTR_LIST") && !HasKey(h, "ADDR_LIST") && !HasKey(h, "ID_LIST")
  {
    var h := Header(recordType, uid, publishDate);
    forall k | k in BodyKeys
      ensures !HasKey(h, k)
    {
      KeysOfGet(h, k);
    }
    assert BodyKeys[0] == "SDN_TITLE" && BodyKeys[1] == "SDN_REMARKS" && BodyKeys[2] == "SDN_PROGRAM";
    assert BodyKeys[3] == "NAME_LIST" && BodyKeys[4] == "ATTR_LIST" && BodyKeys[5] == "ADDR_LIST" && BodyKeys[6] == "ID_LIST";
  }

  /** The record for one entry and the table after counting its identifiers;
      no record and an untouched table for anything but an entity or an
      individual. */
  function MapEntry(e: Entry, publishDate: string, t: Table, parse: Parser, render: Printer): (r: (Option<Dict>, Table))
    ensures r.0.None? <==> RecordType(e.sdnType).None?
    ensures r.0.None? ==> r.1 == t
    ensures r.0.Some? ==> r.1 == ClassifyIds(IdState([], [], t), e.ids).table
    // every mapping decision survives the entry
    ensures SameMappings(t, r.1)
    // the header fields come first, in their order, whatever is added later
    ensures r.0.Some? ==> HeaderKeys <= KeysOf(r.0.value)
  {
    var rt := RecordType(e.sdnType);
    if rt.None? then (None, t)
    else
      var before := RecordBeforeIds(e, rt.value, publishDate, parse, render);
      IdLoopFacts(before, t, e.ids);
      var st := ClassifyIds(IdState(before, [], t), e.ids);
      var d := SetList(st.record, "ID_LIST", st.idList);
      var d := if rt.value == "VESSEL" then AddVesselFields(d, e.vessel) else d;
      (Some(d), st.table)
  }

  /** The record's body, when no identifier type is named after a body
      key: the entry's present texts, its non-empty NAME_LIST, ATTR_LIST and
      ADDR_LIST, and the ID_LIST the identifier loop builds from the table. */
  lemma MapEntryBody(e: Entry, publishDate: string, t: Table, parse: Parser, render: Printer)
    requires RecordType(e.sdnType).Some?
    requires forall i :: 0 <= i < |e.ids| ==> e.ids[i].idType !in BodyKeys
    ensures var d := MapEntry(e, publishDate, t, parse, render).0.value;
            && Get(d, "SDN_TITLE") == Present(e.title)
            && Get(d, "SDN_REMARKS") == Present(e.remarks)
            && Get(d, "SDN_PROGRAM") == Present(ProgramString(e.programs))
            && Get(d, "NAME_LIST") == ListValue(NameList(e))
            && Get(d, "ATTR_LIST") == ListValue(AttrList(e, parse, render))
            && Get(d, "ADDR_LIST") == ListValue(AddressList(e.addresses, true))
            && Get(d, "ID_LIST") == ListValue(ClassifyIds(IdState([], [], t), e.ids).idList)
  {
    var rt := RecordType(e.sdnType).value;
    MapEntryUnfold(e, publishDate, t, parse, render);
    BeforeIdsGet(e, rt, publishDate, parse, render);
    IdListOnto(RecordBeforeIds(e, rt, publishDate, parse, render), t, e.ids);
  }

  /** The identifier loop and ID_LIST leave the body above them alone and
      add the ID_LIST the loop builds from the table alone. */
  lemma IdListOnto(before: Dict, t: Table, ids: seq<IdItem>)
    requires !HasKey(before, "ID_LIST")
    requires forall i :: 0 <= i < |ids| ==> ids[i].idType !in BodyKeys
    ensures var st := ClassifyIds(IdState(before, [], t), ids);
            var d := SetList(st.record, "ID_LIST", st.idList);
            && Get(d, "SDN_TITLE") == Get(before, "SDN_TITLE")
            && Get(d, "SDN_REMARKS") == Get(before, "SDN_REMARKS")
            && Get(d, "SDN_PROGRAM") == Get(before, "SDN_PROGRAM")
            && Get(d, "NAME_LIST") == Get(before, "NAME_LIST")
            && Get(d, "ATTR_LIST") == Get(before, "ATTR_LIST")
            && Get(d, "ADDR_LIST") == Get(before, "ADDR_LIST")
            && Get(d, "ID_LIST") == ListValue(ClassifyIds(IdState([], [], t), ids).idList)
  {
    BodyKeysDiffer();
    assert BodyKeys[0] == "SDN_TITLE" && BodyKeys[1] == "SDN_REMARKS" && BodyKeys[2] == "SDN_PROGRAM";
    assert BodyKeys[3] == "NAME_LIST" && BodyKeys[4] == "ATTR_LIST" && BodyKeys[5] == "ADDR_LIST" && BodyKeys[6] == "ID_LIST";
    IdsKeepBody(before, t, ids, "SDN_TITLE");
    IdsKeepBody(before, t, ids, "SDN_REMARKS");
    IdsKeepBody(before, t, ids, "SDN_PROGRAM");
    IdsKeepBody(before, t, ids, "NAME_LIST");
    IdsKeepBody(before, t, ids, "ATTR_LIST");
    IdsKeepBody(before, t, ids, "ADDR_LIST");
    IdsKeepBody(before, t, ids, "ID_LIST");
    ClassifyIdsTableOnly(IdState([], [], t), ids, before);
  }

  lemma BeforeIdsGet(e: Entry, recordType: string, publishDate: string, parse: Parser, render: Printer)
    ensures var d := RecordBeforeIds(e, recordType, publishDate, parse, render);
            && Get(d, "SDN_TITLE") == Present(e.title)
            && Get(d, "SDN_REMARKS") == Present(e.remarks)
            && Get(d, "SDN_PROGRAM") == Present(ProgramString(e.programs))
            && Get(d, "NAME_LIST") == ListValue(NameList(e))
            && Get(d, "ATTR_LIST") == ListValue(AttrList(e, parse, render))
            && Get(d, "ADDR_LIST") == ListValue(AddressList(e.addresses, true))
            && Get(d, "ID_LIST").None?
  {
    HeaderHasNoBody(recordType, e.uid, publishDate);
    WithBodyGet(Header(recordType, e.uid, publishDate), e, AttrList(e, parse, render), true);
  }

  /** No body key is touched by the identifier loop. */
  lemma IdsKeepBody(before: Dict, t: Table, ids: seq<IdItem>, key: string)
    requires forall i :: 0 <= i < |ids| ==> ids[i].idType !in BodyKeys
    requires key in BodyKeys
    ensures Get(ClassifyIds(IdState(before, [], t), ids).record, key) == Get(before, key)
  {
    ClassifyIdsOtherKeys(IdState(before, [], t), ids, key);
  }

  /** A header field no identifier type shadows keeps its header value in
      the finished record. */
  lemma HeaderFieldKept(e: Entry, publishDate: string, t: Table, parse: Parser, render: Printer, key: string)
    requires RecordType(e.sdnType).Some?
    requires key in HeaderKeys
    requires forall i :: 0 <= i < |e.ids| ==> e.ids[i].idType != key
    ensures Get(MapEntry(e, publishDate, t, parse, render).0.value, key) ==
              Get(Header(RecordType(e.sdnType).value, e.uid, publishDate), key)
  {
    var h := Header(RecordType(e.sdnType).value, e.uid, publishDate);
    var attrs := AttrList(e, parse, render);
    var st := ClassifyIds(IdState(WithBody(h, e, attrs, true), [], t), e.ids);
    MapEntryUnfold(e, publishDate, t, parse, render);
    HeaderNotBody(key);
    WithBodyFrame(h, e, attrs, true, key);
    ClassifyIdsOtherKeys(IdState(WithBody(h, e, attrs, true), [], t), e.ids, key);
    assert key != "ID_LIST";
    assert Get(SetList(st.record, "ID_LIST", st.idList), key) == Get(st.record, key);
  }

  lemma HeaderNotBody(key: string)
    requires key in HeaderKeys
    ensures key !in BodyKeys
  {
  }

  /** The header's values: the data source, the record type, the entry's
      uid twice and the publish date. */
  lemma HeaderValues(recordType: string, uid: string, publishDate: string)
    ensures var h := Header(recordType, uid, publishDate);
            && Get(h, "DATA_SOURCE") == Some(JStr("OFAC"))
            && Get(h, "RECORD_TYPE") == Some(JStr(recordType))
            && Get(h, "RECORD_ID") == Some(JStr(uid))
            && Get(h, "OFAC_ID") == Some(JStr(uid))
            && Get(h, "PUBLISH_DATE") == Some(JStr(publishDate))
  {
    var h := Header(recordType, uid, publishDate);
    var h1, h2, h3, h4 := h[1..], h[1..][1..], h[1..][1..][1..], h[1..][1..][1..][1..];
    assert h1[0] == Field("RECORD_TYPE", JStr(recordType));
    assert h2[0] == Field("RECORD_ID", JStr(uid));
    assert h3[0] == Field("OFAC_ID", JStr(uid));
    assert h4[0] == Field("PUBLISH_DATE", JStr(publishDate));
    assert Get(h, "RECORD_TYPE") == Get(h1, "RECORD_TYPE");
    assert Get(h, "RECORD_ID") == Get(h1, "RECORD_ID") == Get(h2, "RECORD_ID");
    assert Get(h, "OFAC_ID") == Get(h1, "OFAC_ID") == Get(h2, "OFAC_ID") == Get(h3, "OFAC_ID");
    assert Get(h, "PUBLISH_DATE") == Get(h1, "PUBLISH_DATE") == Get(h2, "PUBLISH_DATE") == Get(h3, "PUBLISH_DATE") == Get(h4, "PUBLISH_DATE");
  }

  /** An entity's or individual's finished record carries its header values,
      RECORD_TYPE included, when no identifier type is named after a header
      field. */
  lemma MapEntryHeader(e: Entry, publishDate: string, t: Table, parse: Parser, render: Printer)
    requires RecordType(e.sdnType).Some?
    requires forall i :: 0 <= i < |e.ids| ==> e.ids[i].idType !in HeaderKeys
    ensures var d := MapEntry(e, publishDate, t, parse, render).0.value;
            && Get(d, "DATA_SOURCE") == Some(JStr("OFAC"))
            && Get(d, "RECORD_TYPE") == Some(JStr(RecordType(e.sdnType).value))
            && Get(d, "RECORD_ID") == Some(JStr(e.uid))
            && Get(d, "OFAC_ID") == Some(JStr(e.uid))
            && Get(d, "PUBLISH_DATE") == Some(JStr(publishDate))
  {
    HeaderValues(RecordType(e.sdnType).value, e.uid, publishDate);
    var keys := HeaderKeys;
    HeaderFieldKept(e, publishDate, t, parse, render, keys[0]);
    HeaderFieldKept(e, publishDate, t, parse, render, keys[1]);
    HeaderFieldKept(e, publishDate, t, parse, render, keys[2]);
    HeaderFieldKept(e, publishDate, t, parse, render, keys[3]);
    HeaderFieldKept(e, publishDate, t, parse, render, keys[4]);
  }

  /** An entity or individual's record is the loop's record plus ID_LIST. */
  lemma MapEntryUnfold(e: Entry, publishDate: string, t: Table, parse: Parser, render: Printer)
    requires RecordType(e.sdnType).Some?
    ensures var st := ClassifyIds(IdState(RecordBeforeIds(e, RecordType(e.sdnType).value, publishDate, parse, render), [], t), e.ids);
            MapEntry(e, publishDate, t, parse, render).0 == Some(SetList(st.record, "ID_LIST", st.idList))
  {
    NeverVessel(e.sdnType);
  }

  /** The identifier loop writes to the record only under identifier types. */
  lemma {:induction false} ClassifyIdsOtherKeys(st: IdState, ids: seq<IdItem>, key: string)
    requires forall i :: 0 <= i < |ids| ==> ids[i].idType != key
    ensures Get(ClassifyIds(st, ids).record, key) == Get(st.record, key)
  {
    if ids != [] {
      ClassifyIdsOtherKeys(st, ids[..|ids| - 1], key);
    }
  }

  /** What MapEntry needs of the identifier loop over an entry. */
  lemma IdLoopFacts(before: Dict, t: Table, ids: seq<IdItem>)
    ensures var st := ClassifyIds(IdState(before, [], t), ids);
            && KeysOf(before) <= KeysOf(st.record)
            && st.table == ClassifyIds(IdState([], [], t), ids).table
            && SameMappings(t, st.table)
  {
    ClassifyIdsKeepsKeys(IdState(before, [], t), ids);
    ClassifyIdsTableOnly(IdState([], [], t), ids, before);
    ClassifyIdsCounts(IdState([], [], t), ids, "");
  }

  /** Unmapped identifiers only overwrite or append fields: no key of the
      record moves. */
  lemma {:induction false} ClassifyIdsKeepsKeys(st: IdState, ids: seq<IdItem>)
    ensures KeysOf(st.record) <= KeysOf(ClassifyIds(st, ids).record)
  {
    if ids != [] {
      ClassifyIdsKeepsKeys(st, ids[..|ids| - 1]);
    }
  }

  /** The table and the ID_LIST the identifier loop produces do not depend
      on the record being built. */
  lemma {:induction false} ClassifyIdsTableOnly(st: IdState, ids: seq<IdItem>, record: Dict)
    ensures ClassifyIds(st.(record := record), ids).table == ClassifyIds(st, ids).table
    ensures ClassifyIds(st.(record := record), ids).idList == ClassifyIds(st, ids).idList
  {
    if ids != [] {
      ClassifyIdsTableOnly(st, ids[..|ids| - 1], record);
    }
  }
}

=== FILE: namespaces.dfy ===
/**
 Both converters strip XML namespace declarations from the document text
 before parsing it (ofac_mapper.py lines 194-197, ofac2json.py lines 77-80):
 while ` xmlns:` occurs past the first character, the text from that
 occurrence up to the next `>` is cut out.
 */
module Namespaces {
  import opened Text

  /** The namespace-declaration marker the loop looks for. */
  const Marker: string := " xmlns:"

  /** Python's `s[k:]` for the result `k` of a `find`: -1 means the last character. */
  function SliceFrom(s: string, k: int): (r: string)
    requires -1 <= k <= |s|
    ensures k >= 0 ==> r == s[k..]
    ensures k == -1 && s != [] ==> r == [s[|s| - 1]]
  {
    if k >= 0 then s[k..]
    else if s == [] then []
    else s[|s| - 1..]
  }

  /** One iteration: `s[0:start] + s[s.find('>', start):]`. */
  function StripStep(s: string, start: nat): (r: string)
    requires OccursAt(s, Marker, start)
    // the declaration is cut up to the first '>' after it, which stays
    ensures forall k :: start <= k < |s| && s[k] == '>' && (forall i :: start <= i < k ==> s[i] != '>') ==>
              r == s[..start] + s[k..]
    // with no '>' after it, only the last character survives
    ensures (forall i :: start <= i < |s| ==> s[i] != '>') ==> r == s[..start] + [s[|s| - 1]]
    // the text before the declaration is kept and the text always shrinks
    ensures start < |r| < |s|
    ensures r[..start] == s[..start]
  {
    CloseFacts(s, start);
    s[..start] + SliceFrom(s, Find(s, ">", start))
  }

  /** What `s.find('>', start)` finds after a declaration: the first '>'
      past the declaration's leading blank, or -1 when there is none. */
  lemma CloseFacts(s: string, start: nat)
    requires OccursAt(s, Marker, start)
    ensures s[start] == ' '
    ensures var k := Find(s, ">", start);
            && (k >= 0 ==> start < k < |s| && s[k] == '>' && forall i :: start <= i < k ==> s[i] != '>')
            && (k == -1 ==> forall i :: start <= i < |s| ==> s[i] != '>')
  {
    assert s[start] == ' ' by {
      assert s[start..start + |Marker|][0] == Marker[0];
    }
    var k := Find(s, ">", start);
    forall i | start <= i < |s| && (k == -1 || i < k)
      ensures s[i] != '>'
    {
      assert !OccursAt(s, ">", i);
      assert s[i..i + 1] == [s[i]];
    }
    if k >= 0 {
      assert s[k..k + 1] == ">";
    }
  }

  /** The loop's exit condition: ` xmlns:` does not occur at all, or occurs
      at index 0, where the loop stops even if later declarations remain. */
  predicate Settled(s: string) {
    OccursAt(s, Marker, 0) || forall i :: 0 <= i <= |s| ==> !OccursAt(s, Marker, i)
  }

  lemma FindMeansSettled(s: string)
    ensures Find(s, Marker, 0) <= 0 <==> Settled(s)
  {
    var f := Find(s, Marker, 0);
    if f > 0 {
      assert OccursAt(s, Marker, f);
    }
  }

  /** The strip loop as a recursive definition: one `StripStep` at the first
      occurrence past index 0, until the text is settled. */
  function StripAll(s: string): (r: string)
    ensures Settled(r)
    ensures Settled(s) ==> r == s
    ensures |r| <= |s|
    decreases |s|
  {
    var start := Find(s, Marker, 0);
    FindMeansSettled(s);
    if start > 0 then StripAll(StripStep(s, start)) else s
  }

  /** The namespace-strip loop. */
  method StripNamespaces(doc: string) returns (r: string)
    // on exit ` xmlns:` does not occur, or occurs at the very start
    ensures Settled(r)
    // a document the loop does not enter is returned unchanged
    ensures Settled(doc) ==> r == doc
    // text is only ever removed
    ensures |r| <= |doc|
    // the loop takes exactly the steps of the recursive definition
    ensures r == StripAll(doc)
  {
    r := doc;
    var start := Find(r, Marker, 0);
    FindMeansSettled(doc);
    while start > 0
      invariant start == Find(r, Marker, 0)
      invariant |r| <= |doc|
      invariant Settled(doc) ==> r == doc
      invariant StripAll(r) == StripAll(doc)
      decreases |r|
    {
      r := StripStep(r, start);
      start := Find(r, Marker, 0);
    }
    FindMeansSettled(r);
  }

  /** A declaration is cut up to its closing bracket, which stays: the
      text before and after it is kept as it is. */
  lemma StripsDeclaration(head: string, decl: string, tail: string)
    requires forall i :: 0 <= i < |decl| ==> decl[i] != '>'
    ensures var s := head + Marker + decl + ">" + tail;
            OccursAt(s, Marker, |head|) && StripStep(s, |head|) == head + ">" + tail
  {
    var s := head + Marker + decl + ">" + tail;
    var start, k := |head|, |head| + |Marker| + |decl|;
    assert s[start..start + |Marker|] == Marker;
    assert s[k] == '>';
    forall i | start <= i < k
      ensures s[i] != '>'
    {
      if i < start + |Marker| {
        assert s[i] == Marker[i - start];
      } else {
        assert s[i] == decl[i - start - |Marker|];
      }
    }
    assert s[..start] == head;
    assert s[k..] == ">" + tail;
  }

  /** A document with a single declaration past its first character loses
      exactly that declaration, up to and not including its `>`. */
  lemma StripsOnlyDeclaration(head: string, decl: string, tail: string)
    requires head != []
    requires forall i :: 0 <= i < |head| ==> !OccursAt(head + Marker, Marker, i)
    requires forall i :: 0 <= i < |decl| ==> decl[i] != '>'
    requires Settled(head + ">" + tail)
    ensures StripAll(head + Marker + decl + ">" + tail) == head + ">" + tail
  {
    var s := head + Marker + decl + ">" + tail;
    NoEarlierMarker(head, decl, tail);
    StripsDeclaration(head, decl, tail);
    FirstOccurrence(s, |head|);
    StripOnce(s, |head|, head + ">" + tail);
  }

  /** A step at the first occurrence that leaves a settled text ends the
      loop. */
  lemma StripOnce(s: string, f: nat, r: string)
    requires f > 0 && Find(s, Marker, 0) == f
    requires StripStep(s, f) == r && Settled(r)
    ensures StripAll(s) == r
  {
  }

  /** Past a head in which no declaration starts, the marker cannot start
      inside the head. */
  lemma NoEarlierMarker(head: string, decl: string, tail: string)
    requires forall i :: 0 <= i < |head| ==> !OccursAt(head + Marker, Marker, i)
    ensures forall i :: 0 <= i < |head| ==> !OccursAt(head + Marker + decl + ">" + tail, Marker, i)
  {
    var hm := head + Marker;
    var rest := decl + ">" + tail;
    assert head + Marker + decl + ">" + tail == hm + rest;
    forall i | 0 <= i < |head|
      ensures !OccursAt(hm + rest, Marker, i)
    {
      assert !OccursAt(hm, Marker, i);
      PrefixWindow(hm, rest, i, |Marker|);
    }
  }

  /** The first occurrence of the marker is the one `find` reports. */
  lemma FirstOccurrence(s: string, f: nat)
    requires OccursAt(s, Marker, f)
    requires forall i :: 0 <= i < f ==> !OccursAt(s, Marker, i)
    ensures Find(s, Marker, 0) == f
  {
    var k := Find(s, Marker, 0);
    assert k != -1 by {
      assert !(0 <= f && (k == -1 || f < k)) || !OccursAt(s, Marker, f);
    }
  }

  /** A window inside the first part of a concatenation is a window of that part. */
  lemma PrefixWindow(a: string, b: string, i: nat, n: nat)
    requires i + n <= |a|
    ensures (a + b)[i..i + n] == a[i..i + n]
  {
  }

  /** Without a closing '>', a cut keeps only the last character, which can
      complete a new marker before the old one: the text in front of the
      first declaration is then not kept. */
  lemma UnclosedDeclaration()
    ensures var doc := "a xmlns xmlns:b:";
            Find(doc, Marker, 0) == 7 && StripAll(doc) == "a:"
  {
    UnclosedFirstFind();
    UnclosedFirstCut();
    UnclosedSecondStep();
    StripOnce("a xmlns:", 1, "a:");
  }

  /** The first marker of the example is at index 7. */
  lemma UnclosedFirstFind()
    ensures Find("a xmlns xmlns:b:", Marker, 0) == 7
  {
    var doc := "a xmlns xmlns:b:";
    forall i | 0 <= i < 7 ensures !OccursAt(doc, Marker, i) {
      assert doc[i + 6] != ':';
      assert i + 7 <= |doc| ==> doc[i..i + 7][6] == doc[i + 6];
    }
    assert doc[7..14] == Marker;
    FirstOccurrence(doc, 7);
  }

  lemma UnclosedFirstCut()
    ensures OccursAt("a xmlns xmlns:b:", Marker, 7) && StripStep("a xmlns xmlns:b:", 7) == "a xmlns:"
  {
    var doc := "a xmlns xmlns:b:";
    assert doc[7..14] == Marker;
    assert forall i :: 7 <= i < |doc| ==> doc[i] != '>';
    var r := StripStep(doc, 7);
    assert r == doc[..7] + [doc[15]];
    assert |r| == 8;
    forall k | 0 <= k < 8 ensures r[k] == "a xmlns:"[k] {
      if k < 7 { assert r[k] == doc[k]; }
    }
  }

  lemma UnclosedSecondStep()
    ensures var s := "a xmlns:";
            Find(s, Marker, 0) == 1 && StripStep(s, 1) == "a:"
  {
    var s := "a xmlns:";
    assert !OccursAt(s, Marker, 0) by { assert s[0] != Marker[0]; }
    assert s[1..8] == Marker;
    FirstOccurrence(s, 1);
    assert forall i :: 1 <= i < |s| ==> s[i] != '>';
    assert StripStep(s, 1) == s[..1] + [s[7]];
  }
}

=== FILE: ofac2json_record.dfy ===
/**
 ofac2json.py's per-entry assembly (lines 117-315). It can include vessels and
 aircraft (`includeAll`) and pairs every date of birth with a YEAR_OF_BIRTH.
 Each place of birth, nationality and citizenship is followed by its ISO code
 when the ISO table knows it. Identifiers go through a fixed chain of rules,
 the first match deciding the attribute. An identifier no rule takes is
 grouped by its type and written to the record with its numbers joined
 by " | ".
 */
module Ofac2Json {
  import opened Wrappers
  import opened Text
  import opened JsonValue
  import opened Dates
  import opened SdnEntry
  import MapperRecord

  // ----- record type -----

  /** ENTITY_TYPE and RECORD_TYPE: entities and individuals always, vessels
      and aircraft only with `includeAll`. */
  function EntityType(sdnType: string, includeAll: bool): (r: Option<string>)
    ensures r.Some? <==> sdnType == "Entity" || sdnType == Individual
                         || (includeAll && (sdnType == "Vessel" || sdnType == "Aircraft"))
    // each selected type gets its own record type
    ensures r == Some("ORGANIZATION") <==> sdnType == "Entity"
    ensures r == Some("PERSON") <==> sdnType == Individual
    ensures r == Some("VESSEL") <==> includeAll && sdnType == "Vessel"
    ensures r == Some("AIRCRAFT") <==> includeAll && sdnType == "Aircraft"
  {
    if sdnType in ["Entity", Individual] || includeAll then
      if sdnType == "Entity" then Some("ORGANIZATION")
      else if sdnType == Individual then Some("PERSON")
      else if sdnType == "Vessel" then Some("VESSEL")
      else if sdnType == "Aircraft" then Some("AIRCRAFT")
      else None
    else None
  }

  /** Without `includeAll` both converters pick the same entries and give
      them the same type. */
  lemma SameTypesAsMapper(sdnType: string)
    ensures EntityType(sdnType, false) == MapperRecord.RecordType(sdnType)
  {
  }

  /** `includeAll` only adds vessels and aircraft; it never changes the type
      of an entry that is converted anyway. */
  lemma IncludeAllOnlyAdds(sdnType: string)
    ensures EntityType(sdnType, false).Some? ==> EntityType(sdnType, true) == EntityType(sdnType, false)
    ensures EntityType(sdnType, true).Some? && EntityType(sdnType, false).None? ==>
              EntityType(sdnType, true).value in ["VESSEL", "AIRCRAFT"]
  {
  }

  // ----- attributes -----

  /** What one date of birth contributes: its DATE_OF_BIRTH and, right after
      it, its YEAR_OF_BIRTH, or nothing when `formatDate` leaves it empty. */
  function DobHead(dob: string, parse: Parser, render: Printer): (r: seq<Json>)
    ensures |r| == 0 || |r| == 2
  {
    var full := FormatDate(dob, IsoDate, parse, render);
    if dob != "" && full != "" then
      [JObj(Single("DATE_OF_BIRTH", full)), JObj(Single("YEAR_OF_BIRTH", FormatDate(dob, YearOnly, parse, render)))]
    else []
  }

  /** The dates of birth, each followed by its year, read by the same
      patterns (lines 190-195). */
  function DobAttrs(dobs: seq<string>, parse: Parser, render: Printer): (r: seq<Json>)
    ensures |r| <= 2 * |dobs|
  {
    if dobs == [] then []
    else DobHead(dobs[0], parse, render) + DobAttrs(dobs[1..], parse, render)
  }

  /** Every second element, starting with the first. */
  function Evens(s: seq<Json>): (r: seq<Json>)
    ensures |r| <= |s|
  {
    if |s| < 2 then s else [s[0]] + Evens(s[2..])
  }

  /** The DATE_OF_BIRTH entries are exactly ofac_mapper.py's, in the same order. */
  lemma {:induction false} DobsAsMapper(dobs: seq<string>, parse: Parser, render: Printer)
    ensures Evens(DobAttrs(dobs, parse, render)) == Tagged("DATE_OF_BIRTH", MapperRecord.FormattedDates(dobs, parse, render))
  {
    if dobs != [] {
      var f := MapperRecord.FormattedDates(dobs, parse, render);
      DobsAsMapper(dobs[1..], parse, render);
      MapperRecord.FormattedDatesCons(dobs, parse, render);
      TaggedCons("DATE_OF_BIRTH", f);
      var rest := DobAttrs(dobs[1..], parse, render);
      var head := DobHead(dobs[0], parse, render);
      assert DobAttrs(dobs, parse, render) == head + rest;
      EvensAfterHead(head, rest);
    }
  }

  /** Every second item of a list that starts with a pair or with nothing. */
  lemma EvensAfterHead(head: seq<Json>, rest: seq<Json>)
    requires |head| == 0 || |head| == 2
    ensures Evens(head + rest) == (if head == [] then [] else [head[0]]) + Evens(rest)
  {
    if head != [] {
      assert (head + rest)[2..] == rest;
    } else {
      assert head + rest == rest;
    }
  }

  /** Positions `i` and `i + 1` of `r` hold the DATE_OF_BIRTH and the
      YEAR_OF_BIRTH of `dob`. */
  predicate PairAt(r: seq<Json>, i: nat, dob: string, parse: Parser, render: Printer) {
    && i + 1 < |r|
    && r[i] == JObj(Single("DATE_OF_BIRTH", FormatDate(dob, IsoDate, parse, render)))
    && r[i + 1] == JObj(Single("YEAR_OF_BIRTH", FormatDate(dob, YearOnly, parse, render)))
  }

  /** A pair stays a pair when something is put in front of it. */
  lemma PairAfter(head: seq<Json>, rest: seq<Json>, i: nat, dob: string, parse: Parser, render: Printer)
    requires PairAt(rest, i, dob, parse, render)
    ensures PairAt(head + rest, |head| + i, dob, parse, render)
  {
    assert (head + rest)[|head| + i] == rest[i];
    assert (head + rest)[|head| + i + 1] == rest[i + 1];
  }

  /** A pair at the front stays a pair when something follows it. */
  lemma PairBefore(head: seq<Json>, rest: seq<Json>, dob: string, parse: Parser, render: Printer)
    requires PairAt(head, 0, dob, parse, render)
    ensures PairAt(head + rest, 0, dob, parse, render)
  {
  }

  /** The index of the date of birth the `k`-th pair of entries comes from. */
  function DobSource(dobs: seq<string>, parse: Parser, render: Printer, k: nat): (j: nat)
    requires 2 * k < |DobAttrs(dobs, parse, render)|
    ensures j < |dobs|
  {
    var head := DobHead(dobs[0], parse, render);
    if head != [] && k == 0 then 0
    else 1 + DobSource(dobs[1..], parse, render, if head == [] then k else k - 1)
  }

  /** Each YEAR_OF_BIRTH sits right after the DATE_OF_BIRTH of the same date:
      the `k`-th pair of entries belongs to one present date of birth. */
  lemma {:induction false} DobPairs(dobs: seq<string>, parse: Parser, render: Printer, k: nat)
    requires 2 * k < |DobAttrs(dobs, parse, render)|
    ensures var j := DobSource(dobs, parse, render, k);
            dobs[j] != "" && PairAt(DobAttrs(dobs, parse, render), 2 * k, dobs[j], parse, render)
  {
    var head := DobHead(dobs[0], parse, render);
    var rest := DobAttrs(dobs[1..], parse, render);
    assert DobAttrs(dobs, parse, render) == head + rest;
    if head != [] && k == 0 {
      assert DobSource(dobs, parse, render, k) == 0;
      HeadIsPair(dobs[0], parse, render);
      PairBefore(head, rest, dobs[0], parse, render);
    } else {
      var k' := if head == [] then k else k - 1;
      assert 2 * k == |head| + 2 * k';
      DobPairs(dobs[1..], parse, render, k');
      var j := DobSource(dobs[1..], parse, render, k');
      assert DobSource(dobs, parse, render, k) == j + 1;
      PairAfter(head, rest, 2 * k', dobs[1..][j], parse, render);
      assert dobs[1..][j] == dobs[j + 1];
    }
  }

  /** A date of birth that contributes anything contributes its own pair. */
  lemma HeadIsPair(dob: string, parse: Parser, render: Printer)
    requires DobHead(dob, parse, render) != []
    ensures dob != "" && PairAt(DobHead(dob, parse, render), 0, dob, parse, render)
  {
  }

  /** The country table: upper-cased country names to ISO codes. */
  type IsoTable = map<string, string>

  /** What one value contributes: `{key: v}` when it is present, followed by
      `{isoKey: code}` when the upper-cased value is in the ISO table. */
  function CountryHead(key: string, isoKey: string, v: string, iso: IsoTable): (r: seq<Json>)
    ensures |r| <= 2
  {
    if v == "" then []
    else [JObj(Single(key, v))] + (if Upper(v) in iso then [JObj(Single(isoKey, iso[Upper(v)]))] else [])
  }

  /** The country attributes of lines 197-216, value by value. */
  function CountryAttrs(key: string, isoKey: string, vals: seq<string>, iso: IsoTable): (r: seq<Json>)
    ensures |r| <= 2 * |vals|
  {
    if vals == [] then []
    else CountryHead(key, isoKey, vals[0], iso) + CountryAttrs(key, isoKey, vals[1..], iso)
  }

  /** The elements that are not a single-field object under `k`. */
  function WithoutKey(s: seq<Json>, k: string): (r: seq<Json>)
    ensures |r| <= |s|
  {
    if s == [] then []
    else
      var rest := WithoutKey(s[1..], k);
      if s[0].JObj? && KeysOf(s[0].fields) == [k] then rest else [s[0]] + rest
  }

  lemma {:induction false} WithoutKeyAppend(a: seq<Json>, b: seq<Json>, k: string)
    ensures WithoutKey(a + b, k) == WithoutKey(a, k) + WithoutKey(b, k)
  {
    if a != [] {
      assert (a + b)[1..] == a[1..] + b;
      WithoutKeyAppend(a[1..], b, k);
    } else {
      assert a + b == b;
    }
  }

  /** Taking the ISO code out of one value's entries leaves its own entry. */
  lemma HeadWithoutIso(key: string, isoKey: string, v: string, iso: IsoTable)
    requires key != isoKey
    ensures WithoutKey(CountryHead(key, isoKey, v, iso), isoKey) == if v == "" then [] else [JObj(Single(key, v))]
  {
    if v != "" {
      var head := JObj(Single(key, v));
      assert KeysOf(head.fields) == [key];
      if Upper(v) in iso {
        var code := JObj(Single(isoKey, iso[Upper(v)]));
        assert ([head] + [code])[1..] == [code];
        assert [code][1..] == [];
      } else {
        assert ([head] + [])[1..] == [];
      }
    }
  }

  /** Taking out the ISO codes leaves exactly ofac_mapper.py's entries. */
  lemma {:induction false} CountriesAsMapper(key: string, isoKey: string, vals: seq<string>, iso: IsoTable)
    requires key != isoKey
    ensures WithoutKey(CountryAttrs(key, isoKey, vals, iso), isoKey) == Tagged(key, vals)
  {
    if vals != [] {
      var head := CountryHead(key, isoKey, vals[0], iso);
      var rest := CountryAttrs(key, isoKey, vals[1..], iso);
      CountriesAsMapper(key, isoKey, vals[1..], iso);
      WithoutKeyAppend(head, rest, isoKey);
      HeadWithoutIso(key, isoKey, vals[0], iso);
      TaggedCons(key, vals);
    }
  }


  /** Every ISO code comes right after the value it was looked up for. */
  lemma {:induction false} IsoCodeFollowsValue(key: string, isoKey: string, vals: seq<string>, iso: IsoTable, i: nat)
    requires key != isoKey
    requires i < |CountryAttrs(key, isoKey, vals, iso)|
    requires CountryAttrs(key, isoKey, vals, iso)[i].JObj? && KeysOf(CountryAttrs(key, isoKey, vals, iso)[i].fields) == [isoKey]
    ensures i > 0
    ensures exists v :: v in vals && IsoPairAt(CountryAttrs(key, isoKey, vals, iso), i, key, isoKey, v, iso)
  {
    var head := CountryHead(key, isoKey, vals[0], iso);
    var rest := CountryAttrs(key, isoKey, vals[1..], iso);
    assert CountryAttrs(key, isoKey, vals, iso) == head + rest;
    HeadIsoPair(key, isoKey, vals[0], iso, rest);
    assert vals[0] in vals;
    if |head| <= i {
      assert (head + rest)[i] == rest[i - |head|];
      IsoCodeFollowsValue(key, isoKey, vals[1..], iso, i - |head|);
      var w :| w in vals[1..] && IsoPairAt(rest, i - |head|, key, isoKey, w, iso);
      IsoPairAfter(head, rest, i - |head|, key, isoKey, w, iso);
      assert w in vals;
    }
  }

  /** Position `i` of `r` holds the ISO code of `v`, and position `i - 1`
      holds `v` itself. */
  predicate IsoPairAt(r: seq<Json>, i: nat, key: string, isoKey: string, v: string, iso: IsoTable) {
    && 0 < i < |r|
    && Upper(v) in iso
    && r[i - 1] == JObj(Single(key, v))
    && r[i] == JObj(Single(isoKey, iso[Upper(v)]))
  }

  /** Inside one value's own items, only the second can carry the ISO key,
      and it is that value's ISO code. */
  lemma HeadIsoPair(key: string, isoKey: string, v: string, iso: IsoTable, rest: seq<Json>)
    requires key != isoKey
    ensures var head := CountryHead(key, isoKey, v, iso);
            && (head != [] ==> KeysOf(head[0].fields) == [key] && (head + rest)[0] == head[0])
            && (|head| == 2 ==> IsoPairAt(head + rest, 1, key, isoKey, v, iso) && (head + rest)[1] == head[1])
  {
  }

  lemma IsoPairAfter(head: seq<Json>, rest: seq<Json>, i: nat, key: string, isoKey: string, v: string, iso: IsoTable)
    requires IsoPairAt(rest, i, key, isoKey, v, iso)
    ensures IsoPairAt(head + rest, |head| + i, key, isoKey, v, iso)
  {
    assert (head + rest)[|head| + i] == rest[i];
    assert (head + rest)[|head| + i - 1] == rest[i - 1];
  }

  /** The country entries of a list are those of its parts, in order, and
      one value contributes exactly its own entries. */
  lemma {:induction false} CountryAttrsAppend(key: string, isoKey: string, xs: seq<string>, ys: seq<string>, iso: IsoTable)
    ensures CountryAttrs(key, isoKey, xs + ys, iso) == CountryAttrs(key, isoKey, xs, iso) + CountryAttrs(key, isoKey, ys, iso)
    ensures forall v :: CountryAttrs(key, isoKey, [v], iso) == CountryHead(key, isoKey, v, iso)
  {
    forall v ensures CountryAttrs(key, isoKey, [v], iso) == CountryHead(key, isoKey, v, iso) {
      assert [v][1..] == [];
    }
    if xs == [] {
      assert xs + ys == ys;
    } else {
      ConsOfAppend(xs, ys);
      CountryAttrsAppend(key, isoKey, xs[1..], ys, iso);
      AppendAssoc(CountryHead(key, isoKey, xs[0], iso), CountryAttrs(key, isoKey, xs[1..], iso), CountryAttrs(key, isoKey, ys, iso));
    }
  }

  /** A non-empty run of country entries opens with a value's own entry. */
  lemma {:induction false} CountryAttrsOpens(key: string, isoKey: string, vals: seq<string>, iso: IsoTable)
    requires CountryAttrs(key, isoKey, vals, iso) != []
    ensures var r := CountryAttrs(key, isoKey, vals, iso);
            r[0].JObj? && KeysOf(r[0].fields) == [key]
    decreases |vals|
  {
    var head := CountryHead(key, isoKey, vals[0], iso);
    var rest := CountryAttrs(key, isoKey, vals[1..], iso);
    if head == [] {
      assert CountryAttrs(key, isoKey, vals, iso) == rest;
      CountryAttrsOpens(key, isoKey, vals[1..], iso);
    } else {
      assert (head + rest)[0] == head[0];
    }
  }

  /** Every present value has its entry at the position after the entries of
      the values before it, and that entry is followed by the value's ISO
      code exactly when the upper-cased value is in the table. */
  lemma ValueThenIsoCode(key: string, isoKey: string, vals: seq<string>, iso: IsoTable, j: nat)
    requires key != isoKey
    requires j < |vals| && vals[j] != ""
    ensures var r := CountryAttrs(key, isoKey, vals, iso);
            var p := |CountryAttrs(key, isoKey, vals[..j], iso)|;
            && p < |r|
            && r[p] == JObj(Single(key, vals[j]))
            && (Upper(vals[j]) in iso <==> p + 1 < |r| && r[p + 1].JObj? && KeysOf(r[p + 1].fields) == [isoKey])
            && (Upper(vals[j]) in iso ==> r[p + 1] == JObj(Single(isoKey, iso[Upper(vals[j])])))
  {
    var v := vals[j];
    var before, after := vals[..j], vals[j + 1..];
    assert vals == before + ([v] + after);
    CountryAttrsAppend(key, isoKey, before, [v] + after, iso);
    CountryAttrsAppend(key, isoKey, [v], after, iso);
    var a := CountryAttrs(key, isoKey, before, iso);
    var h := CountryHead(key, isoKey, v, iso);
    var rest := CountryAttrs(key, isoKey, after, iso);
    var r := a + (h + rest);
    assert CountryAttrs(key, isoKey, vals, iso) == r;
    var p := |a|;
    assert r[p] == h[0] == JObj(Single(key, v));
    if Upper(v) in iso {
      assert r[p + 1] == h[1] == JObj(Single(isoKey, iso[Upper(v)]));
    } else if p + 1 < |r| {
      assert |h| == 1;
      assert r[p + 1] == rest[0];
      CountryAttrsOpens(key, isoKey, after, iso);
    }
  }

  /** ATTR_LIST: dates of birth, places of birth, nationalities and
      citizenships, the last three each with their ISO codes. */
  function AttrList(e: Entry, iso: IsoTable, parse: Parser, render: Printer): seq<Json> {
    DobAttrs(e.datesOfBirth, parse, render)
      + CountryAttrs("PLACE_OF_BIRTH", "POB_COUNTRY", e.placesOfBirth, iso)
      + CountryAttrs("NATIONALITY", "NATIONALITY_COUNTRY", e.nationalities, iso)
      + CountryAttrs("CITIZENSHIP", "CITIZENSHIP_COUNTRY", e.citizenships, iso)
  }

  // ----- identifiers -----

  /** What an identifier must look like for a rule to take it. */
  datatype Condition =
    | TypeContains(word: string)   // the upper-cased idType contains `word`
    | IssuedByCountry              // a person or organization, with an idCountry
    | TypeIs(name: string)         // the idType is exactly `name`

  /** A rule of the identifier chain: the attribute the number goes to, the
      attribute that takes the idCountry ("" for none), and whether "IMO "
      is removed from the number. */
  datatype IdRule = IdRule(when: Condition, attr: string, countryAttr: string, stripImo: bool)

  /** The chain of lines 253-286 as data, in the order the rules are tried. */
  const IdRules: seq<IdRule> := [
    IdRule(TypeContains("SSN"), "SSN_NUMBER", "", false),
    IdRule(TypeContains("DRIVER"), "DRIVERS_LICENSE_NUMBER", "DRIVERS_LICENSE_STATE", false),
    IdRule(TypeContains("PASSPORT"), "PASSPORT_NUMBER", "PASSPORT_COUNTRY", false),
    IdRule(IssuedByCountry, "NATIONAL_ID_NUMBER", "NATIONAL_ID_COUNTRY", false),
    IdRule(TypeIs("Vessel Registration Identification"), "IMO_NUMBER", "", true),
    IdRule(TypeIs("MMSI"), "MMSI_NUMBER_NUMBER", "", true),
    IdRule(TypeIs("Other Vessel Call Sign"), "CALL_SIGN", "", false),
    IdRule(TypeIs("Aircraft Construction Number (also called L/N or S/N or F/N)"), "AIRCRAFT_CONSTRUCTION_NUM", "", false),
    IdRule(TypeIs("Aircraft Manufacturer's Serial Number (MSN)"), "AIRCRAFT_MFG_SERIAL_NUM", "", false),
    IdRule(TypeIs("Aircraft Tail Number"), "AIRCRAFT_TAIL_NUM", "", false)
  ]

  predicate Holds(c: Condition, entityType: string, id: IdItem) {
    match c
    case TypeContains(word) => Contains(Upper(id.idType), word)
    case IssuedByCountry => entityType in ["PERSON", "ORGANIZATION"] && id.idCountry != ""
    case TypeIs(name) => id.idType == name
  }

  const Imo: string := "IMO "

  /** Every "IMO " removed from a number. */
  function StripImo(number: string): string {
    ReplaceAll(number, Imo, "")
  }

  /** A dict holding the number under `attr`, plus the country under
      `countryAttr` when both are present. */
  function WithCountry(attr: string, number: string, countryAttr: string, country: string): (d: Dict)
    ensures KeysOf(d) != [] && KeysOf(d)[0] == attr
    ensures countryAttr != attr ==> Get(d, attr) == Some(JStr(number))
    ensures countryAttr != "" && country != "" ==> Get(d, countryAttr) == Some(JStr(country))
    ensures forall k :: HasKey(d, k) ==> k == attr || (countryAttr != "" && country != "" && k == countryAttr)
  {
    if countryAttr != "" && country != "" then Set(Single(attr, number), countryAttr, JStr(country))
    else Single(attr, number)
  }

  /** The ID_LIST dict a rule makes of an identifier. */
  function RuleDict(rule: IdRule, id: IdItem): Dict {
    WithCountry(rule.attr, if rule.stripImo then StripImo(id.idNumber) else id.idNumber, rule.countryAttr, id.idCountry)
  }

  /** The dict of the first rule that holds, or None when none does. */
  function ByRules(rules: seq<IdRule>, entityType: string, id: IdItem): Option<Dict> {
    if rules == [] then None
    else if Holds(rules[0].when, entityType, id) then Some(RuleDict(rules[0], id))
    else ByRules(rules[1..], entityType, id)
  }

  /** The rule that decides is the first whose condition holds; no rule
      holding means passthrough. */
  lemma {:induction false} FirstRuleDecides(rules: seq<IdRule>, entityType: string, id: IdItem)
    ensures var r := ByRules(rules, entityType, id);
            && (r.None? <==> forall i :: 0 <= i < |rules| ==> !Holds(rules[i].when, entityType, id))
            && (r.Some? ==> exists i :: DecidedBy(rules, i, entityType, id) && r.value == RuleDict(rules[i], id))
  {
    if rules != [] {
      if Holds(rules[0].when, entityType, id) {
        assert DecidedBy(rules, 0, entityType, id);
      } else {
        FirstRuleDecides(rules[1..], entityType, id);
        assert forall i :: 1 <= i < |rules| ==> rules[i] == rules[1..][i - 1];
        var r := ByRules(rules[1..], entityType, id);
        if r.Some? {
          var i :| DecidedBy(rules[1..], i, entityType, id) && r.value == RuleDict(rules[1..][i], id);
          DecidedShift(rules, i, entityType, id);
        }
      }
    }
  }

  /** Rule `i` is the first rule whose condition holds. */
  predicate DecidedBy(rules: seq<IdRule>, i: int, entityType: string, id: IdItem) {
    && 0 <= i < |rules|
    && Holds(rules[i].when, entityType, id)
    && (forall j :: 0 <= j < i ==> !Holds(rules[j].when, entityType, id))
  }

  lemma DecidedShift(rules: seq<IdRule>, i: int, entityType: string, id: IdItem)
    requires rules != [] && !Holds(rules[0].when, entityType, id)
    requires DecidedBy(rules[1..], i, entityType, id)
    ensures DecidedBy(rules, i + 1, entityType, id) && rules[i + 1] == rules[1..][i]
  {
    assert forall j :: 1 <= j <= i + 1 ==> rules[j] == rules[1..][j - 1];
  }

  /** The identifier chain as the converter writes it: the first test that
      passes decides; None sends the identifier to the passthrough fields. */
  function IdChain(entityType: string, id: IdItem): Option<Dict> {
    var t := Upper(id.idType);
    var n := id.idNumber;
    var c := id.idCountry;
    if Contains(t, "SSN") then Some(WithCountry("SSN_NUMBER", n, "", c))
    else if Contains(t, "DRIVER") then Some(WithCountry("DRIVERS_LICENSE_NUMBER", n, "DRIVERS_LICENSE_STATE", c))
    else if Contains(t, "PASSPORT") then Some(WithCountry("PASSPORT_NUMBER", n, "PASSPORT_COUNTRY", c))
    else if entityType in ["PERSON", "ORGANIZATION"] && c != "" then Some(WithCountry("NATIONAL_ID_NUMBER", n, "NATIONAL_ID_COUNTRY", c))
    else VesselOrAircraftId(id)
  }

  /** The tail of the chain: identifier types named exactly (lines 273-286). */
  function VesselOrAircraftId(id: IdItem): Option<Dict> {
    var n := id.idNumber;
    var c := id.idCountry;
    if id.idType == "Vessel Registration Identification" then Some(WithCountry("IMO_NUMBER", StripImo(n), "", c))
    else if id.idType == "MMSI" then Some(WithCountry("MMSI_NUMBER_NUMBER", StripImo(n), "", c))
    else if id.idType == "Other Vessel Call Sign" then Some(WithCountry("CALL_SIGN", n, "", c))
    else if id.idType == "Aircraft Construction Number (also called L/N or S/N or F/N)" then
      Some(WithCountry("AIRCRAFT_CONSTRUCTION_NUM", n, "", c))
    else if id.idType == "Aircraft Manufacturer's Serial Number (MSN)" then
      Some(WithCountry("AIRCRAFT_MFG_SERIAL_NUM", n, "", c))
    else if id.idType == "Aircraft Tail Number" then Some(WithCountry("AIRCRAFT_TAIL_NUM", n, "", c))
    else None
  }

  /** The written chain is the rule table tried in order. */
  lemma ChainIsRules(entityType: string, id: IdItem)
    ensures IdChain(entityType, id) == ByRules(IdRules, entityType, id)
  {
    WordRules();
    NationalStep(entityType, id);
    WordStep(2, "PASSPORT", "PASSPORT_NUMBER", "PASSPORT_COUNTRY", entityType, id);
    WordStep(1, "DRIVER", "DRIVERS_LICENSE_NUMBER", "DRIVERS_LICENSE_STATE", entityType, id);
    WordStep(0, "SSN", "SSN_NUMBER", "", entityType, id);
    assert IdRules[0..] == IdRules;
  }

  /** The first three rules of the table. */
  lemma WordRules()
    ensures |IdRules| == 10
    ensures IdRules[0] == IdRule(TypeContains("SSN"), "SSN_NUMBER", "", false)
    ensures IdRules[1] == IdRule(TypeContains("DRIVER"), "DRIVERS_LICENSE_NUMBER", "DRIVERS_LICENSE_STATE", false)
    ensures IdRules[2] == IdRule(TypeContains("PASSPORT"), "PASSPORT_NUMBER", "PASSPORT_COUNTRY", false)
  {
  }

  /** One of the rules that look for a word in the upper-cased idType. */
  lemma WordStep(k: nat, word: string, attr: string, countryAttr: string, entityType: string, id: IdItem)
    requires k < |IdRules| && IdRules[k] == IdRule(TypeContains(word), attr, countryAttr, false)
    ensures ByRules(IdRules[k..], entityType, id) ==
              if Contains(Upper(id.idType), word) then Some(WithCountry(attr, id.idNumber, countryAttr, id.idCountry))
              else ByRules(IdRules[k + 1..], entityType, id)
  {
    ChainStep(IdRules, k, entityType, id);
  }

  /** The national-id rule, then the vessel and aircraft rules. */
  lemma NationalStep(entityType: string, id: IdItem)
    ensures ByRules(IdRules[3..], entityType, id) ==
              if entityType in ["PERSON", "ORGANIZATION"] && id.idCountry != "" then
                Some(WithCountry("NATIONAL_ID_NUMBER", id.idNumber, "NATIONAL_ID_COUNTRY", id.idCountry))
              else VesselOrAircraftId(id)
  {
    TailIsRules(entityType, id);
    ChainStep(IdRules, 3, entityType, id);
  }

  lemma TailIsRules(entityType: string, id: IdItem)
    ensures VesselOrAircraftId(id) == ByRules(IdRules[4..], entityType, id)
  {
    var rs := IdRules;
    var n, c := id.idNumber, id.idCountry;
    assert rs[10..] == [];
    ChainStep(rs, 9, entityType, id);
    var r9 := if id.idType == "Aircraft Tail Number" then Some(WithCountry("AIRCRAFT_TAIL_NUM", n, "", c)) else None;
    assert ByRules(rs[9..], entityType, id) == r9;
    ChainStep(rs, 8, entityType, id);
    var r8 := if id.idType == "Aircraft Manufacturer's Serial Number (MSN)" then Some(WithCountry("AIRCRAFT_MFG_SERIAL_NUM", n, "", c)) else r9;
    assert ByRules(rs[8..], entityType, id) == r8;
    ChainStep(rs, 7, entityType, id);
    var r7 := if id.idType == "Aircraft Construction Number (also called L/N or S/N or F/N)" then
                Some(WithCountry("AIRCRAFT_CONSTRUCTION_NUM", n, "", c)) else r8;
    assert ByRules(rs[7..], entityType, id) == r7;
    ChainStep(rs, 6, entityType, id);
    var r6 := if id.idType == "Other Vessel Call Sign" then Some(WithCountry("CALL_SIGN", n, "", c)) else r7;
    assert ByRules(rs[6..], entityType, id) == r6;
    StrippingSteps(entityType, id);
  }

  /** The two rules that strip "IMO " from the number. */
  lemma StrippingSteps(entityType: string, id: IdItem)
    ensures ByRules(IdRules[4..], entityType, id) ==
              if id.idType == "Vessel Registration Identification" then Some(WithCountry("IMO_NUMBER", StripImo(id.idNumber), "", id.idCountry))
              else if id.idType == "MMSI" then Some(WithCountry("MMSI_NUMBER_NUMBER", StripImo(id.idNumber), "", id.idCountry))
              else ByRules(IdRules[6..], entityType, id)
  {
    var rs := IdRules;
    ChainStep(rs, 4, entityType, id);
    ChainStep(rs, 5, entityType, id);
    assert RuleDict(rs[4], id) == WithCountry("IMO_NUMBER", StripImo(id.idNumber), "", id.idCountry);
    assert RuleDict(rs[5], id) == WithCountry("MMSI_NUMBER_NUMBER", StripImo(id.idNumber), "", id.idCountry);
  }

  /** Trying the rules from `k` on: the k-th, or the rest. */
  lemma ChainStep(rules: seq<IdRule>, k: nat, entityType: string, id: IdItem)
    requires k < |rules|
    ensures ByRules(rules[k..], entityType, id) ==
              if Holds(rules[k].when, entityType, id) then Some(RuleDict(rules[k], id)) else ByRules(rules[k + 1..], entityType, id)
  {
    assert rules[k..][1..] == rules[k + 1..];
  }

  /** An identifier whose type mentions both SSN and PASSPORT is an SSN. */
  lemma SsnBeforePassport(entityType: string, id: IdItem)
    requires Contains(Upper(id.idType), "SSN")
    ensures IdChain(entityType, id) == Some(Single("SSN_NUMBER", id.idNumber))
  {
  }

  /** A vessel registration number loses its "IMO " prefix: what follows
      the prefix is kept as it is, when it does not itself hold "IMO ". */
  lemma ImoPrefixRemoved(number: string)
    requires forall i :: !OccursAt(number, Imo, i)
    ensures StripImo(Imo + number) == number
  {
    var s := Imo + number;
    assert s[..|Imo|] == Imo && s[|Imo|..] == number;
    ReplaceAbsent(number, Imo, "");
  }

  /** The numbers of one passthrough type, in order: `otherDict[idType]`. */
  datatype Group = Group(idType: string, numbers: seq<string>)

  /** The numbers collected under `key`, if any. */
  function GroupOf(groups: seq<Group>, key: string): Option<seq<string>> {
    if groups == [] then None
    else if groups[0].idType == key then Some(groups[0].numbers)
    else GroupOf(groups[1..], key)
  }

  predicate DistinctGroups(groups: seq<Group>) {
    forall i, j :: 0 <= i < j < |groups| ==> groups[i].idType != groups[j].idType
  }

  /** A number appended to the group of its type, which is opened at the
      end when the type is new. */
  function AddOther(groups: seq<Group>, key: string, number: string): (r: seq<Group>)
    ensures GroupOf(r, key) == Some((if GroupOf(groups, key).Some? then GroupOf(groups, key).value else []) + [number])
    ensures forall k :: k != key ==> GroupOf(r, k) == GroupOf(groups, k)
    ensures DistinctGroups(groups) ==> DistinctGroups(r)
    ensures forall g :: g in r ==> g.idType == key || g in groups
  {
    if groups == [] then
      assert [] + [number] == [number];
      [Group(key, [number])]
    else if groups[0].idType == key then
      var r := [Group(key, groups[0].numbers + [number])] + groups[1..];
      assert forall i :: 1 <= i < |r| ==> r[i] == groups[i];
      r
    else
      var rest := AddOther(groups[1..], key, number);
      var r := [groups[0]] + rest;
      assert r[1..] == rest;
      assert forall g :: g in groups[1..] ==> g in groups;
      r
  }

  /** A new type opens its group at the end, after every group opened
      before it; a known type keeps every group in its place. */
  lemma {:induction false} AddOtherOrder(groups: seq<Group>, key: string, number: string)
    ensures var r := AddOther(groups, key, number);
            && (GroupOf(groups, key).None? ==> r == groups + [Group(key, [number])])
            && (GroupOf(groups, key).Some? ==>
                  |r| == |groups| && forall i :: 0 <= i < |r| ==> r[i].idType == groups[i].idType)
  {
    if groups != [] && groups[0].idType != key {
      AddOtherOrder(groups[1..], key, number);
      var rest := AddOther(groups[1..], key, number);
      assert AddOther(groups, key, number) == [groups[0]] + rest;
      if GroupOf(groups, key).None? {
        ConsOfAppend(groups, [Group(key, [number])]);
      }
    }
  }

  /** What the identifier loop collects: ID_LIST and the passthrough groups. */
  datatype IdAcc = IdAcc(idList: seq<Json>, other: seq<Group>)

  /** The identifier loop of lines 246-295. */
  function CollectIds(entityType: string, ids: seq<IdItem>): (r: IdAcc)
    ensures DistinctGroups(r.other)
  {
    if ids == [] then IdAcc([], [])
    else
      var acc := CollectIds(entityType, ids[..|ids| - 1]);
      var id := ids[|ids| - 1];
      if id.idNumber == "" then acc
      else
        match IdChain(entityType, id)
        case Some(d) => acc.(idList := acc.idList + [JObj(d)])
        case None => acc.(other := AddOther(acc.other, id.idType, id.idNumber))
  }

  /** The numbers, in order, of the identifiers of type `key` that have a
      number and that no rule takes. */
  function Passthrough(entityType: string, ids: seq<IdItem>, key: string): seq<string> {
    if ids == [] then []
    else
      var id := ids[|ids| - 1];
      Passthrough(entityType, ids[..|ids| - 1], key)
        + if id.idNumber != "" && IdChain(entityType, id).None? && id.idType == key then [id.idNumber] else []
  }

  /** The identifiers with a number that some rule takes, in order. */
  function Taken(entityType: string, ids: seq<IdItem>): seq<IdItem> {
    if ids == [] then []
    else
      var id := ids[|ids| - 1];
      Taken(entityType, ids[..|ids| - 1]) + if id.idNumber != "" && IdChain(entityType, id).Some? then [id] else []
  }

  /** Each passthrough group holds exactly the numbers of its type that no
      rule took, in document order; a type with none has no group. */
  lemma {:induction false} PassthroughGroups(entityType: string, ids: seq<IdItem>, key: string)
    ensures var p := Passthrough(entityType, ids, key);
            GroupOf(CollectIds(entityType, ids).other, key) == if p == [] then None else Some(p)
  {
    if ids != [] {
      var init := ids[..|ids| - 1];
      var id := ids[|ids| - 1];
      PassthroughGroups(entityType, init, key);
      var prev := Passthrough(entityType, init, key);
      var acc := CollectIds(entityType, init);
      var through := id.idNumber != "" && IdChain(entityType, id).None?;
      CollectStep(entityType, ids);
      if through && id.idType == key {
        assert Passthrough(entityType, ids, key) == prev + [id.idNumber];
        assert GroupOf(CollectIds(entityType, ids).other, key) == Some((if prev == [] then [] else prev) + [id.idNumber]);
        assert [] + [id.idNumber] == [id.idNumber];
      } else {
        assert Passthrough(entityType, ids, key) == prev + [];
        assert prev + [] == prev;
        assert GroupOf(CollectIds(entityType, ids).other, key) == GroupOf(acc.other, key);
      }
    }
  }

  /** One step of the identifier loop, seen from the passthrough groups. */
  lemma CollectStep(entityType: string, ids: seq<IdItem>)
    requires ids != []
    ensures var id := ids[|ids| - 1];
            var acc := CollectIds(entityType, ids[..|ids| - 1]);
            CollectIds(entityType, ids).other ==
              if id.idNumber != "" && IdChain(entityType, id).None? then AddOther(acc.other, id.idType, id.idNumber) else acc.other
  {
  }

  /** ID_LIST holds one dict per taken identifier, in order, each the dict
      its rule makes. */
  lemma {:induction false} IdListIsTaken(entityType: string, ids: seq<IdItem>)
    ensures var taken := Taken(entityType, ids);
            var list := CollectIds(entityType, ids).idList;
            && |list| == |taken|
            && forall i :: 0 <= i < |list| ==> IdChain(entityType, taken[i]).Some? && list[i] == JObj(IdChain(entityType, taken[i]).value)
  {
    if ids != [] {
      IdListIsTaken(entityType, ids[..|ids| - 1]);
    }
  }

  /** Each passthrough group written to the record under its type, its
      numbers joined by " | ", in the order the groups were opened. */
  function WriteGroups(d: Dict, groups: seq<Group>): (r: Dict)
    ensures KeysOf(d) <= KeysOf(r)
    decreases |groups|
  {
    if groups == [] then d
    else WriteGroups(Set(d, groups[0].idType, JStr(Join(groups[0].numbers, " | "))), groups[1..])
  }

  /** The group types the record does not hold yet, in group order. */
  function NewTypes(d: Dict, groups: seq<Group>): seq<string> {
    if groups == [] then []
    else (if HasKey(d, groups[0].idType) then [] else [groups[0].idType]) + NewTypes(d, groups[1..])
  }

  /** A group whose type the record already holds is written in place; the
      others are appended in the order the groups were opened. */
  lemma {:induction false} WriteGroupsKeys(d: Dict, groups: seq<Group>)
    requires DistinctGroups(groups)
    ensures KeysOf(WriteGroups(d, groups)) == KeysOf(d) + NewTypes(d, groups)
    decreases |groups|
  {
    if groups != [] {
      var k := groups[0].idType;
      var d' := Set(d, k, JStr(Join(groups[0].numbers, " | ")));
      assert DistinctGroups(groups[1..]) by {
        assert forall i :: 0 <= i < |groups[1..]| ==> groups[1..][i] == groups[i + 1];
      }
      WriteGroupsKeys(d', groups[1..]);
      forall i | 0 <= i < |groups[1..]|
        ensures HasKey(d', groups[1..][i].idType) == HasKey(d, groups[1..][i].idType)
      {
        assert groups[1..][i] == groups[i + 1];
      }
      NewTypesFrame(d, d', groups[1..]);
      var head := if HasKey(d, k) then [] else [k];
      assert KeysOf(d') == KeysOf(d) + head;
      AppendAssoc(KeysOf(d), head, NewTypes(d, groups[1..]));
    }
  }

  /** Only whether the record holds each group's type matters. */
  lemma {:induction false} NewTypesFrame(d: Dict, d': Dict, groups: seq<Group>)
    requires forall i :: 0 <= i < |groups| ==> HasKey(d', groups[i].idType) == HasKey(d, groups[i].idType)
    ensures NewTypes(d', groups) == NewTypes(d, groups)
  {
    if groups != [] {
      assert forall i :: 0 <= i < |groups[1..]| ==> groups[1..][i] == groups[i + 1];
      NewTypesFrame(d, d', groups[1..]);
    }
  }

  lemma {:induction false} WriteGroupsGet(d: Dict, groups: seq<Group>, key: string)
    requires DistinctGroups(groups)
    ensures Get(WriteGroups(d, groups), key) ==
              if GroupOf(groups, key).Some? then Some(JStr(Join(GroupOf(groups, key).value, " | "))) else Get(d, key)
    decreases |groups|
  {
    if groups != [] {
      var d' := Set(d, groups[0].idType, JStr(Join(groups[0].numbers, " | ")));
      WriteGroupsGet(d', groups[1..], key);
      if groups[0].idType == key {
        NotInLaterGroups(groups, key);
      }
    }
  }

  lemma {:induction false} NotInLaterGroups(groups: seq<Group>, key: string)
    requires DistinctGroups(groups) && groups != [] && groups[0].idType == key
    ensures GroupOf(groups[1..], key).None?
  {
    GroupAbsent(groups[1..], key);
  }

  lemma {:induction false} GroupAbsent(groups: seq<Group>, key: string)
    requires forall i :: 0 <= i < |groups| ==> groups[i].idType != key
    ensures GroupOf(groups, key).None?
  {
    if groups != [] {
      GroupAbsent(groups[1..], key);
    }
  }

  // ----- the record -----

  const HeaderKeys: seq<string> := ["DATA_SOURCE", "ENTITY_TYPE", "RECORD_TYPE", "RECORD_ID", "OFAC_ID", "PUBLISH_DATE"]

  function Header(entityType: string, uid: string, publishDate: string): (d: Dict)
    ensures KeysOf(d) == HeaderKeys
  {
    var d := [Field("DATA_SOURCE", JStr("OFAC")), Field("ENTITY_TYPE", JStr(entityType)),
              Field("RECORD_TYPE", JStr(entityType)), Field("RECORD_ID", JStr(uid)),
              Field("OFAC_ID", JStr(uid)), Field("PUBLISH_DATE", JStr(publishDate))];
    KeysOfIndex(d);
    d
  }

  /** Everything up to and including ID_LIST: the body shared with the
      mapper, without skipping addresses of unknown country, then the
      ID_LIST the identifier rules build. */
  function RecordWithIds(e: Entry, entityType: string, publishDate: string, iso: IsoTable, parse: Parser, render: Printer): (d: Dict)
    ensures HeaderKeys <= KeysOf(d)
  {
    var body := MapperRecord.WithBody(Header(entityType, e.uid, publishDate), e, AttrList(e, iso, parse, render), false);
    MapperRecord.SetList(body, "ID_LIST", CollectIds(entityType, e.ids).idList)
  }

  /** The record for one entry, or None for an entry that is not converted. */
  function ConvertEntry(e: Entry, publishDate: string, includeAll: bool, iso: IsoTable, parse: Parser, render: Printer): (r: Option<Dict>)
    ensures r.Some? <==> EntityType(e.sdnType, includeAll).Some?
    // the header fields come first, in their order, whatever is added later
    ensures r.Some? ==> HeaderKeys <= KeysOf(r.value)
  {
    var et := EntityType(e.sdnType, includeAll);
    if et.None? then None
    else
      Some(Finish(RecordWithIds(e, et.value, publishDate, iso, parse, render), CollectIds(et.value, e.ids).other,
                  et.value == "VESSEL", e.vessel))
  }

  /** The passthrough fields, then the vessel details of a VESSEL record. */
  function Finish(d: Dict, groups: seq<Group>, isVessel: bool, v: VesselInfo): (r: Dict)
    ensures KeysOf(d) <= KeysOf(r)
  {
    var d' := WriteGroups(d, groups);
    if isVessel then
      SetPresentExtends(d', VesselFields(v));
      AddVesselFields(d', v)
    else d'
  }

  /** What the last steps leave under `key`: the joined passthrough group,
      if there is one and no vessel detail overwrote it. */
  lemma FinishGet(d: Dict, groups: seq<Group>, isVessel: bool, v: VesselInfo, key: string)
    requires DistinctGroups(groups) && key !in VesselKeys
    ensures Get(Finish(d, groups, isVessel, v), key) ==
              if GroupOf(groups, key).Some? then Some(JStr(Join(GroupOf(groups, key).value, " | "))) else Get(d, key)
  {
    WriteGroupsGet(d, groups, key);
    VesselFieldsContents(WriteGroups(d, groups), v);
  }

  /** No identifier of type `key`, no passthrough numbers under it. */
  lemma {:induction false} NoPassthrough(entityType: string, ids: seq<IdItem>, key: string)
    requires forall i :: 0 <= i < |ids| ==> ids[i].idType != key
    ensures Passthrough(entityType, ids, key) == []
  {
    if ids != [] {
      NoPassthrough(entityType, ids[..|ids| - 1], key);
    }
  }

  /** The fields written before the identifiers never touch the header. */
  lemma HeaderBeforeIds(e: Entry, entityType: string, publishDate: string, iso: IsoTable, parse: Parser, render: Printer, key: string)
    requires key in HeaderKeys
    ensures Get(RecordWithIds(e, entityType, publishDate, iso, parse, render), key) == Get(Header(entityType, e.uid, publishDate), key)
  {
    HeaderNotBody(key);
    MapperRecord.WithBodyFrame(Header(entityType, e.uid, publishDate), e, AttrList(e, iso, parse, render), false, key);
  }

  lemma HeaderNotBody(key: string)
    requires key in HeaderKeys
    ensures key !in MapperRecord.BodyKeys
  {
  }

  /** The header holds none of the body keys. */
  lemma HeaderHasNoBody(entityType: string, uid: string, publishDate: string)
    ensures var h := Header(entityType, uid, publishDate);
            && !HasKey(h, "SDN_TITLE") && !HasKey(h, "SDN_REMARKS") && !HasKey(h, "SDN_PROGRAM")
            && !HasKey(h, "NAME_LIST") && !HasKey(h, "ATTR_LIST") && !HasKey(h, "ADDR_LIST") && !HasKey(h, "ID_LIST")
  {
    var h := Header(entityType, uid, publishDate);
    forall k | k in MapperRecord.BodyKeys
      ensures !HasKey(h, k)
    {
      KeysOfGet(h, k);
    }
    assert MapperRecord.BodyKeys[0] == "SDN_TITLE" && MapperRecord.BodyKeys[1] == "SDN_REMARKS" && MapperRecord.BodyKeys[2] == "SDN_PROGRAM";
    assert MapperRecord.BodyKeys[3] == "NAME_LIST" && MapperRecord.BodyKeys[4] == "ATTR_LIST" && MapperRecord.BodyKeys[5] == "ADDR_LIST";
    assert MapperRecord.BodyKeys[6] == "ID_LIST";
  }

  /** Up to ID_LIST, the record holds the entry's present texts and
      non-empty lists, and the ID_LIST the identifier rules build. */
  lemma RecordWithIdsGet(e: Entry, entityType: string, publishDate: string, iso: IsoTable, parse: Parser, render: Printer)
    ensures var d := RecordWithIds(e, entityType, publishDate, iso, parse, render);
            && Get(d, "SDN_TITLE") == MapperRecord.Present(e.title)
            && Get(d, "SDN_REMARKS") == MapperRecord.Present(e.remarks)
            && Get(d, "SDN_PROGRAM") == MapperRecord.Present(ProgramString(e.programs))
            && Get(d, "NAME_LIST") == MapperRecord.ListValue(NameList(e))
            && Get(d, "ATTR_LIST") == MapperRecord.ListValue(AttrList(e, iso, parse, render))
            && Get(d, "ADDR_LIST") == MapperRecord.ListValue(AddressList(e.addresses, false))
            && Get(d, "ID_LIST") == MapperRecord.ListValue(CollectIds(entityType, e.ids).idList)
  {
    var h := Header(entityType, e.uid, publishDate);
    HeaderHasNoBody(entityType, e.uid, publishDate);
    MapperRecord.WithBodyGet(h, e, AttrList(e, iso, parse, render), false);
    IdListLast(MapperRecord.WithBody(h, e, AttrList(e, iso, parse, render), false), CollectIds(entityType, e.ids).idList);
  }

  /** ID_LIST, written last, leaves the body keys before it alone. */
  lemma IdListLast(body: Dict, idList: seq<Json>)
    requires !HasKey(body, "ID_LIST")
    ensures var d := MapperRecord.SetList(body, "ID_LIST", idList);
            && Get(d, "SDN_TITLE") == Get(body, "SDN_TITLE")
            && Get(d, "SDN_REMARKS") == Get(body, "SDN_REMARKS")
            && Get(d, "SDN_PROGRAM") == Get(body, "SDN_PROGRAM")
            && Get(d, "NAME_LIST") == Get(body, "NAME_LIST")
            && Get(d, "ATTR_LIST") == Get(body, "ATTR_LIST")
            && Get(d, "ADDR_LIST") == Get(body, "ADDR_LIST")
            && Get(d, "ID_LIST") == MapperRecord.ListValue(idList)
  {
    MapperRecord.BodyKeysDiffer();
  }

  /** The passthrough groups and vessel details never touch a body key no
      identifier type is named after. */
  lemma FinishKeepsBody(d: Dict, entityType: string, ids: seq<IdItem>, isVessel: bool, v: VesselInfo, key: string)
    requires key in MapperRecord.BodyKeys
    requires forall i :: 0 <= i < |ids| ==> ids[i].idType !in MapperRecord.BodyKeys
    ensures Get(Finish(d, CollectIds(entityType, ids).other, isVessel, v), key) == Get(d, key)
  {
    NoPassthrough(entityType, ids, key);
    PassthroughGroups(entityType, ids, key);
    assert key !in VesselKeys;
    FinishGet(d, CollectIds(entityType, ids).other, isVessel, v, key);
  }

  /** The record's body, when no identifier type is named after a body
      key: the entry's present texts, its non-empty NAME_LIST, ATTR_LIST and
      ADDR_LIST, and the ID_LIST the identifier rules build. */
  lemma ConvertEntryBody(e: Entry, publishDate: string, includeAll: bool, iso: IsoTable, parse: Parser, render: Printer)
    requires EntityType(e.sdnType, includeAll).Some?
    requires forall i :: 0 <= i < |e.ids| ==> e.ids[i].idType !in MapperRecord.BodyKeys
    ensures var d := ConvertEntry(e, publishDate, includeAll, iso, parse, render).value;
            && Get(d, "SDN_TITLE") == MapperRecord.Present(e.title)
            && Get(d, "SDN_REMARKS") == MapperRecord.Present(e.remarks)
            && Get(d, "SDN_PROGRAM") == MapperRecord.Present(ProgramString(e.programs))
            && Get(d, "NAME_LIST") == MapperRecord.ListValue(NameList(e))
            && Get(d, "ATTR_LIST") == MapperRecord.ListValue(AttrList(e, iso, parse, render))
            && Get(d, "ADDR_LIST") == MapperRecord.ListValue(AddressList(e.addresses, false))
            && Get(d, "ID_LIST") == MapperRecord.ListValue(CollectIds(EntityType(e.sdnType, includeAll).value, e.ids).idList)
  {
    var et := EntityType(e.sdnType, includeAll).value;
    var d := RecordWithIds(e, et, publishDate, iso, parse, render);
    assert ConvertEntry(e, publishDate, includeAll, iso, parse, render).value == Finish(d, CollectIds(et, e.ids).other, et == "VESSEL", e.vessel);
    RecordWithIdsGet(e, et, publishDate, iso, parse, render);
    var keys := MapperRecord.BodyKeys;
    FinishKeepsBody(d, et, e.ids, et == "VESSEL", e.vessel, keys[0]);
    FinishKeepsBody(d, et, e.ids, et == "VESSEL", e.vessel, keys[1]);
    FinishKeepsBody(d, et, e.ids, et == "VESSEL", e.vessel, keys[2]);
    FinishKeepsBody(d, et, e.ids, et == "VESSEL", e.vessel, keys[3]);
    FinishKeepsBody(d, et, e.ids, et == "VESSEL", e.vessel, keys[4]);
    FinishKeepsBody(d, et, e.ids, et == "VESSEL", e.vessel, keys[5]);
    FinishKeepsBody(d, et, e.ids, et == "VESSEL", e.vessel, keys[6]);
  }

  /** A header field no identifier type shadows keeps its value. */
  lemma HeaderFieldKept(e: Entry, publishDate: string, includeAll: bool, iso: IsoTable, parse: Parser, render: Printer, key: string)
    requires EntityType(e.sdnType, includeAll).Some?
    requires key in HeaderKeys
    requires forall i :: 0 <= i < |e.ids| ==> e.ids[i].idType != key
    ensures Get(ConvertEntry(e, publishDate, includeAll, iso, parse, render).value, key) ==
              Get(Header(EntityType(e.sdnType, includeAll).value, e.uid, publishDate), key)
  {
    var et := EntityType(e.sdnType, includeAll).value;
    var d := RecordWithIds(e, et, publishDate, iso, parse, render);
    var groups := CollectIds(et, e.ids).other;
    assert ConvertEntry(e, publishDate, includeAll, iso, parse, render).value == Finish(d, groups, et == "VESSEL", e.vessel);
    HeaderBeforeIds(e, et, publishDate, iso, parse, render, key);
    NoPassthrough(et, e.ids, key);
    PassthroughGroups(et, e.ids, key);
    assert GroupOf(groups, key).None?;
    HeaderNotVessel(key);
    FinishGet(d, groups, et == "VESSEL", e.vessel, key);
  }

  lemma HeaderNotVessel(key: string)
    requires key in HeaderKeys
    ensures key !in VesselKeys
  {
  }

  /** Vessel details are written to a VESSEL record and to no other, and
      only when present, when no identifier type is named after one of them. */
  lemma ConvertEntryVessel(e: Entry, publishDate: string, includeAll: bool, iso: IsoTable, parse: Parser, render: Printer)
    requires EntityType(e.sdnType, includeAll).Some?
    requires forall i :: 0 <= i < |e.ids| ==> e.ids[i].idType !in VesselKeys
    ensures var isVessel := EntityType(e.sdnType, includeAll).value == "VESSEL";
            var d := ConvertEntry(e, publishDate, includeAll, iso, parse, render).value;
            var fs := VesselFields(e.vessel);
            forall i :: 0 <= i < |fs| ==>
              Get(d, fs[i].0) == if isVessel && fs[i].1 != "" then Some(JStr(fs[i].1)) else None
  {
    var et := EntityType(e.sdnType, includeAll).value;
    var d := RecordWithIds(e, et, publishDate, iso, parse, render);
    var groups := CollectIds(et, e.ids).other;
    var fs := VesselFields(e.vessel);
    assert ConvertEntry(e, publishDate, includeAll, iso, parse, render).value == Finish(d, groups, et == "VESSEL", e.vessel);
    VesselFieldsContents(WriteGroups(d, groups), e.vessel);
    forall i | 0 <= i < |fs|
      ensures Get(WriteGroups(d, groups), fs[i].0) == None
    {
      var k := fs[i].0;
      assert k in VesselKeys;
      RecordHasNoVessel(e, et, publishDate, iso, parse, render, k);
      GroupsSkipKey(d, et, e.ids, k);
    }
  }

  /** The passthrough groups leave a key alone that no identifier type is
      named after. */
  lemma GroupsSkipKey(d: Dict, entityType: string, ids: seq<IdItem>, key: string)
    requires forall i :: 0 <= i < |ids| ==> ids[i].idType != key
    ensures Get(WriteGroups(d, CollectIds(entityType, ids).other), key) == Get(d, key)
  {
    NoPassthrough(entityType, ids, key);
    PassthroughGroups(entityType, ids, key);
    WriteGroupsGet(d, CollectIds(entityType, ids).other, key);
  }

  /** Up to ID_LIST, the record holds no vessel detail. */
  lemma RecordHasNoVessel(e: Entry, entityType: string, publishDate: string, iso: IsoTable, parse: Parser, render: Printer, key: string)
    requires key in VesselKeys
    ensures Get(RecordWithIds(e, entityType, publishDate, iso, parse, render), key).None?
  {
    var h := Header(entityType, e.uid, publishDate);
    VesselNotRecordKey(key);
    MapperRecord.WithBodyFrame(h, e, AttrList(e, iso, parse, render), false, key);
    KeysOfGet(h, key);
  }

  /** No vessel detail key is a header or body key. */
  lemma VesselNotRecordKey(key: string)
    requires key in VesselKeys
    ensures key !in MapperRecord.BodyKeys && key !in HeaderKeys
  {
  }

  /** The header holds the selected type twice. */
  lemma HeaderTypes(entityType: string, uid: string, publishDate: string)
    ensures Get(Header(entityType, uid, publishDate), "ENTITY_TYPE") == Some(JStr(entityType))
    ensures Get(Header(entityType, uid, publishDate), "RECORD_TYPE") == Some(JStr(entityType))
  {
    var h := Header(entityType, uid, publishDate);
    assert h[1..][1..][0] == Field("RECORD_TYPE", JStr(entityType));
    assert Get(h, "RECORD_TYPE") == Get(h[1..], "RECORD_TYPE") == Get(h[1..][1..], "RECORD_TYPE");
  }

  /** ENTITY_TYPE and RECORD_TYPE both hold the selected type, unless an
      identifier type of the same name overwrote one of them. */
  lemma EntityTypeIsRecordType(e: Entry, publishDate: string, includeAll: bool, iso: IsoTable, parse: Parser, render: Printer)
    requires EntityType(e.sdnType, includeAll).Some?
    requires forall i :: 0 <= i < |e.ids| ==> e.ids[i].idType != "ENTITY_TYPE" && e.ids[i].idType != "RECORD_TYPE"
    ensures var d := ConvertEntry(e, publishDate, includeAll, iso, parse, render).value;
            && Get(d, "ENTITY_TYPE") == Some(JStr(EntityType(e.sdnType, includeAll).value))
            && Get(d, "RECORD_TYPE") == Some(JStr(EntityType(e.sdnType, includeAll).value))
  {
    HeaderFieldKept(e, publishDate, includeAll, iso, parse, render, "ENTITY_TYPE");
    HeaderFieldKept(e, publishDate, includeAll, iso, parse, render, "RECORD_TYPE");
    HeaderTypes(EntityType(e.sdnType, includeAll).value, e.uid, publishDate);
  }

  /** A passthrough type ends up as one field holding its numbers joined by
      " | ", unless a vessel detail of the same name overwrites it. */
  lemma PassthroughField(e: Entry, publishDate: string, includeAll: bool, iso: IsoTable, parse: Parser, render: Printer, key: string)
    requires EntityType(e.sdnType, includeAll).Some?
    requires Passthrough(EntityType(e.sdnType, includeAll).value, e.ids, key) != []
    requires key !in VesselKeys
    ensures Get(ConvertEntry(e, publishDate, includeAll, iso, parse, render).value, key) ==
              Some(JStr(Join(Passthrough(EntityType(e.sdnType, includeAll).value, e.ids, key), " | ")))
  {
    var et := EntityType(e.sdnType, includeAll).value;
    PassthroughGroups(et, e.ids, key);
    FinishGet(RecordWithIds(e, et, publishDate, iso, parse, render), CollectIds(et, e.ids).other, et == "VESSEL", e.vessel, key);
  }
}

=== FILE: sdn_entry.dfy ===
/**
 One `sdnEntry` of the sanctions list as the converters read it, and the parts
 of record assembly both converters share: `getValue`, the program string, the
 name dicts and the dicts and record fields written only when their value is
 present. Every string field of an entry is what `getValue` returns for the
 corresponding element: stripped, and empty when the element is missing.
 */
module SdnEntry {
  import opened Wrappers
  import opened Text
  import opened JsonValue

  /** An XML element as `find` returns it: absent, or present with or without text. */
  datatype Node = Missing | Element(text: Option<string>)

  /** `getValue(segment, tag)` on the node `segment.find(tag)` returned. */
  function GetValue(n: Node): (r: string)
    // a missing element or one without text reads as the empty string
    ensures n.Missing? || n.text.None? ==> r == ""
    // otherwise the text with its surrounding whitespace removed
    ensures n.Element? && n.text.Some? ==> exists i :: CutFrom(n.text.value, r, i)
    ensures r == [] || (!IsSpace(r[0]) && !IsSpace(r[|r| - 1]))
  {
    match n
    case Missing => ""
    case Element(t) => if t.Some? then Strip(t.value) else ""
  }

  datatype Aka = Aka(akaType: string, lastName: string, firstName: string)

  datatype Address = Address(
    address1: string, address2: string, address3: string, city: string,
    stateOrProvince: string, postalCode: string, country: string)

  datatype IdItem = IdItem(idType: string, idNumber: string, idCountry: string)

  datatype VesselInfo = VesselInfo(
    callSign: string, vesselType: string, vesselFlag: string, vesselOwner: string,
    tonnage: string, grossRegisteredTonnage: string)

  /** An `sdnEntry`; `programs` holds the first `program` of each `programList`. */
  datatype Entry = Entry(
    sdnType: string, uid: string, title: string, remarks: string,
    programs: seq<string>,
    lastName: string, firstName: string,
    akas: seq<Aka>,
    datesOfBirth: seq<string>, placesOfBirth: seq<string>,
    nationalities: seq<string>, citizenships: seq<string>,
    addresses: seq<Address>,
    ids: seq<IdItem>,
    vessel: VesselInfo)

  const Individual: string := "Individual"

  // ----- fields written only when their value is present -----

  /** A field to write when its value is present: (key, value). */
  type Pending = (string, string)

  function KeysIn(fields: seq<Pending>): (ks: seq<string>)
    ensures |ks| == |fields|
    ensures forall i :: 0 <= i < |fields| ==> ks[i] == fields[i].0
  {
    seq(|fields|, i requires 0 <= i < |fields| => fields[i].0)
  }

  predicate DistinctKeys(fields: seq<Pending>) {
    forall i, j :: 0 <= i < j < |fields| ==> fields[i].0 != fields[j].0
  }

  /** The keys whose value is present, in order. */
  function PresentKeys(fields: seq<Pending>): (r: seq<string>)
    ensures forall i :: 0 <= i < |fields| && fields[i].1 != "" ==> fields[i].0 in r
    ensures forall k :: k in r ==> k in KeysIn(fields)
    ensures (forall i :: 0 <= i < |fields| ==> fields[i].1 == "") ==> r == []
  {
    if fields == [] then []
    else
      var rest := PresentKeys(fields[1..]);
      assert forall i :: 1 <= i < |fields| ==> fields[i] == fields[1..][i - 1];
      (if fields[0].1 == "" then [] else [fields[0].0]) + rest
  }

  /** Each field written in turn, skipping the empty ones. */
  function SetPresent(d: Dict, fields: seq<Pending>): Dict
    decreases |fields|
  {
    if fields == [] then d
    else
      var (k, v) := fields[0];
      SetPresent(if v == "" then d else Set(d, k, JStr(v)), fields[1..])
  }

  /** A present value is written, an empty one leaves its key as it was, and
      no key outside the fields changes. */
  lemma {:induction false} SetPresentGet(d: Dict, fields: seq<Pending>)
    requires DistinctKeys(fields)
    ensures forall i :: 0 <= i < |fields| ==>
              Get(SetPresent(d, fields), fields[i].0) ==
                if fields[i].1 == "" then Get(d, fields[i].0) else Some(JStr(fields[i].1))
    ensures forall k :: k !in KeysIn(fields) ==> Get(SetPresent(d, fields), k) == Get(d, k)
    decreases |fields|
  {
    if fields != [] {
      var (k, v) := fields[0];
      var d' := if v == "" then d else Set(d, k, JStr(v));
      assert forall i :: 1 <= i < |fields| ==> fields[i] == fields[1..][i - 1];
      assert k !in KeysIn(fields[1..]);
      assert forall k' :: k' !in KeysIn(fields) ==> k' != k && k' !in KeysIn(fields[1..]);
      SetPresentGet(d', fields[1..]);
    }
  }

  /** Keys new to `d` are appended in order. */
  lemma {:induction false} SetPresentKeys(d: Dict, fields: seq<Pending>)
    requires DistinctKeys(fields)
    requires forall i :: 0 <= i < |fields| ==> !HasKey(d, fields[i].0)
    ensures KeysOf(SetPresent(d, fields)) == KeysOf(d) + PresentKeys(fields)
    decreases |fields|
  {
    if fields != [] {
      var (k, v) := fields[0];
      var d' := if v == "" then d else Set(d, k, JStr(v));
      assert forall i :: 1 <= i < |fields| ==> fields[i] == fields[1..][i - 1];
      forall i | 0 <= i < |fields[1..]|
        ensures !HasKey(d', fields[1..][i].0)
      {
        assert fields[1..][i].0 != k;
      }
      SetPresentKeys(d', fields[1..]);
      var head := if v == "" then [] else [k];
      assert KeysOf(d') == KeysOf(d) + head;
      assert PresentKeys(fields) == head + PresentKeys(fields[1..]);
      AppendAssoc(KeysOf(d), head, PresentKeys(fields[1..]));
    }
  }

  /** Writing fields never removes or reorders a key. */
  lemma {:induction false} SetPresentExtends(d: Dict, fields: seq<Pending>)
    ensures KeysOf(d) <= KeysOf(SetPresent(d, fields))
    decreases |fields|
  {
    if fields != [] {
      var (k, v) := fields[0];
      SetPresentExtends(if v == "" then d else Set(d, k, JStr(v)), fields[1..]);
    }
  }

  // ----- programs -----

  /** The loop of ofac2json.py lines 145-151 (ofac_mapper.py 250-256): the
      running string of programs, empty until the first present program. */
  function ProgramString(programs: seq<string>): string {
    if programs == [] then ""
    else
      var acc := ProgramString(programs[..|programs| - 1]);
      var p := programs[|programs| - 1];
      if p == "" then acc
      else if acc == "" then p
      else acc + ", " + p
  }

  lemma JoinNonEmpty(parts: seq<string>, sep: string)
    requires parts != [] && parts[0] != []
    ensures Join(parts, sep) != []
  {
  }

  /** SDN_PROGRAM is the present programs joined by ", ", in document order. */
  lemma {:induction false} ProgramStringIsJoin(programs: seq<string>)
    ensures ProgramString(programs) == Join(NonEmpty(programs), ", ")
  {
    if programs != [] {
      var init, p := programs[..|programs| - 1], programs[|programs| - 1];
      assert programs == init + [p];
      ProgramStringIsJoin(init);
      NonEmptySnoc(init, p);
      assert NonEmpty(programs) == NonEmpty(init) + (if p == "" then [] else [p]);
      if p != "" {
        JoinSnoc(NonEmpty(init), p, ", ");
        if NonEmpty(init) != [] {
          JoinNonEmpty(NonEmpty(init), ", ");
          assert ProgramString(init) != "";
          assert ProgramString(programs) == ProgramString(init) + ", " + p;
        } else {
          assert ProgramString(init) == "";
          assert ProgramString(programs) == p;
        }
      } else {
        assert ProgramString(programs) == ProgramString(init);
        assert NonEmpty(programs) == NonEmpty(init);
      }
    }
  }

  // ----- names -----

  /** A name dict: NAME_TYPE, then NAME_ORG for anything but an individual,
      or the present parts of an individual's name. */
  function NameDict(nameType: string, sdnType: string, last: string, first: string): (d: Dict)
    ensures Get(d, "NAME_TYPE") == Some(JStr(nameType))
    ensures HasKey(d, "NAME_ORG") <==> sdnType != Individual
    ensures sdnType != Individual ==>
              Get(d, "NAME_ORG") == Some(JStr(last)) && !HasKey(d, "NAME_LAST") && !HasKey(d, "NAME_FIRST")
    ensures sdnType == Individual ==>
              && Get(d, "NAME_LAST") == (if last == "" then None else Some(JStr(last)))
              && Get(d, "NAME_FIRST") == (if first == "" then None else Some(JStr(first)))
  {
    var base := Single("NAME_TYPE", nameType);
    if sdnType != Individual then
      assert "NAME_TYPE" != "NAME_LAST" && "NAME_TYPE" != "NAME_FIRST" && "NAME_TYPE" != "NAME_ORG";
      Set(base, "NAME_ORG", JStr(last))
    else
      PersonNameGet(nameType, last, first);
      SetPresent(base, [("NAME_LAST", last), ("NAME_FIRST", first)])
  }

  /** The fields of an individual's name dict. */
  lemma PersonNameGet(nameType: string, last: string, first: string)
    ensures var d := SetPresent(Single("NAME_TYPE", nameType), [("NAME_LAST", last), ("NAME_FIRST", first)]);
            && Get(d, "NAME_TYPE") == Some(JStr(nameType))
            && !HasKey(d, "NAME_ORG")
            && Get(d, "NAME_LAST") == (if last == "" then None else Some(JStr(last)))
            && Get(d, "NAME_FIRST") == (if first == "" then None else Some(JStr(first)))
  {
    var base := Single("NAME_TYPE", nameType);
    var fields := [("NAME_LAST", last), ("NAME_FIRST", first)];
    assert "NAME_TYPE" != "NAME_LAST" && "NAME_TYPE" != "NAME_FIRST";
    assert "NAME_ORG" != "NAME_LAST" && "NAME_ORG" != "NAME_FIRST";
    SetPresentGet(base, fields);
    assert fields[0].0 == "NAME_LAST" && fields[1].0 == "NAME_FIRST";
    assert "NAME_ORG" !in KeysIn(fields) && "NAME_TYPE" !in KeysIn(fields);
  }

  predicate HasName(last: string, first: string) {
    last != "" || first != ""
  }

  /** The PRIMARY name, when the entry has a last or first name. */
  function PrimaryName(e: Entry): Option<Dict> {
    if HasName(e.lastName, e.firstName) then Some(NameDict("PRIMARY", e.sdnType, e.lastName, e.firstName))
    else None
  }

  /** An AKA's NAME_TYPE: its type with the dots removed, upper-cased. */
  function AkaType(a: Aka): string {
    Upper(ReplaceAll(a.akaType, ".", ""))
  }

  /** An AKA's name dict; its kind follows the entry's sdnType, not the AKA's. */
  function AkaName(sdnType: string, a: Aka): Dict {
    NameDict(AkaType(a), sdnType, a.lastName, a.firstName)
  }

  function AkaNames(sdnType: string, akas: seq<Aka>): (r: seq<Dict>)
    ensures |r| <= |akas|
    // one dict for every AKA that has a name, and nothing else, in order
    ensures forall a :: a in akas && HasName(a.lastName, a.firstName) ==> AkaName(sdnType, a) in r
    ensures forall d :: d in r ==> exists a :: a in akas && HasName(a.lastName, a.firstName) && d == AkaName(sdnType, a)
  {
    if akas == [] then []
    else
      var rest := AkaNames(sdnType, akas[1..]);
      var a := akas[0];
      assert forall x :: x in akas <==> x == a || x in akas[1..];
      if HasName(a.lastName, a.firstName) then [AkaName(sdnType, a)] + rest else rest
  }

  /** The AKA loop is a filter: the names of two runs of AKAs are the names
      of the first run followed by those of the second, and a single AKA
      gives its own dict exactly when it has a name. Together these fix the
      list, its order and its repetitions. */
  lemma {:induction false} AkaNamesAppend(sdnType: string, xs: seq<Aka>, ys: seq<Aka>)
    ensures AkaNames(sdnType, xs + ys) == AkaNames(sdnType, xs) + AkaNames(sdnType, ys)
    ensures forall a :: AkaNames(sdnType, [a]) == AkaHead(sdnType, a)
  {
    forall a ensures AkaNames(sdnType, [a]) == AkaHead(sdnType, a) {
      AkaNamesCons(sdnType, [a]);
    }
    if xs == [] {
      assert xs + ys == ys;
    } else {
      ConsOfAppend(xs, ys);
      AkaNamesCons(sdnType, xs);
      AkaNamesCons(sdnType, xs + ys);
      AkaNamesAppend(sdnType, xs[1..], ys);
      AppendAssoc(AkaHead(sdnType, xs[0]), AkaNames(sdnType, xs[1..]), AkaNames(sdnType, ys));
    }
  }

  /** What one AKA adds to NAME_LIST. */
  function AkaHead(sdnType: string, a: Aka): seq<Dict> {
    if HasName(a.lastName, a.firstName) then [AkaName(sdnType, a)] else []
  }

  lemma AkaNamesCons(sdnType: string, akas: seq<Aka>)
    requires akas != []
    ensures AkaNames(sdnType, akas) == AkaHead(sdnType, akas[0]) + AkaNames(sdnType, akas[1..])
  {
    if akas[1..] == [] {
      assert AkaNames(sdnType, akas[1..]) == [];
    }
  }

  /** NAME_LIST: the primary name, if any, then the AKAs. */
  function NameList(e: Entry): (r: seq<Json>)
    ensures |r| <= 1 + |e.akas|
    ensures forall i :: 0 <= i < |r| ==> r[i].JObj?
    // the primary name, when there is one, then the AKA names, all of them, in order
    ensures PrimaryName(e).Some? ==> r != [] && r[0] == JObj(PrimaryName(e).value) && r[1..] == Objects(AkaNames(e.sdnType, e.akas))
    ensures PrimaryName(e).None? ==> r == Objects(AkaNames(e.sdnType, e.akas))
  {
    var primary := if PrimaryName(e).Some? then [JObj(PrimaryName(e).value)] else [];
    var akas := AkaNames(e.sdnType, e.akas);
    ObjectsAfter(primary, akas);
    primary + Objects(akas)
  }

  /** The objects of `ds` placed after a list of objects. */
  lemma ObjectsAfter(front: seq<Json>, ds: seq<Dict>)
    requires forall i :: 0 <= i < |front| ==> front[i].JObj?
    ensures var r := front + Objects(ds);
            && (forall i :: 0 <= i < |r| ==> r[i].JObj?)
            && (front == [] ==> r == Objects(ds))
            && (|front| == 1 ==> r[1..] == Objects(ds))
  {
    if |front| == 1 {
      assert (front + Objects(ds))[1..] == Objects(ds);
    }
  }

  /** Each dict as a JSON object. */
  function Objects(ds: seq<Dict>): (r: seq<Json>)
    ensures |r| == |ds|
    ensures forall i :: 0 <= i < |ds| ==> r[i] == JObj(ds[i])
  {
    seq(|ds|, i requires 0 <= i < |ds| => JObj(ds[i]))
  }

  /** The AKA type "a.k.a." becomes NAME_TYPE "AKA". */
  lemma AkaTypeExample()
    ensures AkaType(Aka("a.k.a.", "", "")) == "AKA"
  {
    ReplaceCharIsWithout("a.k.a.", '.');
    assert Without(".", '.') == "";
    assert Without("a.", '.') == "a";
    assert Without(".a.", '.') == "a";
    assert Without("k.a.", '.') == "ka";
    assert Without(".k.a.", '.') == "ka";
    assert Without("a.k.a.", '.') == "aka";
    assert Upper("aka") == "AKA";
  }

  /** The dots go and the letters are upper-cased: NAME_TYPE never holds a
      '.' or a lower-case ASCII letter. */
  lemma AkaTypeClean(a: Aka)
    ensures forall i :: 0 <= i < |AkaType(a)| ==> AkaType(a)[i] != '.' && !('a' <= AkaType(a)[i] <= 'z')
  {
    ReplaceCharIsWithout(a.akaType, '.');
  }

  /** An entity with only a first name gets a PRIMARY name whose NAME_ORG is
      empty: the last name is copied whether present or not. */
  lemma EmptyOrgName()
    ensures var e := Entry("Entity", "1", "", "", [], "", "Acme", [], [], [], [], [], [], [],
                          VesselInfo("", "", "", "", "", ""));
            PrimaryName(e).Some? && Get(PrimaryName(e).value, "NAME_ORG") == Some(JStr(""))
  {
  }

  // ----- attributes -----

  /** One single-field dict `{key: v}` per present value of `vals`, in order:
      how each attribute loop fills ATTR_LIST. */
  function Tagged(key: string, vals: seq<string>): (r: seq<Json>)
    ensures |r| <= |vals|
    ensures forall i :: 0 <= i < |r| ==>
              r[i].JObj? && KeysOf(r[i].fields) == [key] && exists v :: v in vals && v != "" && r[i] == JObj(Single(key, v))
    ensures forall v :: v in vals && v != "" ==> JObj(Single(key, v)) in r
  {
    if vals == [] then []
    else
      var rest := Tagged(key, vals[1..]);
      assert forall v :: v in vals <==> v == vals[0] || v in vals[1..];
      if vals[0] == "" then rest else [JObj(Single(key, vals[0]))] + rest
  }

  /** Each attribute loop is a filter: two runs of values give the dicts of
      the first run followed by those of the second, and a single value gives
      its dict exactly when it is present. Together these fix the list, its
      order and its repetitions. */
  lemma {:induction false} TaggedAppend(key: string, xs: seq<string>, ys: seq<string>)
    ensures Tagged(key, xs + ys) == Tagged(key, xs) + Tagged(key, ys)
    ensures forall v :: Tagged(key, [v]) == TaggedHead(key, v)
  {
    forall v ensures Tagged(key, [v]) == TaggedHead(key, v) {
      TaggedCons(key, [v]);
    }
    if xs == [] {
      assert xs + ys == ys;
    } else {
      ConsOfAppend(xs, ys);
      TaggedCons(key, xs);
      TaggedCons(key, xs + ys);
      TaggedAppend(key, xs[1..], ys);
      AppendAssoc(TaggedHead(key, xs[0]), Tagged(key, xs[1..]), Tagged(key, ys));
    }
  }

  /** What one value adds to ATTR_LIST. */
  function TaggedHead(key: string, v: string): seq<Json> {
    if v == "" then [] else [JObj(Single(key, v))]
  }

  /** One step of `Tagged`: the first value's dict, if present, then the rest. */
  lemma TaggedCons(key: string, vals: seq<string>)
    requires vals != []
    ensures Tagged(key, vals) == TaggedHead(key, vals[0]) + Tagged(key, vals[1..])
  {
    if vals[1..] == [] {
      assert Tagged(key, vals[1..]) == [];
    }
  }

  // ----- addresses -----

  const AddressKeys: seq<string> :=
    ["ADDR_LINE1", "ADDR_LINE2", "ADDR_LINE3", "ADDR_CITY", "ADDR_STATE", "ADDR_POSTAL_CODE", "ADDR_COUNTRY"]

  /** The placeholder first line ofac_mapper.py drops. */
  const AddressUnknown: string := "Address Unknown"

  /** The value written as ADDR_LINE1; `skipUnknown` drops the placeholder. */
  function Line1(a: Address, skipUnknown: bool): string {
    if skipUnknown && a.address1 == AddressUnknown then "" else a.address1
  }

  /** The address components under their keys, in the order they are written. */
  function AddressFields(a: Address, skipUnknown: bool): (fs: seq<Pending>)
    ensures KeysIn(fs) == AddressKeys
  {
    [("ADDR_LINE1", Line1(a, skipUnknown)), ("ADDR_LINE2", a.address2), ("ADDR_LINE3", a.address3),
     ("ADDR_CITY", a.city), ("ADDR_STATE", a.stateOrProvince), ("ADDR_POSTAL_CODE", a.postalCode),
     ("ADDR_COUNTRY", a.country)]
  }

  lemma AddressKeysDistinct(a: Address, skipUnknown: bool)
    ensures DistinctKeys(AddressFields(a, skipUnknown))
  {
  }

  /** An address dict: only the components that are present, in order. */
  function AddressDict(a: Address, skipUnknown: bool): Dict {
    SetPresent([], AddressFields(a, skipUnknown))
  }

  /** Each component is written under its key exactly when present, no other
      key appears, and the keys come in the order of the address. */
  lemma AddressDictContents(a: Address, skipUnknown: bool)
    ensures var d := AddressDict(a, skipUnknown);
            var fs := AddressFields(a, skipUnknown);
            && (forall i :: 0 <= i < |fs| ==>
                  Get(d, fs[i].0) == if fs[i].1 == "" then None else Some(JStr(fs[i].1)))
            && (forall k :: k !in AddressKeys ==> !HasKey(d, k))
            && KeysOf(d) == PresentKeys(fs)
  {
    AddressKeysDistinct(a, skipUnknown);
    SetPresentGet([], AddressFields(a, skipUnknown));
    SetPresentKeys([], AddressFields(a, skipUnknown));
  }

  /** ofac_mapper.py's placeholder first line is never written as ADDR_LINE1. */
  lemma UnknownLineDropped(a: Address)
    requires a.address1 == AddressUnknown
    ensures !HasKey(AddressDict(a, true), "ADDR_LINE1")
    ensures Get(AddressDict(a, false), "ADDR_LINE1") == Some(JStr(AddressUnknown))
  {
    AddressDictContents(a, true);
    AddressDictContents(a, false);
    assert AddressFields(a, true)[0] == ("ADDR_LINE1", "");
    assert AddressFields(a, false)[0] == ("ADDR_LINE1", AddressUnknown);
  }

  /** The dicts that are not empty, as JSON objects, in order. */
  function NonEmptyDicts(ds: seq<Dict>): (r: seq<Json>)
    ensures |r| <= |ds|
    ensures forall i :: 0 <= i < |r| ==> r[i].JObj? && r[i].fields != [] && r[i].fields in ds
    ensures forall i :: 0 <= i < |ds| && ds[i] != [] ==> JObj(ds[i]) in r
  {
    if ds == [] then []
    else
      var rest := NonEmptyDicts(ds[1..]);
      assert forall i :: 1 <= i < |ds| ==> ds[i] == ds[1..][i - 1];
      if ds[0] == [] then rest else [JObj(ds[0])] + rest
  }

  /** The dicts of the addresses, one per address. */
  function AddressDicts(addrs: seq<Address>, skipUnknown: bool): (ds: seq<Dict>)
    ensures |ds| == |addrs|
    ensures forall i :: 0 <= i < |addrs| ==> ds[i] == AddressDict(addrs[i], skipUnknown)
  {
    seq(|addrs|, i requires 0 <= i < |addrs| => AddressDict(addrs[i], skipUnknown))
  }

  /** ADDR_LIST: the addresses whose dict is not empty, in order. */
  function AddressList(addrs: seq<Address>, skipUnknown: bool): (r: seq<Json>)
    ensures |r| <= |addrs|
    // every listed dict is the non-empty dict of one of the addresses
    ensures forall i :: 0 <= i < |r| ==>
              r[i].JObj? && r[i].fields != [] && exists j :: 0 <= j < |addrs| && r[i].fields == AddressDict(addrs[j], skipUnknown)
    ensures forall i :: 0 <= i < |addrs| && AddressDict(addrs[i], skipUnknown) != [] ==>
              JObj(AddressDict(addrs[i], skipUnknown)) in r
  {
    var ds := AddressDicts(addrs, skipUnknown);
    var r := NonEmptyDicts(ds);
    assert forall i :: 0 <= i < |r| ==> r[i].fields in ds;
    r
  }

  /** The dict filter keeps order: two runs of dicts give the non-empty ones
      of the first run followed by those of the second. */
  lemma {:induction false} NonEmptyDictsAppend(xs: seq<Dict>, ys: seq<Dict>)
    ensures NonEmptyDicts(xs + ys) == NonEmptyDicts(xs) + NonEmptyDicts(ys)
  {
    if xs == [] {
      assert xs + ys == ys;
    } else {
      ConsOfAppend(xs, ys);
      NonEmptyDictsCons(xs);
      NonEmptyDictsCons(xs + ys);
      NonEmptyDictsAppend(xs[1..], ys);
      AppendAssoc(DictHead(xs[0]), NonEmptyDicts(xs[1..]), NonEmptyDicts(ys));
    }
  }

  /** What one dict adds to a list of non-empty dicts. */
  function DictHead(d: Dict): seq<Json> {
    if d == [] then [] else [JObj(d)]
  }

  lemma NonEmptyDictsCons(ds: seq<Dict>)
    requires ds != []
    ensures NonEmptyDicts(ds) == DictHead(ds[0]) + NonEmptyDicts(ds[1..])
  {
    if ds[1..] == [] {
      assert NonEmptyDicts(ds[1..]) == [];
    }
  }

  /** The address loop is a filter: two runs of addresses give the dicts of
      the first run followed by those of the second, and a single address
      gives its dict exactly when that dict is not empty. Together these fix
      the list, its order and its repetitions. */
  lemma AddressListAppend(xs: seq<Address>, ys: seq<Address>, skipUnknown: bool)
    ensures AddressList(xs + ys, skipUnknown) == AddressList(xs, skipUnknown) + AddressList(ys, skipUnknown)
    ensures forall a :: AddressList([a], skipUnknown) == DictHead(AddressDict(a, skipUnknown))
  {
    forall a ensures AddressList([a], skipUnknown) == DictHead(AddressDict(a, skipUnknown)) {
      AddressDictsOne(a, skipUnknown);
      NonEmptyDictsCons([AddressDict(a, skipUnknown)]);
    }
    AddressDictsAppend(xs, ys, skipUnknown);
    NonEmptyDictsAppend(AddressDicts(xs, skipUnknown), AddressDicts(ys, skipUnknown));
  }

  lemma AddressDictsAppend(xs: seq<Address>, ys: seq<Address>, skipUnknown: bool)
    ensures AddressDicts(xs + ys, skipUnknown) == AddressDicts(xs, skipUnknown) + AddressDicts(ys, skipUnknown)
  {
  }

  lemma AddressDictsOne(a: Address, skipUnknown: bool)
    ensures AddressDicts([a], skipUnknown) == [AddressDict(a, skipUnknown)]
  {
  }

  /** An address whose every component is empty adds nothing. */
  lemma BlankAddressDropped(a: Address, skipUnknown: bool)
    requires forall i :: 0 <= i < |AddressFields(a, skipUnknown)| ==> AddressFields(a, skipUnknown)[i].1 == ""
    ensures AddressDict(a, skipUnknown) == []
  {
    AddressDictContents(a, skipUnknown);
    assert |KeysOf(AddressDict(a, skipUnknown))| == 0;
  }

  // ----- vessel details -----

  const VesselKeys: seq<string> :=
    ["CALL_SIGN", "vesselType", "vesselFlag", "vesselOwner", "tonnage", "grossRegisteredTonnage"]

  function VesselFields(v: VesselInfo): (fs: seq<Pending>)
    ensures KeysIn(fs) == VesselKeys
  {
    [("CALL_SIGN", v.callSign), ("vesselType", v.vesselType), ("vesselFlag", v.vesselFlag),
     ("vesselOwner", v.vesselOwner), ("tonnage", v.tonnage),
     ("grossRegisteredTonnage", v.grossRegisteredTonnage)]
  }

  lemma VesselKeysDistinct(v: VesselInfo)
    ensures DistinctKeys(VesselFields(v))
  {
  }

  /** The vessel details a VESSEL record carries, each only when present. */
  function AddVesselFields(record: Dict, v: VesselInfo): Dict {
    SetPresent(record, VesselFields(v))
  }

  /** Each present vessel detail is written, overwriting what the record held
      under that key; nothing else in the record changes. */
  lemma VesselFieldsContents(record: Dict, v: VesselInfo)
    ensures var r := AddVesselFields(record, v);
            var fs := VesselFields(v);
            && (forall i :: 0 <= i < |fs| ==>
                  Get(r, fs[i].0) == if fs[i].1 == "" then Get(record, fs[i].0) else Some(JStr(fs[i].1)))
            && (forall k :: k !in VesselKeys ==> Get(r, k) == Get(record, k))
  {
    VesselKeysDistinct(v);
    SetPresentGet(record, VesselFields(v));
  }
}

=== FILE: stat_pack.dfy ===
/**
 The mapping statistics `updateStat` keeps for the optional log file: for each
 pair of categories a counter and up to five distinct example values. Once
 five examples are held, a new one overwrites a randomly chosen position
 among the last three; the random choice is a parameter here.
 */
module StatPack {
  import opened Wrappers

  /** At most this many examples are kept per statistic. */
  const MaxStatExamples: nat := 5

  /** A count, with an examples list that
      exists only once a non-empty example has been offered. */
  datatype Stat = Stat(count: nat, examples: Option<seq<string>>)

  type Pack = map<string, map<string, Stat>>

  function StatOf(p: Pack, cat1: string, cat2: string): Option<Stat> {
    if cat1 in p && cat2 in p[cat1] then Some(p[cat1][cat2]) else None
  }

  /** The examples held, an absent list read as empty. */
  function ExamplesOf(s: Option<Stat>): seq<string> {
    if s.Some? && s.value.examples.Some? then s.value.examples.value else []
  }

  /** A valid random index `random.randint(2, 4)` may return. */
  predicate IsSlot(slot: int) {
    2 <= slot <= 4
  }

  /** The examples after offering `example` (lines 57-65). */
  function OfferExample(ex: seq<string>, example: string, slot: int): (r: seq<string>)
    requires IsSlot(slot)
    ensures example in r
    // every held example keeps its position, except the one at `slot` when full
    ensures |ex| <= |r| <= |ex| + 1
    ensures forall i :: 0 <= i < |ex| && i != slot ==> r[i] == ex[i]
    // a value already held changes nothing; room left means appending
    ensures example in ex ==> r == ex
    ensures example !in ex && |ex| < MaxStatExamples ==> r == ex + [example]
  {
    if example in ex then ex
    else if |ex| < MaxStatExamples then ex + [example]
    else
      var r := ex[slot := example];
      assert r[slot] == example;
      r
  }

  /** `updateStat(cat1, cat2, example)` with `random.randint(2, 4)` returning
      `slot`; the empty string stands for a missing or empty example. */
  function UpdateStat(p: Pack, cat1: string, cat2: string, example: string, slot: int): (r: Pack)
    requires IsSlot(slot)
    // the first call leaves the count at 2, every later call adds one
    ensures StatOf(r, cat1, cat2).Some?
    ensures StatOf(p, cat1, cat2).None? ==> StatOf(r, cat1, cat2).value.count == 2
    ensures StatOf(p, cat1, cat2).Some? ==>
              StatOf(r, cat1, cat2).value.count == StatOf(p, cat1, cat2).value.count + 1
    // an empty example leaves the examples, list or no list, as they were
    ensures example == "" ==>
              StatOf(r, cat1, cat2).value.examples ==
                (if StatOf(p, cat1, cat2).Some? then StatOf(p, cat1, cat2).value.examples else None)
    ensures example != "" ==>
              && StatOf(r, cat1, cat2).value.examples.Some?
              && ExamplesOf(StatOf(r, cat1, cat2)) == OfferExample(ExamplesOf(StatOf(p, cat1, cat2)), example, slot)
    // no other statistic changes
    ensures forall c1, c2 :: (c1, c2) != (cat1, cat2) ==> StatOf(r, c1, c2) == StatOf(p, c1, c2)
  {
    var inner := if cat1 in p then p[cat1] else map[];
    var s := if cat2 in inner then inner[cat2] else Stat(1, None);
    var examples :=
      if example == "" then s.examples
      else Some(OfferExample(if s.examples.Some? then s.examples.value else [], example, slot));
    var pack: Pack := p[cat1 := inner[cat2 := Stat(s.count + 1, examples)]];
    pack
  }

  predicate Distinct(ex: seq<string>) {
    forall i, j :: 0 <= i < j < |ex| ==> ex[i] != ex[j]
  }

  /** Every example list holds at most five distinct values. */
  ghost predicate WellFormedPack(p: Pack) {
    forall c1, c2 :: StatOf(p, c1, c2).Some? ==>
      |ExamplesOf(StatOf(p, c1, c2))| <= MaxStatExamples && Distinct(ExamplesOf(StatOf(p, c1, c2)))
  }

  /** Offering an example keeps a list short and free of duplicates. */
  lemma OfferKeepsDistinct(ex: seq<string>, example: string, slot: int)
    requires IsSlot(slot)
    requires |ex| <= MaxStatExamples && Distinct(ex)
    ensures |OfferExample(ex, example, slot)| <= MaxStatExamples
    ensures Distinct(OfferExample(ex, example, slot))
  {
    var r := OfferExample(ex, example, slot);
    if example !in ex {
      forall i, j | 0 <= i < j < |r|
        ensures r[i] != r[j]
      {
        if |ex| < MaxStatExamples {
          if j == |ex| {
            assert r[i] == ex[i];
          }
        } else {
          if i == slot {
            assert r[j] == ex[j];
          } else if j == slot {
            assert r[i] == ex[i];
          } else {
            assert r[i] == ex[i] && r[j] == ex[j];
          }
        }
      }
    }
  }

  lemma UpdateStatWellFormed(p: Pack, cat1: string, cat2: string, example: string, slot: int)
    requires IsSlot(slot)
    requires WellFormedPack(p)
    ensures WellFormedPack(UpdateStat(p, cat1, cat2, example, slot))
  {
    var r := UpdateStat(p, cat1, cat2, example, slot);
    assert |ExamplesOf(StatOf(p, cat1, cat2))| <= MaxStatExamples;
    if example != "" {
      OfferKeepsDistinct(ExamplesOf(StatOf(p, cat1, cat2)), example, slot);
    }
    forall c1, c2 | StatOf(r, c1, c2).Some?
      ensures |ExamplesOf(StatOf(r, c1, c2))| <= MaxStatExamples && Distinct(ExamplesOf(StatOf(r, c1, c2)))
    {
      if (c1, c2) != (cat1, cat2) {
        assert StatOf(r, c1, c2) == StatOf(p, c1, c2);
      }
    }
  }

  /** The first two examples ever kept for a statistic stay forever. */
  lemma FirstTwoStay(p: Pack, cat1: string, cat2: string, example: string, slot: int)
    requires IsSlot(slot)
    requires |ExamplesOf(StatOf(p, cat1, cat2))| >= 2
    ensures ExamplesOf(StatOf(UpdateStat(p, cat1, cat2, example, slot), cat1, cat2))[..2]
              == ExamplesOf(StatOf(p, cat1, cat2))[..2]
  {
    var before := ExamplesOf(StatOf(p, cat1, cat2));
    var after := ExamplesOf(StatOf(UpdateStat(p, cat1, cat2, example, slot), cat1, cat2));
    assert after[0] == before[0] && after[1] == before[1];
  }

  /** One call of `updateStat` as made during a run. */
  datatype StatCall = StatCall(cat1: string, cat2: string, example: string, slot: int)

  predicate ValidCalls(calls: seq<StatCall>) {
    forall i :: 0 <= i < |calls| ==> IsSlot(calls[i].slot)
  }

  function ApplyCalls(p: Pack, calls: seq<StatCall>): Pack
    requires ValidCalls(calls)
  {
    if calls == [] then p
    else
      var c := calls[|calls| - 1];
      UpdateStat(ApplyCalls(p, calls[..|calls| - 1]), c.cat1, c.cat2, c.example, c.slot)
  }

  /** How many of `calls` are about the pair (cat1, cat2). */
  function CallsFor(calls: seq<StatCall>, cat1: string, cat2: string): nat {
    if calls == [] then 0
    else
      var c := calls[|calls| - 1];
      CallsFor(calls[..|calls| - 1], cat1, cat2) + if c.cat1 == cat1 && c.cat2 == cat2 then 1 else 0
  }

  /** Starting from an empty log, a statistic touched `n > 0` times reports
      `n + 1`, one more than the number of calls, and an untouched one is absent. */
  lemma {:induction false} CountAfterCalls(calls: seq<StatCall>, cat1: string, cat2: string)
    requires ValidCalls(calls)
    ensures var s := StatOf(ApplyCalls(map[], calls), cat1, cat2);
            var n := CallsFor(calls, cat1, cat2);
            && (n == 0 <==> s.None?)
            && (n > 0 ==> s.value.count == n + 1)
  {
    if calls != [] {
      CountAfterCalls(calls[..|calls| - 1], cat1, cat2);
    }
  }

  /** After any run of calls from an empty log, every example list holds at
      most five distinct values. */
  lemma {:induction false} CallsWellFormed(calls: seq<StatCall>)
    requires ValidCalls(calls)
    ensures WellFormedPack(ApplyCalls(map[], calls))
  {
    if calls != [] {
      var c := calls[|calls| - 1];
      CallsWellFormed(calls[..|calls| - 1]);
      UpdateStatWellFormed(ApplyCalls(map[], calls[..|calls| - 1]), c.cat1, c.cat2, c.example, c.slot);
    }
  }
}

=== FILE: text.dfy ===
/**
 String operations the converters borrow from Python's `str`: `upper`, `strip`,
 `find`, `in`, `replace`, `join`, `str(int)` and the ordering `sorted` uses.
 Characters are treated as ASCII: only `a`..`z` change case and only the ASCII
 characters Python calls whitespace are stripped.
 */
module Text {

  /** Python's `str.isspace` on ASCII: tab, line feed, vertical tab, form feed,
      carriage return, the four information separators and space. */
  predicate IsSpace(c: char) {
    (9 <= c as int <= 13) || (28 <= c as int <= 32)
  }

  predicate AllSpace(s: string) {
    forall i :: 0 <= i < |s| ==> IsSpace(s[i])
  }

  function UpperChar(c: char): char {
    if 'a' <= c <= 'z' then (c as int - 32) as char else c
  }

  /** `s.upper()` */
  function Upper(s: string): (r: string)
    ensures |r| == |s|
    ensures forall i :: 0 <= i < |s| ==> r[i] == UpperChar(s[i])
  {
    if s == [] then [] else [UpperChar(s[0])] + Upper(s[1..])
  }

  /** Where `s.lstrip()` starts: the number of whitespace characters `s` begins with. */
  function LeadingSpace(s: string): (k: nat)
    ensures k <= |s|
    ensures forall i :: 0 <= i < k ==> IsSpace(s[i])
    ensures k == |s| || !IsSpace(s[k])
  {
    if s != [] && IsSpace(s[0]) then 1 + LeadingSpace(s[1..]) else 0
  }

  /** Where `s.rstrip()` ends: only whitespace follows index `k`. */
  function TrailingSpace(s: string): (k: nat)
    ensures k <= |s|
    ensures forall i :: k <= i < |s| ==> IsSpace(s[i])
    ensures k == 0 || !IsSpace(s[k - 1])
  {
    if s != [] && IsSpace(s[|s| - 1]) then TrailingSpace(s[..|s| - 1]) else |s|
  }

  /** `r` is `s` with its first `i` characters and everything after `i + |r|`
      cut away, and only whitespace was cut. */
  predicate CutFrom(s: string, r: string, i: int) {
    && 0 <= i <= |s| - |r|
    && r == s[i..i + |r|]
    && AllSpace(s[..i])
    && AllSpace(s[i + |r|..])
  }

  /** `s.strip()`: what remains is a slice of `s` with only whitespace cut
      away on either side, and it neither starts nor ends with whitespace. */
  function Strip(s: string): (r: string)
    ensures exists i :: CutFrom(s, r, i)
    ensures r == [] || (!IsSpace(r[0]) && !IsSpace(r[|r| - 1]))
  {
    var a := LeadingSpace(s);
    var b := TrailingSpace(s);
    if b <= a then
      assert a == |s|;
      assert CutFrom(s, [], a);
      []
    else
      assert CutFrom(s, s[a..b], a);
      s[a..b]
  }

  /** `pat` occurs in `s` starting at index `i`. */
  predicate OccursAt(s: string, pat: string, i: int) {
    0 <= i && i + |pat| <= |s| && s[i..i + |pat|] == pat
  }

  /** `s.find(pat, from)`: the first index at or after `from` where `pat`
      occurs, or -1 when there is none. */
  function Find(s: string, pat: string, from: nat): (r: int)
    ensures r == -1 || (from <= r && OccursAt(s, pat, r))
    ensures forall i :: from <= i && (r == -1 || i < r) ==> !OccursAt(s, pat, i)
    decreases |s| - from
  {
    if from + |pat| > |s| then -1
    else if s[from..from + |pat|] == pat then from
    else Find(s, pat, from + 1)
  }

  /** `pat in s` */
  predicate Contains(s: string, pat: string) {
    Find(s, pat, 0) >= 0
  }

  lemma ContainsMeansOccurs(s: string, pat: string)
    ensures Contains(s, pat) <==> exists i :: OccursAt(s, pat, i)
  {
    if exists i :: OccursAt(s, pat, i) {
      var i :| OccursAt(s, pat, i);
      assert Find(s, pat, 0) != -1;
    }
  }

  lemma OccursInTail(s: string, pat: string, i: int)
    requires s != [] && OccursAt(s[1..], pat, i)
    ensures OccursAt(s, pat, i + 1)
  {
    assert s[1..][i..i + |pat|] == s[i + 1..i + 1 + |pat|];
  }

  lemma OccursInSuffix(s: string, k: nat, pat: string, i: int)
    requires k <= |s| && OccursAt(s[k..], pat, i)
    ensures OccursAt(s, pat, i + k)
  {
    assert s[k..][i..i + |pat|] == s[i + k..i + k + |pat|];
  }

  /** `s.replace(target, repl)`: every non-overlapping occurrence of `target`, found
      from left to right, is replaced by `repl`. */
  function ReplaceAll(s: string, target: string, repl: string): (r: string)
    requires target != []
    decreases |s|
  {
    if |s| < |target| then s
    else if s[..|target|] == target then repl + ReplaceAll(s[|target|..], target, repl)
    else [s[0]] + ReplaceAll(s[1..], target, repl)
  }

  /** Replacing a string that does not occur changes nothing. */
  lemma {:induction false} ReplaceAbsent(s: string, target: string, repl: string)
    requires target != []
    requires forall i :: !OccursAt(s, target, i)
    ensures ReplaceAll(s, target, repl) == s
    decreases |s|
  {
    if |s| < |target| {
    } else {
      assert !OccursAt(s, target, 0);
      assert s[..|target|] != target;
      forall i
        ensures !OccursAt(s[1..], target, i)
      {
        if OccursAt(s[1..], target, i) {
          OccursInTail(s, target, i);
        }
      }
      ReplaceAbsent(s[1..], target, repl);
      assert s == [s[0]] + s[1..];
    }
  }

  /** A replacement strictly longer than what it replaces lengthens every
      string that contains an occurrence, and one strictly shorter shortens it. */
  lemma {:induction false} ReplaceLength(s: string, target: string, repl: string)
    requires target != []
    ensures |repl| >= |target| ==> |ReplaceAll(s, target, repl)| >= |s|
    ensures |repl| <= |target| ==> |ReplaceAll(s, target, repl)| <= |s|
    ensures (exists i :: OccursAt(s, target, i)) && |repl| > |target| ==> |ReplaceAll(s, target, repl)| > |s|
    ensures (exists i :: OccursAt(s, target, i)) && |repl| < |target| ==> |ReplaceAll(s, target, repl)| < |s|
    decreases |s|
  {
    if |s| < |target| {
      assert forall i :: !OccursAt(s, target, i);
    } else if s[..|target|] == target {
      ReplaceLength(s[|target|..], target, repl);
    } else {
      ReplaceLength(s[1..], target, repl);
      if exists i :: OccursAt(s, target, i) {
        var i :| OccursAt(s, target, i);
        assert i != 0;
        assert s[1..][i - 1..i - 1 + |target|] == s[i..i + |target|];
        assert OccursAt(s[1..], target, i - 1);
      }
    }
  }

  /** `s` with every occurrence of the character `c` dropped. */
  function Without(s: string, c: char): (r: string)
    ensures forall i :: 0 <= i < |r| ==> r[i] != c
    ensures |r| <= |s|
  {
    if s == [] then []
    else if s[0] == c then Without(s[1..], c)
    else [s[0]] + Without(s[1..], c)
  }

  /** `s.replace(c, '')` for a single character removes exactly that character
      and keeps every other one in order. */
  lemma {:induction false} ReplaceCharIsWithout(s: string, c: char)
    ensures ReplaceAll(s, [c], "") == Without(s, c)
  {
    if s == [] {
    } else if s[0] == c {
      assert s[..1] == [c];
      ReplaceCharIsWithout(s[1..], c);
    } else {
      assert s[..1] != [c];
      ReplaceCharIsWithout(s[1..], c);
    }
  }

  /** `sep.join(parts)` */
  function Join(parts: seq<string>, sep: string): string {
    if parts == [] then ""
    else if |parts| == 1 then parts[0]
    else parts[0] + sep + Join(parts[1..], sep)
  }

  /** Appending one more part to a non-empty join adds the separator and the
      part at the end; this is how a running `acc + sep + p` loop builds it. */
  lemma {:induction false} JoinSnoc(parts: seq<string>, p: string, sep: string)
    ensures Join(parts + [p], sep) == if parts == [] then p else Join(parts, sep) + sep + p
  {
    if parts == [] {
      assert parts + [p] == [p];
    } else if |parts| == 1 {
      assert parts + [p] == [parts[0], p];
    } else {
      var q := parts + [p];
      assert q[0] == parts[0] && q[1..] == parts[1..] + [p];
      JoinSnoc(parts[1..], p, sep);
      var rest := Join(parts[1..], sep);
      assert Join(q, sep) == parts[0] + sep + (rest + sep + p);
      assert Join(parts, sep) == parts[0] + sep + rest;
    }
  }

  /** The parts of `ss` that are not empty, in order. */
  function NonEmpty(ss: seq<string>): (r: seq<string>)
    ensures forall i :: 0 <= i < |r| ==> r[i] != []
  {
    if ss == [] then []
    else if ss[0] == [] then NonEmpty(ss[1..])
    else [ss[0]] + NonEmpty(ss[1..])
  }

  lemma {:induction false} NonEmptySnoc(ss: seq<string>, s: string)
    ensures NonEmpty(ss + [s]) == NonEmpty(ss) + (if s == [] then [] else [s])
  {
    if ss == [] {
      assert ss + [s] == [s];
    } else {
      assert (ss + [s])[1..] == ss[1..] + [s];
      NonEmptySnoc(ss[1..], s);
    }
  }

  function DigitChar(d: nat): (c: char)
    requires d < 10
    ensures '0' <= c <= '9'
  {
    ('0' as int + d) as char
  }

  /** `str(n)` for a non-negative integer: its decimal digits, no leading zero. */
  function NatToString(n: nat): (r: string)
    ensures |r| >= 1
    ensures forall i :: 0 <= i < |r| ==> '0' <= r[i] <= '9'
    ensures |r| > 1 ==> r[0] != '0'
    decreases n
  {
    if n < 10 then [DigitChar(n)]
    else NatToString(n / 10) + [DigitChar(n % 10)]
  }

  /** Reads decimal digits back as a number. */
  function DigitsValue(s: string): nat
    requires forall i :: 0 <= i < |s| ==> '0' <= s[i] <= '9'
  {
    if s == [] then 0
    else DigitsValue(s[..|s| - 1]) * 10 + (s[|s| - 1] as int - '0' as int)
  }

  /** The rendered count reads back as the count. */
  lemma {:induction false} NatToStringRoundTrip(n: nat)
    ensures DigitsValue(NatToString(n)) == n
    decreases n
  {
    if n >= 10 {
      var s := NatToString(n);
      assert s[..|s| - 1] == NatToString(n / 10);
      NatToStringRoundTrip(n / 10);
    }
  }

  /** Python's ordering of `str` values: code point by code point, with a
      proper prefix before any longer string. */
  predicate LexLe(a: string, b: string)
    decreases |a|
  {
    a == [] || (b != [] && (a[0] < b[0] || (a[0] == b[0] && LexLe(a[1..], b[1..]))))
  }

  predicate LexLt(a: string, b: string) {
    LexLe(a, b) && a != b
  }

  lemma {:induction false} LexLeTotal(a: string, b: string)
    ensures LexLe(a, b) || LexLe(b, a)
    decreases |a|
  {
    if a != [] && b != [] && a[0] == b[0] {
      LexLeTotal(a[1..], b[1..]);
    }
  }

  lemma {:induction false} LexLeAntisymmetric(a: string, b: string)
    requires LexLe(a, b) && LexLe(b, a)
    ensures a == b
    decreases |a|
  {
    if a != [] {
      LexLeAntisymmetric(a[1..], b[1..]);
      assert a == [a[0]] + a[1..] && b == [b[0]] + b[1..];
    }
  }

  lemma {:induction false} LexLeTransitive(a: string, b: string, c: string)
    requires LexLe(a, b) && LexLe(b, c)
    ensures LexLe(a, c)
    decreases |a|
  {
    if a != [] && a[0] == b[0] && b[0] == c[0] {
      LexLeTransitive(a[1..], b[1..], c[1..]);
    }
  }

  lemma LexLeAntisymmetricAll()
    ensures forall a, b :: LexLe(a, b) && LexLe(b, a) ==> a == b
  {
    forall a, b | LexLe(a, b) && LexLe(b, a)
      ensures a == b
    {
      LexLeAntisymmetric(a, b);
    }
  }

  predicate IsLeast(m: string, s: set<string>) {
    m in s && forall x :: x in s ==> LexLe(m, x)
  }

  /** Every finite non-empty set of strings has a least element. */
  lemma {:induction false} LeastExists(s: set<string>)
    requires s != {}
    ensures exists m :: IsLeast(m, s)
    decreases |s|
  {
    var y :| y in s;
    LexLeTotal(y, y);
    if s == {y} {
      assert IsLeast(y, s);
    } else {
      var rest := s - {y};
      LeastExists(rest);
      var m :| IsLeast(m, rest);
      LexLeTotal(m, y);
      if LexLe(m, y) {
        assert IsLeast(m, s);
      } else {
        forall x | x in s
          ensures LexLe(y, x)
        {
          if x != y {
            assert x in rest;
            LexLeTransitive(y, m, x);
          }
        }
        assert IsLeast(y, s);
      }
    }
  }

  function Least(s: set<string>): (m: string)
    requires s != {}
    ensures m in s
    ensures forall x :: x in s ==> LexLe(m, x)
  {
    LeastExists(s);
    LexLeAntisymmetricAll();
    var m :| IsLeast(m, s);
    m
  }

  /** `sorted(s)` for a set of strings: every element once, strictly ascending. */
  function SortedKeys(s: set<string>): (r: seq<string>)
    ensures |r| == |s|
    ensures forall x :: x in r <==> x in s
    ensures forall i, j :: 0 <= i < j < |r| ==> LexLt(r[i], r[j])
    decreases |s|
  {
    if s == {} then []
    else
      var m := Least(s);
      var rest := SortedKeys(s - {m});
      assert forall j :: 0 <= j < |rest| ==> LexLt(m, rest[j]) by {
        forall j | 0 <= j < |rest|
          ensures LexLt(m, rest[j])
        {
          assert rest[j] in s - {m};
        }
      }
      [m] + rest
  }

  // ----- sequences -----

  /** The head and tail of `xs + ys` when `xs` is not empty. */
  lemma ConsOfAppend<T>(xs: seq<T>, ys: seq<T>)
    requires xs != []
    ensures (xs + ys)[0] == xs[0] && (xs + ys)[1..] == xs[1..] + ys
  {
  }

  lemma AppendAssoc<T>(a: seq<T>, b: seq<T>, c: seq<T>)
    ensures a + b + c == a + (b + c)
  {
  }
}

=== FILE: wrappers.dfy ===
/** The optional value used wherever the converters may produce nothing. */
module Wrappers {

  datatype Option<+T> = None | Some(value: T)
}
